=== FILE: README.md ===
# Glossary service, modelled in Dafny

The glossary service stores terms (a name, a definition, synonym and tag
lists, and an optional source) and typed relations between them
(`is-a`, `part-of`, `related-to`, `synonym-of`, `derived-from`).

It has two backends over the same PostgreSQL schema:

- a Python one: SQLAlchemy data access, FastAPI routes, a gRPC service and a bearer-token middleware;
- a TypeScript one: Prisma services, Express routes and a bearer-token middleware.

A Vue client lists, edits and links the terms.

This project models the following pieces as pure Dafny functions over one
abstract database state.

- The stored rows and the constraints the schema declares:
  - a unique term name;
  - relation ends that must exist, with `ON DELETE CASCADE` (which the SQLAlchemy delete never reaches, see Findings);
  - the column widths 255/512/1024/64. As PostgreSQL's `varchar(n)` does, a value longer than its width only by trailing spaces is stored cut to `n` characters; any other longer value is refused;
  - `text` and `varchar` values cannot hold the NUL character.
- The store operations both ORMs issue, with the database's refusals as values:
  a NUL character, unique violation, foreign-key violation, `NOT NULL` violation, value too long, missing row, and a malformed `ILIKE` pattern.
  The uniqueness of a term name is judged on the stored (cut) name.
  A refused insert writes no row, but a unique or foreign-key refusal still uses up the id its row drew from the table's sequence. A NUL or width refusal draws no id.
  A NUL in a query or keyword is refused the same way, so the Python routes answer 500, gRPC `UNKNOWN`, and the Express routes 500 (Prisma reports it as an unknown request error without a code).
- The shared term listing:
  - the four-column case-insensitive search;
  - `ORDER BY term`;
  - `LIMIT`/`OFFSET`;
  - the keyword lookup, both with PostgreSQL `ILIKE` and with Prisma's insensitive `contains`/`equals`. `ILIKE` follows PostgreSQL's `MatchText` scan (`like_match.c`), including when it raises on a pattern ending in a lone `\`.
- The list-as-comma-string encoding of synonyms and tags, and the three ways it is read back:
  - the REST projection;
  - the gRPC projection;
  - `formatTerm`.
- For each backend:
  - every data-access function (`crud.py`, `termService.ts`, `relationService.ts`);
  - every route (`routers.py`, `routes/terms.ts`, `routes/relations.ts`);
  - every gRPC method.

  Each is modelled with its status codes and error branches, and with the exceptions that FastAPI and gRPC turn into 500 and `UNKNOWN`.
- The two bearer-token gates. Both expect the header form of section 2.1 of RFC 6750.
  Lemmas show where they agree and where they part.
- The CORS origin list of the Python settings.
- The client's label table, relation-kind test and error text.
- The client's `useGlossary` state machine. Each action takes the replies of its HTTP calls as parameters, and returns the new state and the calls it made.

Files:

| file | module | models |
|---|---|---|
| `optional.dfy` | `Optional` | `Option` and `Result` |
| `text.dfy` | `Text` | lower-casing, substring search, `split`/`join`, `strip`, lexicographic order |
| `like.dfy` | `Like` | PostgreSQL `ILIKE` |
| `domain.dfy` | `Domain` | rows, relation kinds, column widths, the database invariant |
| `store.dfy` | `Store` | inserts, updates and deletes with the database's refusals |
| `listing.dfy` | `Listing` | the filtered, ordered, paged listing and the keyword lookup |
| `codec.dfy` | `Codec` | encodings of the list columns and their round trips |
| `schemas.dfy`, `http.dfy` | `Schemas`, `Http` | request/response shapes, validation, status codes |
| `crud.dfy`, `rest.dfy`, `grpc.dfy` | `Crud`, `RestApi`, `Grpc` | the Python backend |
| `ts_types.dfy`, `prisma.dfy`, `routes.dfy` | `TsTypes`, `PrismaService`, `Routes` | the TypeScript backend |
| `auth.dfy`, `config.dfy` | `Auth`, `Settings` | the middlewares and the Python settings |
| `labels.dfy`, `glossary_ui.dfy` | `Labels`, `GlossaryUi` | the web client |

## Model

| member | source | states |
|---|---|---|
| Domain.ParseKind | backend/app/schemas.py:41 | The relation-kind pattern accepts exactly the five spellings, and parsing is the inverse of their spelling. |
| Domain.EmptyValid | backend/app/models.py:9-37 | An empty database satisfies every declared constraint (keys, unique names, existing ends, widths). |
| Domain.ClipDropsOnlySpaces | backend/app/models.py:13-20 | A `VARCHAR(n)` column accepts a value iff everything past its stored first `n` characters is spaces. |
| Domain.KindNameFits | backend/app/schemas.py:41 | Each of the five kind spellings fits the 64-character column and holds no NUL. |
| Text.Split | backend/app/routers.py:25 | `str.split(",")` always yields at least one piece, and no piece holds the separator. |
| Text.SplitJoin | backend/app/routers.py:25 | Splitting the join of separator-free pieces gives back the pieces. |
| Text.Strip | backend/app/config.py:15 | `strip()` and `trim()` remove exactly the surrounding whitespace, by Python's or JavaScript's whitespace set: the result is stripped, and the input is whitespace, then the result, then whitespace. |
| Text.StripUnique | backend/app/config.py:15 | Whitespace, then a stripped string `m`, then whitespace strips to `m`: the contract of `strip` fixes its result. |
| Text.SplitTrimmed | backend/src/types.ts:62-63 | Split, `trim()` every piece and drop the empty ones: every result is non-empty, trimmed by JavaScript's whitespace set and comma-free. |
| Text.SplitTrimmedJoin | backend/src/types.ts:62-63 | Clean pieces joined by commas are read back unchanged by split-trim-filter. |
| Like.Ilike | backend/app/crud.py:32 | `ILIKE` lower-cases both sides and runs PostgreSQL's scan: when it does not raise, the verdict is the meaning of the pattern's `%`, `_` and `\` tokens; it can raise only for a pattern ending in a lone `\`. |
| Like.MatchText | backend/app/crud.py:32 | PostgreSQL's `MatchText`: it answers TRUE iff the pattern's tokens match the whole text, ABORT only when no suffix of the text matches, and raises only for a malformed pattern. |
| Like.ScanFor | backend/app/crud.py:14 | The search after a `%` never answers FALSE, and answers TRUE iff some suffix of the text matches the rest of the pattern. |
| Like.IlikeTokens | backend/app/crud.py:32 | A well-formed pattern never raises and matches exactly as its tokens say. |
| Like.IlikeLoneEscape | backend/app/crud.py:32 | `w\` raises on a text iff the text starts with `w` (ignoring case) and is longer; on any other text it is FALSE. |
| Like.LoneEscapeExamples | backend/app/crud.py:32 | `a\` is FALSE on `a` and on `b` and raises on `ab`: the error depends on the row as well as the pattern. |
| Like.IlikeContainsTokens | backend/app/crud.py:14-21 | The search pattern `%q%` never raises, whatever the query. |
| Like.IlikeContainsLiteral | backend/app/crud.py:14-21 | `%q%` without wildcards in `q` matches exactly the columns that contain `q` ignoring case. |
| Like.UnderscoreSearch | backend/app/crud.py:14 | An `_` in a search query matches any character: the query `a_b` finds a column `axb`, which does not contain `a_b`. |
| Store.Patched | backend/app/crud.py:63-75 | A patch writes exactly its supplied columns; the empty patch changes nothing. |
| Store.Clipped | backend/app/models.py:13-20 | The stored values are each within their widths, and a row already within them is stored unchanged. |
| Store.WidthAndNulExamples | backend/app/models.py:17 | A 513-character title ending in a space is stored as its first 512 characters, one ending in a letter is refused as too long, and a term holding NUL is refused without using up an id. |
| Store.InsertTerm | backend/alembic/versions/0001_init.py:15-22 | An insert fails iff a text value holds NUL, a value does not fit its column (longer than the width by anything but spaces, or a year outside `INTEGER`), or the stored name is taken, in that order of errors; otherwise it adds one fresh row holding each bounded value cut to its width, and keeps the database valid. |
| Store.UpdateTerm | backend/app/models.py:13-22 | An update of a missing row fails; otherwise it fails iff the patched row holds NUL, does not fit, or its stored name is another row's, and else replaces only that row with the patched values cut to their widths and keeps the database valid. |
| Store.Detached | backend/alembic/versions/0001_init.py:31-32 | The relations surviving a cascade are exactly those that touch neither end of the deleted term. |
| Store.DeleteTerm | backend/app/models.py:35-36 | A delete fails iff the id is missing; otherwise it removes the term and cascades to its relations. |
| Store.InsertRelation | backend/alembic/versions/0001_init.py:31-33 | A relation insert fails iff the kind holds NUL, is longer than 64 by anything but spaces, or an end is missing (in that order); otherwise it adds a fresh row with the kind cut to 64. |
| Store.AfterRefusedTermInsert | backend/alembic/versions/0001_init.py:14-15 | A refused term insert leaves both tables as they were and keeps the database valid; it uses up the next term id exactly when the refusal is the unique violation, and none for a value that holds NUL or does not fit. |
| Store.AfterRefusedRelationInsert | backend/alembic/versions/0001_init.py:30-33 | A refused relation insert leaves both tables as they were; it uses up the next relation id exactly when the refusal is the foreign-key violation, and none for a kind that holds NUL or does not fit. |
| Store.UpdateRelation | backend/app/models.py:35-37 | A relation update fails for a missing id, a kind that holds NUL or does not fit, or a missing end; otherwise it writes the supplied columns, the kind cut to 64. |
| Store.DeleteRelation | backend/app/models.py:31-37 | A relation delete fails iff the id is missing and removes only that row. |
| Store.TermRows | backend/app/crud.py:12 | An unordered select returns every stored row once, each as stored. |
| Store.DeleteTermTwice | backend/src/services/termService.ts:61-63 | The second delete of the same term finds no row. |
| Store.CascadeRemovesExactlyIncident | backend/app/models.py:35-36 | After deleting a term no relation mentions it, and every other relation survives. |
| Store.InsertThenDeleteTerm | backend/app/crud.py:36-56 | Deleting the row an insert just created restores the term table. |
| Store.EmptyPatchIsNoOp | backend/app/crud.py:59-78 | An update that supplies nothing leaves the database, the row and its timestamp as they were. |
| Listing.Filter | backend/app/crud.py:13-22 | Filtering keeps exactly the rows the query selects; no query or an empty query selects all. |
| Listing.SortByTerm | backend/app/crud.py:23 | `ORDER BY term` yields a sorted permutation of the rows. |
| Listing.Page | backend/app/crud.py:23 | `LIMIT`/`OFFSET` yields the run of `min(limit, n - offset)` rows starting at the offset, nothing past the end. |
| Listing.Ordered | backend/app/crud.py:13-23 | The rows the query selects, each stored term once, sorted by name; every selected stored term is among them. |
| Listing.PagesTile | backend/src/services/termService.ts:18-22 | Consecutive pages concatenate to the larger page: paging loses and repeats nothing. |
| Listing.ListTerms | backend/app/crud.py:11-24 | The listing is exactly the `LIMIT`/`OFFSET` window of the selected stored terms in name order: `min(limit, n - offset)` rows, row `i` being the ordered term at `offset + i`. |
| Listing.OrderedUnique | backend/app/crud.py:23 | Any repeat-free, name-sorted list of exactly the selected stored terms is the ordered selection: the listing is determined. |
| Listing.ListTermsComplete | backend/app/crud.py:11-24 | Every stored term the query selects appears on some page of size one. |
| Listing.UnfilteredListsAll | backend/src/services/termService.ts:5-23 | Without a query and with a large enough limit, every stored term is listed. |
| Listing.GetByKeyword | backend/app/crud.py:31-33 | The keyword lookup returns a stored matching row with no matching row before it, and nothing iff no row matches. |
| Listing.KeywordFindsSoleMatch | backend/src/services/termService.ts:29-33 | When exactly one term matches, the lookup returns it. |
| Listing.KeywordEnginesAgree | backend/src/services/termService.ts:29-33 | Without `ILIKE` wildcards in the keyword, both backends look up the same row. |
| Listing.SearchEnginesAgree | backend/src/services/termService.ts:8-16 | Without wildcards in the query, both backends' searches select the same terms. |
| Listing.SynonymHitMatches | backend/app/crud.py:19 | A query found inside one synonym finds the term through the joined column. |
| Listing.SearchSpansSeparator | backend/app/crud.py:19 | A query spanning the comma between two synonyms (`b,c`) also matches, though it lies in no synonym. |
| Codec.EncodeOnCreate | backend/app/crud.py:37-38 | A create stores NULL for an absent or empty list, and the comma-join otherwise. |
| Codec.EncodeOnUpdate | backend/app/crud.py:67-70 | An update writes the comma-join of a supplied list, even the empty one, and leaves an absent one alone. |
| Codec.ToJoinedString | backend/src/services/termService.ts:35-38 | Absent stays absent, `[]` becomes NULL, any other list its comma-join. |
| Codec.DecodeRest | backend/app/routers.py:25-26 | A NULL or empty column reads as None, otherwise as its comma pieces. |
| Codec.DecodeGrpc | backend/app/grpc_server.py:21-39 | A NULL or empty column reads as `[]`, otherwise as its comma pieces. |
| Codec.DecodeFormat | backend/src/types.ts:62-63 | NULL reads as null; otherwise the pieces, trimmed, without empty ones. |
| Codec.RestRoundTrip | backend/app/routers.py:25 | A created list reads back unchanged through REST iff it is non-empty, comma-free and not `[""]`. |
| Codec.GrpcRoundTrip | backend/app/grpc_server.py:21-39 | A created list reads back unchanged through gRPC iff it is empty, or comma-free and not `[""]`. |
| Codec.FormatRoundTrip | backend/src/types.ts:57-71 | A created list reads back unchanged through `formatTerm` iff every element is non-empty, trimmed and comma-free. |
| Codec.CreateEncodingsAgree | backend/src/services/termService.ts:40-48 | Both backends store the same column value for a list on create. |
| Codec.UpdateEncodingsDiffer | backend/src/services/termService.ts:50-59 | On update with `[]` the Python backend writes `""` and the TypeScript backend writes NULL. |
| Codec.EmptyStringReads | backend/app/grpc_server.py:21-39 | The `""` a Python update writes reads as None over REST, `[]` over gRPC, and `[]` through `formatTerm`. |
| Settings.CorsOrigins | backend/app/config.py:14-15 | Every origin is non-empty, stripped and comma-free, and every non-blank comma piece appears stripped. |
| Settings.DefaultOrigins | backend/app/config.py:10 | The default setting yields exactly the one default origin. |
| Settings.OriginsRoundTrip | backend/app/config.py:14-15 | Clean origins joined by commas are read back as written. |
| Settings.OriginsConcat | backend/app/config.py:15 | The origins of `a,b` are the origins of `a` followed by those of `b`: order is kept. |
| Crud.ListTerms | backend/app/crud.py:11-24 | An error iff the query is non-empty and holds NUL; otherwise the `LIMIT`/`OFFSET` window, in name order, of the stored terms whose four columns match `ILIKE '%q%'` on the lower-cased query. |
| Crud.GetTermById | backend/app/crud.py:27-28 | The row under the id, or None iff there is none. |
| Crud.GetTermByKeyword | backend/app/crud.py:31-33 | An error iff the keyword holds NUL or raises on some stored term, since the statement has no `LIMIT` and every row is tested; otherwise the first row whose term matches, and None iff none matches. |
| Listing.RowRaises | backend/app/crud.py:31-33 | The lookup fails iff the keyword raises on some row. |
| Crud.NewTermOf | backend/app/crud.py:36-52 | The inserted columns: the lists encoded, the source fields taken from `source` or NULL. |
| Crud.CreateTerm | backend/app/crud.py:36-56 | A create fails iff a value holds NUL or does not fit, or the stored name is taken; otherwise it returns the new row holding the request's columns, each bounded one cut to its width. |
| Crud.PatchOf | backend/app/crud.py:63-75 | Supplied fields are written and absent ones left; a supplied `source` overwrites all four source columns. |
| Crud.UpdateTerm | backend/app/crud.py:59-78 | None with the store untouched for a missing id; else a failure iff the patched row holds NUL, does not fit or takes another stored name; else the patched row, the bounded values cut to their widths. |
| Crud.DeleteTerm | backend/app/crud.py:81-87 | False with nothing changed for a missing id; raises (`NOT NULL` violation) iff some relation references the term; otherwise True with only the term removed. |
| Crud.DeleteTermCascade | backend/alembic/versions/0001_init.py:31-32 | The delete the `ON DELETE CASCADE` keys intend: True iff the id exists, with the term removed, no relation left referencing it, and every other relation kept. |
| Crud.DeleteTermAgrees | backend/app/crud.py:81-87 | On an unreferenced term the written delete is the cascading one; it raises exactly where the cascade would remove relations. |
| Crud.DeleteRelatedTermRaises | backend/app/models.py:24-29 | With one relation between terms 1 and 2, deleting term 1 raises as written, while the cascade removes the term and the relation. |
| Crud.CreateRelation | backend/app/crud.py:90-95 | A relation is stored iff its kind is NUL-free and fits and both ends exist, with the kind cut to 64. |
| Crud.ListRelations | backend/app/crud.py:98-100 | Every stored relation, each as stored. |
| Crud.UpdateRelation | backend/app/crud.py:103-115 | None with the store untouched for a missing id; else a failure iff the kind holds NUL or does not fit or an end is missing; else the patched row, the kind cut to 64. |
| Crud.DeleteRelation | backend/app/crud.py:118-124 | False for a missing id; else True, with only that relation removed. |
| Crud.DeleteTermTwiceFalse | backend/app/crud.py:81-87 | After a delete that does not raise, deleting the same id again returns False and changes nothing. |
| Crud.DeleteRelationTwiceFalse | backend/app/crud.py:118-124 | Deleting the same relation twice returns True then False. |
| Crud.UpdateEmptySynonymsStoresEmptyString | backend/app/crud.py:67-68 | An update with `synonyms=[]` stores the empty string, not NULL. |
| Crud.NoChangesIsNoOp | backend/app/crud.py:59-78 | An update with every field at its default changes nothing. |
| Crud.CreateThenFindByKeyword | backend/app/crud.py:31-56 | A created wildcard-free term no longer than 255 is found by its own name in any letter case. |
| Crud.KeywordWildcardFindsOther | backend/app/crud.py:32 | A name with `_` used as a keyword can find a different, earlier term. |
| RestApi.ToTermOut | backend/app/routers.py:21-35 | The response for a row: it fails validation iff the stored name is empty or longer than 255; otherwise the lists are decoded and the source grouped. |
| RestApi.ToRelationOut | backend/app/routers.py:85 | The response for a relation fails validation iff its kind is not one of the five. |
| RestApi.ListTerms | backend/app/routers.py:17-37 | 500 for a negative limit or offset or a non-empty query holding NUL; otherwise 200 with the `LIMIT`/`OFFSET` window of the selected terms in name order, row `i` showing the ordered term at `offset + i`; always 200 then when every stored name is valid. |
| RestApi.GetTermByKeyword | backend/app/routers.py:39-58 | 404 "Term not found" iff the keyword is NUL-free and no stored term matches it; 500 when the keyword holds NUL or raises on some stored term; a 200 answer shows the row the data-access lookup returns. |
| RestApi.CreateTerm | backend/app/routers.py:60-63 | 422 for a name outside 1..255; 500 with no row written for a value holding NUL or not fitting, or a taken name, the taken name using up one term id; otherwise the data-access create is committed, and a 201 answer is some stored row matching the new name as a pattern, not necessarily the new row. |
| RestApi.CreateTermCorrected | backend/app/routers.py:60-63 | 201 with the written row iff the request is valid, NUL-free, fits and the name is free; otherwise no row is written, and only a valid, fitting request uses up a term id. |
| RestApi.UpdateTerm | backend/app/routers.py:65-70 | 404 for a missing id; 500 with nothing written for a patch that holds NUL, does not fit or takes another stored name; otherwise the data-access update is committed, then answered through the keyword re-read. |
| RestApi.UpdateTermCorrected | backend/app/routers.py:65-70 | 200 with the written row iff the id exists, the new name (if any) is valid and free, and the patched row is NUL-free and fits. |
| RestApi.DeleteTerm | backend/app/routers.py:72-77 | 404 for a missing id; 500 with nothing written for a term some relation references; otherwise 204 with only the term removed. |
| RestApi.CreateRelation | backend/app/routers.py:79-81 | 422 for an unknown kind; for a known kind, 201 iff both ends exist, with the relation stored as given, and otherwise 500 with no row written and one relation id used up. |
| RestApi.ListRelations | backend/app/routers.py:83-85 | Every stored relation, or 500 when a stored kind is not one of the five. |
| RestApi.UpdateRelation | backend/app/routers.py:87-92 | 422 for an unknown supplied kind; 404 for a missing id; 200 iff the supplied ends exist and the resulting kind is one of the five, with each field the supplied one or the stored one; a stored kind outside the five is committed and then answered 500. |
| RestApi.DeleteRelation | backend/app/routers.py:94-99 | 204 iff the relation existed; 404 otherwise. |
| RestApi.GetGraph | backend/app/routers.py:101-128 | Nodes are the first `min(10000, n)` terms in name order, shown row by row; edges are every relation; 500 when a stored row fails validation. |
| RestApi.RefusedCreateUsesId | backend/app/routers.py:60-63 | On a fresh database, creating `a`, then `a` again (refused), then `b` stores `b` under id 3: the refused create used up id 2. |
| RestApi.CreateAnswersWithOtherRow | backend/app/routers.py:62-63 | Creating `ENTROPY` next to a stored `Entropy` commits the new row and answers with the old one. |
| RestApi.CreateCorrectedEchoesInput | backend/app/routers.py:60-63 | The corrected create answers with the row it wrote under the request's name, and the synonyms read back as posted iff the comma encoding can carry them. |
| RestApi.UpdateToEmptyTermCommitsThenFails | backend/app/schemas.py:23-28 | A `PUT` with `term=""` commits the empty name and then answers 500. |
| RestApi.CorrectedWritesKeepNamesValid | backend/app/schemas.py:13-14 | The corrected writes keep every stored name showable, so no later read fails. |
| RestApi.TermWritesKeepKinds | backend/app/schemas.py:41 | Term writes never alter relation kinds, so the validated kinds stay valid. |
| Grpc.TermToPb | backend/app/grpc_server.py:21-39 | The message for a row: lists split, `[]` for NULL or `""`; NULL source texts as `""`; a NULL year as 0. |
| Grpc.SourceFromPb | backend/app/grpc_server.py:67-72 | The `source` object read from a message: `""` and a zero year become None. |
| Grpc.ListTerms | backend/app/grpc_server.py:52-55 | `UNKNOWN` iff limit or offset is negative or the query holds NUL; else the `LIMIT`/`OFFSET` window of the selected terms in name order, converted row by row, with a zero limit read as 100. |
| Grpc.GetTermByKeyword | backend/app/grpc_server.py:57-62 | `UNKNOWN` iff the keyword holds NUL or raises on some stored term; `NOT_FOUND` iff neither and no stored term matches; else the row the data-access lookup returns. |
| Grpc.CreateDataOf | backend/app/grpc_server.py:64-75 | The create object: name, definition, both lists as given, the source from the message when present. |
| Grpc.CreateTerm | backend/app/grpc_server.py:64-81 | Succeeds iff the row is NUL-free and fits and the stored name is free, returning the new row with its name cut to 255; otherwise `UNKNOWN` with no row written, a taken name using up one term id. |
| Grpc.UpdateDataOf | backend/app/grpc_server.py:83-96 | The update object can be built iff both repeated lists are non-empty. |
| Grpc.UpdateDataCorrected | backend/app/grpc_server.py:83-96 | The intended update object: an empty list is not supplied, a non-empty one is. |
| Grpc.ApplyUpdate | backend/app/grpc_server.py:97-103 | `NOT_FOUND` iff the id is missing; success iff the data-access update succeeds; the store changes only on success. |
| Grpc.UpdateTerm | backend/app/grpc_server.py:83-103 | An empty synonyms or tags list gives `UNKNOWN` with the store untouched; otherwise the update is applied. |
| Grpc.UpdateTermCorrected | backend/app/grpc_server.py:83-103 | `NOT_FOUND` iff the id is missing; else success iff the patched row is NUL-free and fits and its stored name is free, with only the supplied fields changed and the name cut to 255. |
| Grpc.DeleteTerm | backend/app/grpc_server.py:105-110 | `NOT_FOUND` "Term not found" for a missing id; `UNKNOWN` with nothing written for a term some relation references; otherwise success with only the term removed. |
| Grpc.CreateRelation | backend/app/grpc_server.py:112-120 | Never succeeds and never changes the store. |
| Grpc.CreateRelationCorrected | backend/app/grpc_server.py:112-120 | Succeeds iff the kind is one of the five and both ends exist, returning the stored relation; a dangling end writes no row but uses up a relation id, and an unknown kind changes nothing. |
| Grpc.UpdateRelation | backend/app/grpc_server.py:122-132 | `NOT_FOUND` iff the id is missing; for a stored id, success iff the supplied kind is NUL-free and fits and the supplied ends exist, with each field the supplied one (the kind cut to 64) or the stored one; an error leaves the store unchanged. |
| Grpc.DeleteRelation | backend/app/grpc_server.py:134-139 | Success iff the id exists, removing only that relation. |
| Grpc.ListRelations | backend/app/grpc_server.py:141-144 | Every stored relation as a message, and nothing else. |
| Grpc.GetGraph | backend/app/grpc_server.py:146-153 | Nodes are the first `min(10000, n)` terms in name order, converted row by row; edges are every relation. |
| Grpc.CreateEchoesSource | backend/app/grpc_server.py:64-81 | A created term's source reads back as sent, each text cut to its column's width, an absent source as the empty one. |
| Grpc.CreateEchoesSynonyms | backend/app/grpc_server.py:64-81 | A list reads back as sent iff it is empty, or comma-free and not `[""]`. |
| Grpc.CreateAcceptsEmptyTerm | backend/app/grpc_server.py:64-81 | An empty name is stored: nothing validates a gRPC create. |
| Grpc.UpdateWithoutListsFails | backend/app/grpc_server.py:88-89 | An update with both lists empty fails as written, and the corrected handler returns the term unchanged. |
| Grpc.CreatedRelationIsListed | backend/app/crud.py:91 | As written nothing is stored; corrected, the new relation is stored and listed. |
| TsTypes.FormatTerm | backend/src/types.ts:57-71 | Every column is copied; a list is null iff stored NULL, and its pieces are clean. |
| TsTypes.FormatTerms | backend/src/routes/terms.ts:16 | Every row of a listing is formatted, in order. |
| TsTypes.FormatReadsJoin | backend/src/types.ts:62-63 | A comma-joined list reads back through `formatTerm` iff every element is clean. |
| PrismaService.CodeOf | backend/src/routes/terms.ts:85-95 | Each refusal has its own error code: P2000 too long, P2002 unique, P2003 foreign key, P2011 null constraint, P2025 not found, and no code for the database's refusal of NUL. |
| PrismaService.ListTerms | backend/src/services/termService.ts:5-23 | An error with no code iff the query is non-empty and holds NUL; otherwise exactly the `skip`/`take` window of the stored terms matching the insensitive search, in name order. |
| PrismaService.GetTermById | backend/src/services/termService.ts:25-27 | The row under the id, or null iff there is none. |
| PrismaService.GetTermByKeyword | backend/src/services/termService.ts:29-33 | An error with no code iff the keyword holds NUL; otherwise a stored term equal to the keyword ignoring case, and null iff there is none. |
| PrismaService.NewTermOf | backend/src/services/termService.ts:40-48 | The inserted columns: lists through `toJoinedString`, agreeing with the Python create encoding. |
| PrismaService.CreateTerm | backend/src/services/termService.ts:40-48 | Fails iff a value holds NUL (no code), does not fit (P2000) or the stored name is taken (P2002); otherwise returns the new row, each bounded value cut to its width. |
| PrismaService.PatchOf | backend/src/services/termService.ts:50-59 | Defined fields are written, undefined ones left; `[]` clears a list. |
| PrismaService.UpdateTerm | backend/src/services/termService.ts:50-59 | P2025 for a missing id; else a failure iff the patched row holds NUL, does not fit or takes another stored name; else each column patched as supplied, the bounded ones cut to their widths. |
| PrismaService.DeleteTerm | backend/src/services/termService.ts:61-63 | P2025 iff the id is missing; otherwise the term and its relations are removed. |
| PrismaService.ListRelations | backend/src/services/relationService.ts:4-6 | Every stored relation, as stored. |
| PrismaService.GetRelationById | backend/src/services/relationService.ts:8-10 | The relation under the id, or null iff there is none. |
| PrismaService.CreateRelation | backend/src/services/relationService.ts:12-14 | Fails iff the kind holds NUL (no code), does not fit (P2000) or an end is missing (P2003); the kind is not checked against the five, and is stored cut to 64. |
| PrismaService.UpdateRelation | backend/src/services/relationService.ts:16-24 | P2025 for a missing id; else a failure iff the kind holds NUL or does not fit or an end is missing; else the supplied fields written, the kind cut to 64. |
| PrismaService.DeleteRelation | backend/src/services/relationService.ts:26-28 | P2025 iff the id is missing; otherwise only that relation is removed. |
| PrismaService.DeleteTermTwice | backend/src/services/termService.ts:61-63 | The second delete of a term fails with P2025. |
| PrismaService.EmptyUpdateIsNoOp | backend/src/services/termService.ts:50-59 | An update with every field undefined changes nothing. |
| PrismaService.CreateThenFormat | backend/src/services/termService.ts:40-48 | A created term formats back with its fields, each bounded text cut to its width; a list reads back as sent iff it is absent or non-empty with clean elements. |
| PrismaService.ClearListReadsNull | backend/src/services/termService.ts:35-38 | Updating a list to `[]` makes it read back as null. |
| Routes.ListTerms | backend/src/routes/terms.ts:7-19 | 500 iff the query is non-empty and holds NUL; otherwise 200 with the `skip`/`take` window (defaults 0 and 100) of the selected terms in name order, formatted row by row. |
| Routes.GetTermByKeyword | backend/src/routes/terms.ts:21-36 | 500 iff the keyword holds NUL; else 404 "Term not found" iff no term equals the keyword ignoring case; otherwise 200 with such a term. |
| Routes.CreateTerm | backend/src/routes/terms.ts:38-51 | 400 "Term already exists" iff the row is NUL-free and fits and the stored name is taken; 500 iff it holds NUL or does not fit; else 201 with the new row, its name cut to 255. A refusal writes no row, and the taken name uses up one term id. |
| Routes.UpdateTerm | backend/src/routes/terms.ts:53-68 | 404 iff the id is missing; else 200 iff the patched row is NUL-free and fits and its stored name is free; the store changes only on success. |
| Routes.DeleteTerm | backend/src/routes/terms.ts:70-83 | 204 iff the term existed, with the cascade; 404 otherwise. |
| Routes.CreateRelation | backend/src/routes/relations.ts:8-17 | 201 with the raw row iff the kind is NUL-free and fits its column and both ends exist, the kind cut to 64; every failure is 500 with no row written, and a dangling end uses up one relation id. |
| Routes.ListRelations | backend/src/routes/relations.ts:19-27 | 200 with every stored relation. |
| Routes.UpdateRelation | backend/src/routes/relations.ts:29-44 | 404 iff the id is missing; for a stored id, 200 iff the supplied kind is NUL-free and fits and the supplied ends exist, with each field the supplied one (the kind cut to 64) or the stored one; other failures 500 with the store unchanged. |
| Routes.DeleteRelation | backend/src/routes/relations.ts:46-59 | 204 iff the relation existed; 404 otherwise. |
| Routes.GetGraph | backend/src/routes/relations.ts:61-74 | Nodes are the first `min(10000, n)` terms in name order, formatted row by row; edges are every relation. |
| Routes.CreateStatuses | backend/src/routes/terms.ts:85-95 | A create answers 201, 400 or 500 exactly as the store accepts it, finds the stored name taken, or finds a value holding NUL or not fitting. |
| Routes.CreateEchoesLists | backend/src/routes/terms.ts:38-51 | A posted term answers with its lists as posted iff each is absent or non-empty with clean elements. |
| Routes.GraphHasEveryTerm | backend/src/routes/relations.ts:61-74 | With at most 10000 terms, every term is a node of the graph. |
| Auth.PythonGate | backend/app/middleware.py:9-20 | Outside `/api`, the docs, preflight, or with no token configured, the request passes; otherwise it passes iff the header has the `bearer ` scheme and its remainder is exactly the token. |
| Auth.AfterFirst | backend/app/middleware.py:18 | `s.split(c, 1)[1]` is everything after the first `c` of `s`. |
| Auth.ExpressGate | backend/src/middleware.ts:4-24 | 503 with no token configured; otherwise it passes iff the header's first space-separated piece is `bearer` in any case and its second piece is the token. |
| Auth.ExpressTokenCheck | backend/src/middleware.ts:16-21 | The space-split check is the same as: scheme, then the token (which must contain no space), then the end of the header or a space. |
| Auth.GatesAgreeOnPlainHeader | backend/src/middleware.ts:16-21 | On `Bearer <tok>` with space-free tokens, both gates admit exactly the configured token. |
| Auth.TrailingPieceDiverges | backend/app/middleware.py:17-19 | `Bearer <token> <more>` passes the Express gate and fails the Python gate. |
| Auth.UnconfiguredDiverges | backend/src/middleware.ts:5-8 | With no token configured, Python lets everything through and Express refuses everything with 503. |
| Auth.SpacedTokenDiverges | backend/src/middleware.ts:16-21 | A configured token containing a space can never pass the Express gate, while the Python gate admits it. |
| Labels.RelationLabel | frontend/src/utils.ts:3-13 | Every kind has a non-empty label. |
| Labels.LabelsDistinct | frontend/src/utils.ts:3-9 | Two kinds have the same label iff they are the same kind. |
| Labels.IsRelationType | frontend/src/utils.ts:15-17 | A value is a relation type iff it is the spelling of some kind. |
| Labels.ClientAndServerAgreeOnKinds | frontend/src/types.ts:35 | The client's relation-type test and the Python schema's pattern accept the same strings. |
| Labels.EveryKindHasLabel | frontend/src/utils.ts:11-17 | Every kind's spelling passes the test and parses back to that kind. |
| Labels.ParseError | frontend/src/utils.ts:27-32 | A non-empty server detail wins, then a non-empty message, then the fixed fallback; the text is never empty. |
| GlossaryUi.ErrorText | frontend/src/composables/useGlossary.ts:35 | A rejection that is not an `Error` shows the fallback; an `Error` shows its parsed text. |
| GlossaryUi.EmptyForm | frontend/src/composables/useGlossary.ts:6-15 | The blank form: empty strings and lists, no year. |
| GlossaryUi.Initial | frontend/src/composables/useGlossary.ts:18-26 | The page opens with nothing listed, no edit, nothing busy and no error. |
| GlossaryUi.QueryParam | frontend/src/composables/useGlossary.ts:32 | A blank search sends no query parameter; any other is sent as typed. |
| GlossaryUi.LoadRelations | frontend/src/composables/useGlossary.ts:41-51 | One request; on success the list is replaced and the error cleared, on failure the list is kept and the error shown; loading ends false; nothing else changes. |
| GlossaryUi.LoadTerms | frontend/src/composables/useGlossary.ts:28-39 | Lists the terms for the current search and, only if that succeeds, the relations; the error is clear iff both succeed; loading ends false. |
| GlossaryUi.StartEdit | frontend/src/composables/useGlossary.ts:53-65 | The form takes the term's values, with absent lists and texts as empty; nothing else changes. |
| GlossaryUi.ResetForm | frontend/src/composables/useGlossary.ts:67-70 | Leaves editing with a blank form; nothing else changes. |
| GlossaryUi.ResetForgetsEdit | frontend/src/composables/useGlossary.ts:53-70 | Resetting after starting an edit is the same as resetting; resetting twice is once. |
| GlossaryUi.SaveCall | frontend/src/composables/useGlossary.ts:76-80 | Saving sends an update of the edited term iff one is being edited, else a create, with the form. |
| GlossaryUi.SaveTerm | frontend/src/composables/useGlossary.ts:72-88 | On failure, exactly one request is sent and the form and edit are kept with the error shown; on success, the form is reset and everything reloaded; saving ends false. |
| GlossaryUi.FailedSaveCanBeRetried | frontend/src/composables/useGlossary.ts:72-88 | After a failed save, saving again sends the same request. |
| GlossaryUi.RemoveTerm | frontend/src/composables/useGlossary.ts:90-101 | Sends the delete, then reloads on success; the form and the edit are left as they were. |
| GlossaryUi.AddRelation | frontend/src/composables/useGlossary.ts:103-118 | The guard shows "Выберите разные узлы" unless both ends are chosen and different; past it, no request is sent and an error is shown. |
| GlossaryUi.AddRelationNeverSends | frontend/src/composables/useGlossary.ts:111 | Whatever is chosen, no relation request is sent, an error is shown and the relations are unchanged. |
| GlossaryUi.AddRelationCorrected | frontend/src/composables/useGlossary.ts:103-118 | A request is sent iff both ends are chosen and different; then the relations reload on success or the error is shown. |
| GlossaryUi.AddedRelationIsWellFormed | frontend/src/composables/useGlossary.ts:111 | What the corrected client sends has a kind both backends accept, between two different ids. |
| GlossaryUi.EditRelation | frontend/src/composables/useGlossary.ts:120-131 | Sends the patch; reloads the relations on success, shows the error on failure; saving ends false. |
| GlossaryUi.RemoveRelation | frontend/src/composables/useGlossary.ts:133-144 | Sends the delete; reloads the relations on success, shows the error on failure; saving ends false. |
| GlossaryUi.AsUpdate | frontend/src/composables/useGlossary.ts:77 | The form sent as an update body supplies the name and definition and the form's other fields as they are. |
| GlossaryUi.UntouchedEditKeepsTerm | frontend/src/composables/useGlossary.ts:53-65 | Saving an edit form untouched against the TypeScript backend keeps the name, definition, year and the lists as shown, but turns a NULL source text into `""`. |

## Left out

- Networking, HTTP parsing, JSON and protobuf serialisation, gRPC transport: handlers are functions from a request value to a response value.
- Database transactions, connection handling and concurrency: every operation is one atomic step on the state.
- The Vue rendering, the `async` interleaving of client actions, and the axios request interceptor that adds the header.
- Timestamps: a store-internal counter stands for the clock. `isoformat()` and JSON dates are not modelled.
- Case folding is ASCII lower-casing; PostgreSQL's locale-aware `ILIKE` and collation are modelled by it and by code-point order.
- Prisma's translation of `contains`/`equals` in insensitive mode: it is modelled as case-insensitive substring/equality on the unescaped text.
- Rows that an unordered select returns (`list_relations`, `.first()`) come in id order.
- The keyword lookup tests the pattern on every stored row, as a sequential scan of a statement without `LIMIT` does; a plan that stopped early could miss an error that the model reports.
- Whitespace is Python's `str.isspace` and JavaScript's `trim` set, fixed at the Unicode version of their tables; later Unicode changes are not modelled.
- The SQLAlchemy session's unit of work is reduced to its outcome: deleting a referenced term fails on the first relation it would set to NULL, and no statement before that is visible.
- `updated_at` is refreshed only by an update that changes a column. The Prisma schema is not part of this model.
- Express `parseInt`: `Routes.ListTerms` takes the limit and offset as natural numbers. NaN and negative values are not modelled.
- The `INTEGER` range of term and relation ids is not checked: ids grow without bound. Years are checked against `INTEGER`.
- Store.AfterRefusedTermInsert: a value too wide for its column is taken as refused before an id is drawn, which holds when the value reaches the planner as a literal; a driver that binds it as a parameter checked during execution would use up an id there as well. The same holds for Store.AfterRefusedRelationInsert and an overlong kind. Prisma binds every value as a parameter, so PrismaService.CreateTerm, PrismaService.CreateRelation, Routes.CreateTerm and Routes.CreateRelation carry the same assumption: whether the `varchar` coercion runs before or after `nextval()` then depends on the plan PostgreSQL chooses for the statement.
- Grpc: presence of `term`, `definition`, `source` and ids in request messages is taken as given. The `.proto` file is not part of this model.
- TsTypes: JSON `null` in request bodies and unknown body keys are not modelled; absent keys are `None`.
- Labels.IsRelationType: JavaScript's `in` also sees inherited keys such as `toString`; the model accepts only the five kinds.
- GlossaryUi.AddRelation: the text of the `TypeError` depends on the JavaScript engine, so it is a parameter.
- Logging, the `/health` route, application start-up and the Alembic migration runner.

## Findings

| source | as written | input that shows it | evidently intended | confidence | as-written member | corrected member |
|---|---|---|---|---|---|---|
| backend/app/grpc_server.py:112-120 | `CreateRelation` passes a bare class object to `create_relation`, which calls `model_dump()` on it and raises | any `CreateRelationRequest` | store the relation and return it | not executed; high | Grpc.CreateRelation | Grpc.CreateRelationCorrected |
| backend/app/routers.py:62-63 | after committing, `POST /terms` answers with `get_term_by_keyword(obj.term)`, an `ILIKE` lookup that may return another row, 404 or fail | create `ENTROPY` while `Entropy` is stored: the answer is the `Entropy` row | answer with the row just written | not executed; high | RestApi.CreateAnswersWithOtherRow | RestApi.CreateTermCorrected |
| backend/app/schemas.py:23-28 | `TermUpdate.term` has no length bounds, so an empty name is committed and every later read of it fails validation | `PUT /terms/1` with `{"term": ""}` | validate the new name like a create (1..255) | not executed; high | RestApi.UpdateToEmptyTermCommitsThenFails | RestApi.UpdateTermCorrected |
| backend/app/grpc_server.py:88-89 | `HasField` on the repeated `synonyms`/`tags` fields raises, so an update with an empty list fails | `UpdateTermRequest(id=1)` with no lists | an empty list means "not supplied" | not executed; medium, since the message definitions are not part of this model | Grpc.UpdateWithoutListsFails | Grpc.UpdateTermCorrected |
| backend/app/models.py:24-29 | `relations_from` and `relations_to` do not cascade deletes, so `session.delete(term)` sets the `NOT NULL` ends of the term's relations to NULL and the delete raises | `DELETE /terms/1` while relation `2 -> 1` is stored: 500, and `DeleteTerm` answers `UNKNOWN` | delete the term and its relations, as the `ON DELETE CASCADE` keys declare | not executed; high | Crud.DeleteRelatedTermRaises | Crud.DeleteTermCascade |
| frontend/src/composables/useGlossary.ts:111 | `addRelation` calls `api.createRelation`, but the client module exports `createRelationApi`, so the call throws before any request | choose two different terms and add a relation | post the relation with `createRelationApi` and reload | not executed; medium, since a type-checked build would refuse the module instead | GlossaryUi.AddRelationNeverSends | GlossaryUi.AddRelationCorrected |

=== FILE: auth.dfy ===
/** The two bearer-token gates in front of the APIs, as pure decisions on the
    request (backend/app/middleware.py, backend/src/middleware.ts). Both expect
    the header form of section 2.1 of RFC 6750, `Bearer <token>`, with the
    scheme compared ignoring case; they differ on what follows the token, on a
    token holding a space, and on a server with no token configured. */
module Auth {
  import opened Optional
  import opened Text
  import opened Http

  datatype Decision = Proceed | Deny(status: int, detail: string)

  const UnauthorizedDetail: string := "Unauthorized"
  const NotConfiguredDetail: string := "Server not configured: API_AUTH_TOKEN is missing"

  /** The lower-cased scheme and the single space both gates look for. */
  const BearerPrefix: string := "bearer "

  /** Truthiness of an optional string in Python and JavaScript alike: absent and
      empty are both false. */
  predicate Given(v: Option<string>) {
    v.Some? && v.value != ""
  }

  /** The header opens with the scheme, in any letter case, and one space. */
  predicate HasBearerScheme(h: string) {
    IsPrefix(BearerPrefix, Lower(h))
  }

  lemma BearerSchemeShape(h: string)
    requires HasBearerScheme(h)
    ensures |h| >= 7 && h[6] == ' ' && forall i :: 0 <= i < 6 ==> h[i] != ' '
  {
    assert Lower(h)[6] == ' ';
    forall i | 0 <= i < 6 ensures h[i] != ' ' {
      assert Lower(h)[i] == BearerPrefix[i];
    }
  }

  // ---------------------------------------------------------------------------
  // Python

  /** Paths outside the API are not guarded. */
  const ApiPrefix: string := "/api"

  /** The documentation pages and CORS preflight requests pass unchecked. */
  predicate Exempt(path: string, verb: string) {
    path == "/api/openapi.json" || path == "/api/docs" || path == "/api/redoc" || verb == "OPTIONS"
  }

  /** `s.split(c, 1)[1]`: everything after the first `c`. */
  function AfterFirst(s: string, c: char): (r: string)
    requires c in s
    ensures exists i :: 0 <= i < |s| && s[i] == c && c !in s[..i] && r == s[i + 1..]
    decreases |s|
  {
    if s[0] == c then
      assert s[..0] == [];
      s[1..]
    else
      assert c in s[1..] by {
        var i :| 0 <= i < |s| && s[i] == c;
        assert s[1..][i - 1] == c;
      }
      var r := AfterFirst(s[1..], c);
      assert exists i :: 0 <= i < |s| && s[i] == c && c !in s[..i] && r == s[i + 1..] by {
        var i :| 0 <= i < |s[1..]| && s[1..][i] == c && c !in s[1..][..i] && r == s[1..][i + 1..];
        assert s[..i + 1] == [s[0]] + s[1..][..i];
        assert s[i + 2..] == s[1..][i + 1..];
      }
      r
  }

  lemma {:induction false} AfterFirstAt(s: string, c: char, i: nat)
    requires i < |s| && s[i] == c
    requires forall j :: 0 <= j < i ==> s[j] != c
    ensures AfterFirst(s, c) == s[i + 1..]
    decreases i
  {
    if i > 0 {
      assert s[1..][i - 1] == c;
      AfterFirstAt(s[1..], c, i - 1);
      assert s[1..][i..] == s[i + 1..];
    }
  }

  /** `bearer_auth_middleware`: under `/api`, except the exempt requests, and
      only when a token is configured, the header must open with the scheme and
      everything after its first space must be exactly the token. */
  function PythonGate(path: string, verb: string, expected: Option<string>, header: Option<string>): (d: Decision)
    ensures d == Proceed || d == Deny(Unauthorized401, UnauthorizedDetail)
    ensures !IsPrefix(ApiPrefix, path) || Exempt(path, verb) || !Given(expected) ==> d == Proceed
    ensures IsPrefix(ApiPrefix, path) && !Exempt(path, verb) && Given(expected) ==>
      (d == Proceed <==> Given(header) && HasBearerScheme(header.value) && header.value[7..] == expected.value)
  {
    if !IsPrefix(ApiPrefix, path) then Proceed
    else if Exempt(path, verb) then Proceed
    else if !Given(expected) then Proceed
    else if !Given(header) || !HasBearerScheme(header.value) then Deny(Unauthorized401, UnauthorizedDetail)
    else
      var h := header.value;
      BearerSchemeShape(h);
      AfterFirstAt(h, ' ', 6);
      if AfterFirst(h, ' ') != expected.value then Deny(Unauthorized401, UnauthorizedDetail) else Proceed
  }

  // ---------------------------------------------------------------------------
  // TypeScript

  /** The first piece of a split is the longest separator-free prefix; it is
      the whole string exactly when there is no other piece. */
  lemma {:induction false} SplitHead(s: string, sep: char)
    ensures var h := Split(s, sep)[0];
      && IsPrefix(h, s) && sep !in h && (|h| == |s| || s[|h|] == sep)
      && (|h| == |s| <==> |Split(s, sep)| == 1)
    decreases |s|
  {
    if |s| > 0 {
      SplitHead(s[1..], sep);
    }
  }

  /** So a separator-free `e` is the first piece exactly when it opens `s` and
      is followed by the separator or the end. */
  lemma FirstPieceIs(s: string, sep: char, e: string)
    requires sep !in e
    ensures Split(s, sep)[0] == e <==> IsPrefix(e, s) && (|e| == |s| || s[|e|] == sep)
  {
    var h := Split(s, sep)[0];
    SplitHead(s, sep);
    if IsPrefix(e, s) && (|e| == |s| || s[|e|] == sep) {
      assert forall i :: 0 <= i < |e| ==> s[i] == e[i] && e[i] != sep;
      assert forall i :: 0 <= i < |h| ==> s[i] == h[i] && h[i] != sep;
      assert |h| == |e|;
      assert h == s[..|h|] == e;
    }
  }

  /** After the scheme, the pieces of the header are the pieces of what follows its space. */
  lemma SplitAfterScheme(h: string)
    requires HasBearerScheme(h)
    ensures Split(h, ' ') == [h[..6]] + Split(h[7..], ' ')
  {
    BearerSchemeShape(h);
    assert ' ' !in h[..6];
    assert h == h[..6] + h[6..];
    SplitSepFree(h[..6], h[6..], ' ');
    assert Split(h[6..], ' ') == [""] + Split(h[7..], ' ');
    assert h[..6] + "" == h[..6];
  }

  /** `bearerAuthMiddleware`: 503 when no token is configured; otherwise the
      header split on spaces must have `bearer` (any case) as its first piece
      and the token as its second, whatever follows. */
  function ExpressGate(expected: Option<string>, header: Option<string>): (d: Decision)
    ensures !Given(expected) ==> d == Deny(Unavailable503, NotConfiguredDetail)
    ensures Given(expected) ==> d == Proceed || d == Deny(Unauthorized401, UnauthorizedDetail)
    ensures Given(expected) ==> (d == Proceed <==>
      && Given(header) && HasBearerScheme(header.value) && ' ' !in expected.value
      && IsPrefix(expected.value, header.value[7..])
      && (|header.value| == 7 + |expected.value| || header.value[7 + |expected.value|] == ' '))
  {
    if !Given(expected) then Deny(Unavailable503, NotConfiguredDetail)
    else if !Given(header) then Deny(Unauthorized401, UnauthorizedDetail)
    else
      var (h, e) := (header.value, expected.value);
      var pieces := Split(h, ' ');
      if Lower(pieces[0]) != "bearer" || |pieces| < 2 || pieces[1] != e then
        ExpressTokenCheck(h, e);
        Deny(Unauthorized401, UnauthorizedDetail)
      else
        ExpressTokenCheck(h, e);
        Proceed
  }

  lemma ExpressTokenCheck(h: string, e: string)
    requires e != ""
    ensures var pieces := Split(h, ' ');
      (Lower(pieces[0]) == "bearer" && |pieces| >= 2 && pieces[1] == e) <==>
      && HasBearerScheme(h) && ' ' !in e
      && IsPrefix(e, h[7..]) && (|h| == 7 + |e| || h[7 + |e|] == ' ')
  {
    var pieces := Split(h, ' ');
    if Lower(pieces[0]) == "bearer" && |pieces| >= 2 {
      SchemeFromPieces(h);
    }
    if HasBearerScheme(h) {
      SchemePieces(h);
      TokenPiece(h, e);
    }
  }

  /** A first piece `bearer` (any case) followed by a second piece means the
      header opens with the scheme and a space. */
  lemma SchemeFromPieces(h: string)
    requires Lower(Split(h, ' ')[0]) == "bearer" && |Split(h, ' ')| >= 2
    ensures HasBearerScheme(h)
  {
    var p0 := Split(h, ' ')[0];
    SplitHead(h, ' ');
    assert |p0| == 6 && |h| > 6 && h[6] == ' ';
    assert h[..7] == p0 + " ";
    assert Lower(h)[..7] == BearerPrefix by {
      forall i | 0 <= i < 7 ensures Lower(h)[i] == BearerPrefix[i] {
        if i < 6 {
          assert Lower(h)[i] == LowerChar(p0[i]) == Lower(p0)[i];
        }
      }
    }
  }

  /** Under the scheme, the first two pieces are `bearer` (any case) and the
      first piece of what follows the space. */
  lemma SchemePieces(h: string)
    requires HasBearerScheme(h)
    ensures var pieces := Split(h, ' ');
      |pieces| >= 2 && Lower(pieces[0]) == "bearer" && pieces[1] == Split(h[7..], ' ')[0]
  {
    SplitAfterScheme(h);
    var p0 := h[..6];
    assert Lower(p0) == "bearer" by {
      forall i | 0 <= i < 6 ensures Lower(p0)[i] == "bearer"[i] {
        assert Lower(p0)[i] == LowerChar(h[i]) == Lower(h)[i] == BearerPrefix[i];
      }
    }
  }

  /** The piece after the scheme is the token exactly when the token has no
      space, opens the rest of the header, and is followed by its end or a space. */
  lemma TokenPiece(h: string, e: string)
    requires HasBearerScheme(h)
    ensures Split(h[7..], ' ')[0] == e <==>
      ' ' !in e && IsPrefix(e, h[7..]) && (|h| == 7 + |e| || h[7 + |e|] == ' ')
  {
    var rest := h[7..];
    SplitHead(rest, ' ');
    if ' ' !in e {
      FirstPieceIs(rest, ' ', e);
      if |e| < |rest| {
        assert rest[|e|] == h[7 + |e|];
      }
    }
  }

  // ---------------------------------------------------------------------------
  // Where the gates agree and where they part

  /** For a guarded request, a token without spaces and a header of the exact
      form `Bearer <tok>`, the gates agree: both admit exactly the configured token. */
  lemma GatesAgreeOnPlainHeader(path: string, verb: string, e: string, tok: string)
    requires IsPrefix(ApiPrefix, path) && !Exempt(path, verb)
    requires e != "" && ' ' !in e && ' ' !in tok
    ensures var h := Some("Bearer " + tok);
      && (PythonGate(path, verb, Some(e), h) == Proceed <==> tok == e)
      && (ExpressGate(Some(e), h) == Proceed <==> tok == e)
  {
    var h := "Bearer " + tok;
    assert Lower(h)[..7] == BearerPrefix;
    assert h[7..] == tok;
    assert forall i :: 7 <= i < |h| ==> h[i] == tok[i - 7] && h[i] != ' ';
  }

  /** Pieces after the token are ignored by the Express gate only: a header
      `Bearer <token> <anything>` passes it and fails the Python gate. */
  lemma TrailingPieceDiverges(path: string, verb: string, e: string, rest: string)
    requires IsPrefix(ApiPrefix, path) && !Exempt(path, verb)
    requires e != "" && ' ' !in e
    ensures ExpressGate(Some(e), Some("Bearer " + e + " " + rest)) == Proceed
    ensures PythonGate(path, verb, Some(e), Some("Bearer " + e + " " + rest)) == Deny(Unauthorized401, UnauthorizedDetail)
  {
    var h := "Bearer " + e + " " + rest;
    assert Lower(h)[..7] == BearerPrefix;
    assert h[7..] == e + " " + rest;
    assert h[7..][..|e|] == e && h[7 + |e|] == ' ';
    assert |h[7..]| != |e|;
  }

  /** With no token configured, the Python gate lets everything through and the
      Express gate refuses everything. */
  lemma UnconfiguredDiverges(path: string, verb: string, header: Option<string>, expected: Option<string>)
    requires !Given(expected)
    ensures PythonGate(path, verb, expected, header) == Proceed
    ensures ExpressGate(expected, header) == Deny(Unavailable503, NotConfiguredDetail)
  {
  }

  /** A configured token holding a space can never pass the Express gate, while
      the Python gate admits it. */
  lemma SpacedTokenDiverges(path: string, verb: string, e: string)
    requires IsPrefix(ApiPrefix, path) && !Exempt(path, verb)
    requires ' ' in e
    ensures forall h :: ExpressGate(Some(e), h) != Proceed
    ensures PythonGate(path, verb, Some(e), Some("Bearer " + e)) == Proceed
  {
    var h := "Bearer " + e;
    assert Lower(h)[..7] == BearerPrefix;
    assert h[7..] == e;
  }
}

=== FILE: codec.dfy ===
/** The list-as-string encoding of `synonyms` and `tags`: lists are stored as
    one comma-joined text column. Three encoders write it (Python create,
    Python update, TypeScript `toJoinedString`) and three decoders read it
    (the REST projection, the gRPC projection, TypeScript `formatTerm`); they
    disagree on empty lists, and the round-trip lemmas below say exactly when
    a list survives. */
module Codec {
  import opened Optional
  import opened Text

  /** The separator of the stored encoding. */
  const Comma: char := ','

  // ---------------------------------------------------------------------------
  // Encoders

  /** `",".join(xs) if xs else None` (backend/app/crud.py:37-38): an absent or
      empty list is stored as NULL. */
  function EncodeOnCreate(xs: Option<seq<string>>): (r: Option<string>)
    ensures r.None? <==> xs.None? || |xs.value| == 0
    ensures r.Some? ==> r.value == Join(xs.value, Comma)
  {
    if xs.Some? && |xs.value| > 0 then Some(Join(xs.value, Comma)) else None
  }

  /** `",".join(xs)` when supplied (backend/app/crud.py:67-70), as a column
      write: `None` leaves the column alone, and `[]` writes the empty string. */
  function EncodeOnUpdate(xs: Option<seq<string>>): (r: Option<Option<string>>)
    ensures r.None? <==> xs.None?
    ensures r.Some? ==> r.value == Some(Join(xs.value, Comma))
  {
    if xs.Some? then Some(Some(Join(xs.value, Comma))) else None
  }

  /** `toJoinedString`: `undefined` (outer `None`) stays undefined, `[]` becomes
      `null` (`Some(None)`), any other list its comma-join. */
  function ToJoinedString(xs: Option<seq<string>>): (r: Option<Option<string>>)
    ensures r.None? <==> xs.None?
    ensures r.Some? ==> (r.value.None? <==> |xs.value| == 0)
    ensures r.Some? && r.value.Some? ==> r.value.value == Join(xs.value, Comma)
  {
    if xs.None? then None
    else if |xs.value| == 0 then Some(None)
    else Some(Some(Join(xs.value, Comma)))
  }

  /** What a create stores for a value Prisma receives: `undefined` leaves the
      nullable column at its default, NULL. */
  function StoredOnCreate(v: Option<Option<string>>): Option<string> {
    if v.Some? then v.value else None
  }

  // ---------------------------------------------------------------------------
  // Decoders

  /** The REST projection: `s.split(",") if s else None` — a NULL or empty column reads as None. */
  function DecodeRest(stored: Option<string>): (r: Option<seq<string>>)
    ensures r.None? <==> stored.None? || stored.value == ""
    ensures r.Some? ==> Join(r.value, Comma) == stored.value && FreeOf(r.value, Comma)
  {
    if stored.Some? && stored.value != "" then
      JoinSplit(stored.value, Comma);
      Some(Split(stored.value, Comma))
    else None
  }

  /** The gRPC projection: `s.split(",") if s else []` — never None. */
  function DecodeGrpc(stored: Option<string>): (r: seq<string>)
    ensures stored.None? || stored.value == "" ==> r == []
    ensures stored.Some? && stored.value != "" ==> Join(r, Comma) == stored.value && |r| >= 1
  {
    if stored.Some? && stored.value != "" then
      JoinSplit(stored.value, Comma);
      Split(stored.value, Comma)
    else []
  }

  /** `formatTerm`: `s?.split(',').map(trim).filter(Boolean) ?? null` — NULL stays
      null; otherwise every piece comes out non-empty, trimmed and comma-free. */
  function DecodeFormat(stored: Option<string>): (r: Option<seq<string>>)
    ensures r.None? <==> stored.None?
    ensures r.Some? ==> forall k :: 0 <= k < |r.value| ==> IsCleanPiece(r.value[k], Comma, JavaScript)
  {
    if stored.Some? then Some(SplitTrimmed(stored.value, Comma, JavaScript)) else None
  }

  // ---------------------------------------------------------------------------
  // Round trips

  /** A join is empty exactly for `[]` and `[""]`. */
  lemma JoinEmptyIff(xs: seq<string>)
    ensures Join(xs, Comma) == "" <==> |xs| == 0 || xs == [""]
  {
    if |xs| >= 2 {
      assert Join(xs, Comma)[|xs[0]|] == Comma;
    }
  }

  /** Python create then REST read: a list comes back unchanged exactly when its
      join is non-empty and no element contains a comma. */
  lemma RestRoundTrip(xs: seq<string>)
    ensures DecodeRest(EncodeOnCreate(Some(xs))) == Some(xs) <==> Join(xs, Comma) != "" && FreeOf(xs, Comma)
  {
    if Join(xs, Comma) != "" && FreeOf(xs, Comma) {
      JoinEmptyIff(xs);
      SplitJoin(xs, Comma);
    }
  }

  /** Python create then REST read: an empty or absent list reads back as None. */
  lemma RestEmptyReadsNone()
    ensures DecodeRest(EncodeOnCreate(Some([]))) == None
    ensures DecodeRest(EncodeOnCreate(None)) == None
  {
  }

  /** Python create then gRPC read: a list comes back unchanged exactly when it
      is empty, or its join is non-empty and no element contains a comma. */
  lemma GrpcRoundTrip(xs: seq<string>)
    ensures DecodeGrpc(EncodeOnCreate(Some(xs))) == xs <==>
      |xs| == 0 || (Join(xs, Comma) != "" && FreeOf(xs, Comma))
  {
    if |xs| > 0 && Join(xs, Comma) != "" {
      SplitJoinIff(xs, Comma);
    }
    if |xs| > 0 && Join(xs, Comma) == "" {
      JoinEmptyIff(xs);
    }
  }

  /** TypeScript create then `formatTerm`: a list comes back unchanged exactly
      when it is non-empty and every element is non-empty, trimmed and comma-free. */
  lemma FormatRoundTrip(xs: seq<string>)
    ensures DecodeFormat(StoredOnCreate(ToJoinedString(Some(xs)))) == Some(xs) <==>
      |xs| >= 1 && forall k :: 0 <= k < |xs| ==> IsCleanPiece(xs[k], Comma, JavaScript)
  {
    if |xs| >= 1 && forall k :: 0 <= k < |xs| ==> IsCleanPiece(xs[k], Comma, JavaScript) {
      SplitTrimmedJoin(xs, Comma, JavaScript);
    }
  }

  /** Both backends store the same column value on create. */
  lemma CreateEncodingsAgree(xs: Option<seq<string>>)
    ensures StoredOnCreate(ToJoinedString(xs)) == EncodeOnCreate(xs)
  {
  }

  /** On update they differ for `[]`: Python writes the empty string, TypeScript
      writes NULL; both leave the column alone when the list is absent. */
  lemma UpdateEncodingsDiffer()
    ensures EncodeOnUpdate(Some([])) == Some(Some(""))
    ensures ToJoinedString(Some([])) == Some(None)
    ensures EncodeOnUpdate(None) == ToJoinedString(None) == None
  {
  }

  /** The empty string a Python update writes for `[]` reads back differently on
      each path: None over REST, `[]` over gRPC, `[]` through `formatTerm`. */
  lemma EmptyStringReads()
    ensures DecodeRest(Some("")) == None
    ensures DecodeGrpc(Some("")) == []
    ensures DecodeFormat(Some("")) == Some([])
  {
    assert Split("", Comma) == [""];
    assert StripAll([""], JavaScript) == [""];
  }
}

=== FILE: config.dfy ===
/** `Settings.cors_origins` of the Python backend (backend/app/config.py): the
    configured origins are one comma-separated string, split, stripped and
    cleared of blank entries. */
module Settings {
  import opened Text

  /** The default of `backend_cors_origins`. */
  const DefaultCorsOrigins: string := "http://localhost:8080"

  /** `[o.strip() for o in s.split(',') if o.strip()]`. */
  function CorsOrigins(s: string): (r: seq<string>)
    ensures forall k :: 0 <= k < |r| ==> r[k] != "" && IsStripped(r[k], Python) && ',' !in r[k]
    ensures forall k :: 0 <= k < |Split(s, ',')| && Strip(Split(s, ',')[k], Python) != "" ==> Strip(Split(s, ',')[k], Python) in r
  {
    KeepsNonBlankPieces(Split(s, ','));
    SplitTrimmed(s, ',', Python)
  }

  lemma KeepsNonBlankPieces(pieces: seq<string>)
    ensures forall k :: 0 <= k < |pieces| && Strip(pieces[k], Python) != "" ==> Strip(pieces[k], Python) in DropEmpty(StripAll(pieces, Python))
  {
    forall k | 0 <= k < |pieces| && Strip(pieces[k], Python) != "" ensures Strip(pieces[k], Python) in DropEmpty(StripAll(pieces, Python)) {
      assert StripAll(pieces, Python)[k] == Strip(pieces[k], Python);
      assert Strip(pieces[k], Python) in StripAll(pieces, Python);
    }
  }

  /** The default setting yields exactly the one default origin. */
  lemma DefaultOrigins()
    ensures CorsOrigins(DefaultCorsOrigins) == [DefaultCorsOrigins]
  {
    var o := DefaultCorsOrigins;
    assert ',' !in o;
    assert IsStripped(o, Python) by {
      assert o[0] == 'h' && o[|o| - 1] == '0';
    }
    SplitTrimmedJoin([o], ',', Python);
  }

  /** A list of clean origins written comma-separated is read back as written. */
  lemma OriginsRoundTrip(xs: seq<string>)
    requires |xs| >= 1
    requires forall k :: 0 <= k < |xs| ==> xs[k] != "" && IsStripped(xs[k], Python) && ',' !in xs[k]
    ensures CorsOrigins(Join(xs, ',')) == xs
  {
    SplitTrimmedJoin(xs, ',', Python);
  }

  lemma {:induction false} SplitConcat(a: string, b: string, sep: char)
    ensures Split(a + [sep] + b, sep) == Split(a, sep) + Split(b, sep)
    decreases |a|
  {
    var s := a + [sep] + b;
    if |a| == 0 {
      assert s == [sep] + b;
      assert s[1..] == b;
    } else {
      assert s[0] == a[0];
      assert s[1..] == a[1..] + [sep] + b;
      SplitConcat(a[1..], b, sep);
      var sa := Split(a[1..], sep);
      var sb := Split(b, sep);
      assert Split(s[1..], sep) == sa + sb;
      if a[0] != sep {
        SplitGlue(a[0], sa, sb);
      }
    }
  }

  /** Gluing a character onto the first piece commutes with appending more pieces. */
  lemma SplitGlue(c: char, sa: seq<string>, sb: seq<string>)
    requires |sa| >= 1
    ensures [[c] + (sa + sb)[0]] + (sa + sb)[1..] == ([[c] + sa[0]] + sa[1..]) + sb
  {
    assert (sa + sb)[0] == sa[0];
    assert (sa + sb)[1..] == sa[1..] + sb;
  }

  lemma {:induction false} DropEmptyConcat(xs: seq<string>, ys: seq<string>)
    ensures DropEmpty(xs + ys) == DropEmpty(xs) + DropEmpty(ys)
    decreases |xs|
  {
    if |xs| > 0 {
      assert (xs + ys)[0] == xs[0];
      assert (xs + ys)[1..] == xs[1..] + ys;
      DropEmptyConcat(xs[1..], ys);
    } else {
      assert xs + ys == ys;
    }
  }

  lemma StripAllConcat(xs: seq<string>, ys: seq<string>)
    ensures StripAll(xs + ys, Python) == StripAll(xs, Python) + StripAll(ys, Python)
  {
    PointwiseConcat(xs, ys, StripAll(xs + ys, Python), StripAll(xs, Python), StripAll(ys, Python), s => Strip(s, Python));
  }

  /** A list computed element by element from `xs + ys` is the one computed
      from `xs` followed by the one computed from `ys`. */
  lemma PointwiseConcat<A, B>(xs: seq<A>, ys: seq<A>, whole: seq<B>, left: seq<B>, right: seq<B>, f: A -> B)
    requires |whole| == |xs| + |ys| && |left| == |xs| && |right| == |ys|
    requires forall k :: 0 <= k < |whole| ==> whole[k] == f((xs + ys)[k])
    requires forall k :: 0 <= k < |left| ==> left[k] == f(xs[k])
    requires forall k :: 0 <= k < |right| ==> right[k] == f(ys[k])
    ensures whole == left + right
  {
    forall k | 0 <= k < |whole| ensures whole[k] == (left + right)[k] {
      if k < |xs| {
        assert (xs + ys)[k] == xs[k];
      } else {
        assert (xs + ys)[k] == ys[k - |xs|];
      }
    }
  }

  /** Origins keep their order: the origins of two settings joined by a comma
      are the origins of the first followed by those of the second. */
  lemma OriginsConcat(a: string, b: string)
    ensures CorsOrigins(a + "," + b) == CorsOrigins(a) + CorsOrigins(b)
  {
    var s := a + "," + b;
    assert s == a + [','] + b;
    SplitConcat(a, b, ',');
    var pa := Split(a, ',');
    var pb := Split(b, ',');
    assert Split(s, ',') == pa + pb;
    StripAllConcat(pa, pb);
    DropEmptyConcat(StripAll(pa, Python), StripAll(pb, Python));
    assert SplitTrimmed(s, ',', Python) == SplitTrimmed(a, ',', Python) + SplitTrimmed(b, ',', Python);
  }
}

=== FILE: crud.dfy ===
/** The SQLAlchemy data-access functions of the Python backend
    (backend/app/crud.py) over the abstract store. A missing row is reported
    by returning None or False; a refused write raises (`Err`). */
module Crud {
  import opened Optional
  import opened Text
  import opened Domain
  import opened Schemas
  import Store
  import Listing
  import Like
  import Codec

  // ---------------------------------------------------------------------------
  // Terms

  /** `list_terms`: a non-empty query keeps the terms whose four columns match
      `ILIKE '%query%'`; the result is ordered by `term` and cut to one page.
      A non-empty query holding NUL raises in the driver. */
  function ListTerms(st: State, query: Option<string>, limit: nat, offset: nat): (r: Result<seq<TermRow>, Store.StoreError>)
    requires Valid(st)
    ensures r.Err? <==> Listing.Filters(query) && !NulFree(query.value)
    ensures r.Err? ==> r.error == Store.NulCharacter
    ensures r.Ok? ==> Listing.IsPage(r.value, Listing.Ordered(st, Listing.Sql, query), limit, offset)
    ensures r.Ok? ==> Listing.SortedByTerm(r.value) && |r.value| <= limit
    ensures r.Ok? ==> forall t :: t in r.value ==>
      t.id in st.terms && st.terms[t.id] == t && Listing.Selected(Listing.Sql, t, query)
  {
    if Listing.Filters(query) && !NulFree(query.value) then Err(Store.NulCharacter)
    else Ok(Listing.ListTerms(st, Listing.Sql, query, limit, offset))
  }

  function GetTermById(st: State, id: int): (r: Option<TermRow>)
    ensures r.Some? <==> id in st.terms
    ensures r.Some? ==> r.value == st.terms[id]
  {
    Store.GetTerm(st, id)
  }

  /** `get_term_by_keyword`: the first term matching `term ILIKE keyword`, or
      None. The statement has no `LIMIT`: the database tests every row before
      `.first()` takes one, so the call raises when the pattern raises on any
      stored term. A keyword holding NUL raises in the driver. */
  function GetTermByKeyword(st: State, keyword: string): (r: Result<Option<TermRow>, Store.StoreError>)
    requires Valid(st)
    ensures r.Err? <==> !NulFree(keyword) || exists k :: k in st.terms && Like.Ilike(st.terms[k].term, keyword).None?
    ensures r.Err? ==> r.error == (if NulFree(keyword) then Store.BadPattern else Store.NulCharacter)
    ensures r.Ok? ==> forall k :: k in st.terms ==> Like.Ilike(st.terms[k].term, keyword).Some?
    ensures r.Ok? ==> r.value == Listing.GetByKeyword(st, Listing.Sql, keyword)
    ensures r.Ok? && r.value.Some? ==> var t := r.value.value;
      t.id in st.terms && st.terms[t.id] == t && Like.Ilike(t.term, keyword) == Some(true)
    ensures r.Ok? ==> (r.value.None? <==> forall k :: k in st.terms ==> Like.Ilike(st.terms[k].term, keyword) == Some(false))
  {
    Listing.RowRaisesInStore(st, keyword);
    if !NulFree(keyword) then Err(Store.NulCharacter)
    else if Listing.RowRaises(Store.TermRows(st), keyword) then Err(Store.BadPattern)
    else
      Ok(Listing.GetByKeyword(st, Listing.Sql, keyword))
  }

  /** The columns `create_term` writes. */
  function NewTermOf(data: TermCreate): (n: Store.NewTerm)
    ensures n.term == data.term && n.definition == data.definition
    ensures n.synonyms == Codec.EncodeOnCreate(data.synonyms)
    ensures n.tags == Codec.EncodeOnCreate(data.tags)
    ensures data.source.None? ==>
      n.sourceTitle.None? && n.sourceAuthors.None? && n.sourceYear.None? && n.sourceLink.None?
    ensures data.source.Some? ==>
      && n.sourceTitle == data.source.value.title && n.sourceAuthors == data.source.value.authors
      && n.sourceYear == data.source.value.year && n.sourceLink == data.source.value.link
  {
    var s := data.source;
    Store.NewTerm(
      data.term, data.definition,
      Codec.EncodeOnCreate(data.synonyms), Codec.EncodeOnCreate(data.tags),
      if s.Some? then s.value.title else None,
      if s.Some? then s.value.authors else None,
      if s.Some? then s.value.year else None,
      if s.Some? then s.value.link else None)
  }

  /** `create_term`: inserts the encoded row, each bounded value cut to its
      width; raises when a value holds NUL or does not fit its column, or the
      stored `term` is taken. */
  function CreateTerm(st: State, data: TermCreate): (r: Result<(State, TermRow), Store.StoreError>)
    requires Valid(st)
    ensures r.Err? <==> !Store.Fits(NewTermOf(data)) || Store.TermExists(st, data.term)
    ensures r.Ok? ==> var (st', row) := r.value;
      && Store.ContentOf(row) == Store.Clipped(NewTermOf(data))
      && row.id == st.nextTermId && row.id !in st.terms
      && st'.terms == st.terms[row.id := row] && st'.relations == st.relations
      && st'.nextTermId == st.nextTermId + 1
      && Valid(st')
  {
    Store.InsertTerm(st, NewTermOf(data))
  }

  /** The column writes `update_term` performs. */
  function PatchOf(data: TermUpdate): (p: Store.TermPatch)
    ensures p.term == data.term && p.definition == data.definition
    ensures p.synonyms == Codec.EncodeOnUpdate(data.synonyms)
    ensures p.tags == Codec.EncodeOnUpdate(data.tags)
    ensures data.source.None? ==>
      p.sourceTitle.None? && p.sourceAuthors.None? && p.sourceYear.None? && p.sourceLink.None?
    ensures data.source.Some? ==>
      && p.sourceTitle == Some(data.source.value.title) && p.sourceAuthors == Some(data.source.value.authors)
      && p.sourceYear == Some(data.source.value.year) && p.sourceLink == Some(data.source.value.link)
  {
    var s := data.source;
    Store.TermPatch(
      data.term, data.definition,
      Codec.EncodeOnUpdate(data.synonyms), Codec.EncodeOnUpdate(data.tags),
      if s.Some? then Some(s.value.title) else None,
      if s.Some? then Some(s.value.authors) else None,
      if s.Some? then Some(s.value.year) else None,
      if s.Some? then Some(s.value.link) else None)
  }

  /** `update_term`: None for a missing id with the store untouched; otherwise
      overwrites exactly the supplied fields (a supplied `source` replaces all
      four source columns), each bounded value cut to its width; raises when a
      value holds NUL or does not fit its column, or the new stored `term` is
      another row's. */
  function UpdateTerm(st: State, id: int, data: TermUpdate): (r: Result<(State, Option<TermRow>), Store.StoreError>)
    requires Valid(st)
    ensures id !in st.terms ==> r == Ok((st, None))
    ensures id in st.terms ==> (r.Err? <==>
      !TermFits(Store.Patched(st.terms[id], PatchOf(data))) || (data.term.Some? && Store.TermTaken(st, data.term.value, id)))
    ensures r.Ok? && id in st.terms ==> r.value.1.Some?
    ensures r.Ok? && r.value.1.Some? ==> var (st', row, before) := (r.value.0, r.value.1.value, st.terms[id]);
      && row.id == id && row.createdAt == before.createdAt
      && row.term == (if data.term.Some? then Clip(data.term.value, MaxTermLength) else before.term)
      && row.definition == (if data.definition.Some? then data.definition.value else before.definition)
      && row.synonyms == (if data.synonyms.Some? then Some(Join(data.synonyms.value, ',')) else before.synonyms)
      && row.tags == (if data.tags.Some? then Some(Join(data.tags.value, ',')) else before.tags)
      && (data.source.Some? ==>
            && row.sourceTitle == ClipOpt(data.source.value.title, MaxSourceLength)
            && row.sourceAuthors == ClipOpt(data.source.value.authors, MaxSourceLength)
            && row.sourceYear == data.source.value.year
            && row.sourceLink == ClipOpt(data.source.value.link, MaxLinkLength))
      && (data.source.None? ==>
            && row.sourceTitle == before.sourceTitle && row.sourceAuthors == before.sourceAuthors
            && row.sourceYear == before.sourceYear && row.sourceLink == before.sourceLink)
      && st'.terms == st.terms[id := row] && st'.relations == st.relations
      && Valid(st')
  {
    if id !in st.terms then Ok((st, None))
    else
      var w := Store.UpdateTerm(st, id, PatchOf(data));
      if w.Err? then Err(w.error) else Ok((w.value.0, Some(w.value.1)))
  }

  /** `delete_term` as written: False for a missing id. `session.delete` on a
      term first sets the `source_id` and `target_id` of the relations loaded
      through `relations_from` and `relations_to` to NULL, since neither
      relationship cascades deletes; both columns are `NOT NULL`, so a term
      that some relation references cannot be deleted and the call raises.
      An unreferenced term is removed, and True returned. */
  function DeleteTerm(st: State, id: int): (r: Result<(State, bool), Store.StoreError>)
    requires Valid(st)
    ensures id !in st.terms ==> r == Ok((st, false))
    ensures id in st.terms ==> (r.Err? <==> Store.Referenced(st, id))
    ensures r.Err? ==> r.error == Store.NotNullViolation
    ensures r.Ok? ==> (r.value.1 <==> id in st.terms) && Valid(r.value.0)
    ensures r.Ok? && r.value.1 ==> r.value.0.terms == st.terms - {id} && r.value.0.relations == st.relations
  {
    if id !in st.terms then Ok((st, false))
    else if Store.Referenced(st, id) then Err(Store.NotNullViolation)
    else
      Store.DetachedUnreferenced(st, id);
      Ok((Store.DeleteTerm(st, id).value, true))
  }

  /** `delete_term` as the `ON DELETE CASCADE` foreign keys intend it: False for
      a missing id, True after removing the row and every relation touching it. */
  function DeleteTermCascade(st: State, id: int): (r: (State, bool))
    requires Valid(st)
    ensures r.1 <==> id in st.terms
    ensures !r.1 ==> r.0 == st
    ensures r.1 ==> r.0.terms == st.terms - {id} && !Store.Referenced(r.0, id)
    ensures r.1 ==> forall k :: k in st.relations ==> (k in r.0.relations <==>
      st.relations[k].sourceId != id && st.relations[k].targetId != id)
    ensures r.1 ==> forall k :: k in r.0.relations ==> k in st.relations && r.0.relations[k] == st.relations[k]
    ensures Valid(r.0)
  {
    var w := Store.DeleteTerm(st, id);
    if w.Err? then (st, false) else (w.value, true)
  }

  // ---------------------------------------------------------------------------
  // Relations

  /** `create_relation`: inserts the row as given, the kind cut to its width;
      raises on a kind that holds NUL or does not fit, or a dangling endpoint. */
  function CreateRelation(st: State, data: RelationCreate): (r: Result<(State, RelationRow), Store.StoreError>)
    requires Valid(st)
    ensures r.Err? <==> !KindFits(data.kind) || data.sourceId !in st.terms || data.targetId !in st.terms
    ensures r.Ok? ==> var (st', row) := r.value;
      && row.sourceId == data.sourceId && row.targetId == data.targetId && row.kind == Clip(data.kind, MaxKindLength)
      && row.id !in st.relations
      && st'.relations == st.relations[row.id := row] && st'.terms == st.terms
      && Valid(st')
  {
    Store.InsertRelation(st, Store.NewRelation(data.sourceId, data.targetId, data.kind))
  }

  /** `list_relations`: every relation, unfiltered. */
  function ListRelations(st: State): (r: seq<RelationRow>)
    requires Valid(st)
    ensures forall k :: k in st.relations ==> st.relations[k] in r
    ensures forall x :: x in r ==> x.id in st.relations && st.relations[x.id] == x
  {
    Store.RelationRows(st)
  }

  /** `update_relation`: None for a missing id with the store untouched;
      otherwise overwrites exactly the supplied fields, the kind cut to its
      width; raises on a kind that holds NUL or does not fit, or a dangling
      endpoint. */
  function UpdateRelation(st: State, id: int, data: RelationUpdate): (r: Result<(State, Option<RelationRow>), Store.StoreError>)
    requires Valid(st)
    ensures id !in st.relations ==> r == Ok((st, None))
    ensures id in st.relations ==> (r.Err? <==>
      || (data.kind.Some? && !KindFits(data.kind.value))
      || (data.sourceId.Some? && data.sourceId.value !in st.terms) || (data.targetId.Some? && data.targetId.value !in st.terms))
    ensures r.Ok? && id in st.relations ==> r.value.1.Some?
    ensures r.Ok? && r.value.1.Some? ==> var (st', row, before) := (r.value.0, r.value.1.value, st.relations[id]);
      && row.id == id
      && row.sourceId == (if data.sourceId.Some? then data.sourceId.value else before.sourceId)
      && row.targetId == (if data.targetId.Some? then data.targetId.value else before.targetId)
      && row.kind == (if data.kind.Some? then Clip(data.kind.value, MaxKindLength) else before.kind)
      && st'.relations == st.relations[id := row] && st'.terms == st.terms
      && Valid(st')
  {
    if id !in st.relations then Ok((st, None))
    else
      var w := Store.UpdateRelation(st, id, Store.RelationPatch(data.sourceId, data.targetId, data.kind));
      if w.Err? then Err(w.error) else Ok((w.value.0, Some(w.value.1)))
  }

  /** `delete_relation`: False for a missing id, True after removing that one row. */
  function DeleteRelation(st: State, id: int): (r: (State, bool))
    requires Valid(st)
    ensures r.1 <==> id in st.relations
    ensures !r.1 ==> r.0 == st
    ensures r.1 ==> r.0.relations == st.relations - {id} && r.0.terms == st.terms
    ensures Valid(r.0)
  {
    var w := Store.DeleteRelation(st, id);
    if w.Err? then (st, false) else (w.value, true)
  }

  // ---------------------------------------------------------------------------
  // Properties relating several calls

  /** A second delete of the same term id returns False. */
  lemma DeleteTermTwiceFalse(st: State, id: int)
    requires Valid(st) && DeleteTerm(st, id).Ok?
    ensures DeleteTerm(DeleteTerm(st, id).value.0, id) == Ok((DeleteTerm(st, id).value.0, false))
  {
  }

  /** The two deletes agree on every term no relation references, and the
      written one refuses exactly the terms the intended one would detach
      relations from. */
  lemma DeleteTermAgrees(st: State, id: int)
    requires Valid(st)
    ensures !Store.Referenced(st, id) ==> DeleteTerm(st, id) == Ok(DeleteTermCascade(st, id))
    ensures DeleteTerm(st, id).Err? <==> DeleteTermCascade(st, id).1 && DeleteTermCascade(st, id).0.relations != st.relations
  {
    if id in st.terms && Store.Referenced(st, id) {
      var k :| k in st.relations && (st.relations[k].sourceId == id || st.relations[k].targetId == id);
      assert k !in DeleteTermCascade(st, id).0.relations;
    }
  }

  /** With `b` related to `a`, deleting `a` raises as written, while the
      cascade removes `a` and the relation. */
  lemma DeleteRelatedTermRaises()
    ensures var st := State(
        map[1 := TermRow(1, "a", "d", None, None, None, None, None, None, 1, 1),
            2 := TermRow(2, "b", "d", None, None, None, None, None, None, 1, 1)],
        map[1 := RelationRow(1, 2, 1, "related-to")], 3, 2, 1);
      && Valid(st)
      && DeleteTerm(st, 1) == Err(Store.NotNullViolation)
      && DeleteTermCascade(st, 1).1 && DeleteTermCascade(st, 1).0.relations == map[]
  {
    var st := State(
        map[1 := TermRow(1, "a", "d", None, None, None, None, None, None, 1, 1),
            2 := TermRow(2, "b", "d", None, None, None, None, None, None, 1, 1)],
        map[1 := RelationRow(1, 2, 1, "related-to")], 3, 2, 1);
    assert TermStored(st.terms[1]) && TermStored(st.terms[2]) && RelationStored(st.relations[1]);
    assert Store.Referenced(st, 1) by {
      assert st.relations[1].targetId == 1;
    }
  }

  /** A second delete of the same relation id returns False. */
  lemma DeleteRelationTwiceFalse(st: State, id: int)
    requires Valid(st)
    ensures !DeleteRelation(DeleteRelation(st, id).0, id).1
  {
  }

  /** Updating with `synonyms=[]` stores the empty string, not NULL. */
  lemma UpdateEmptySynonymsStoresEmptyString(st: State, id: int)
    requires Valid(st) && id in st.terms
    ensures var r := UpdateTerm(st, id, TermUpdate(None, None, Some([]), None, None));
      r.Ok? && r.value.1.Some? && r.value.1.value.synonyms == Some("")
  {
  }

  /** An update with every field at its default changes nothing, not even `updated_at`. */
  lemma NoChangesIsNoOp(st: State, id: int)
    requires Valid(st) && id in st.terms
    ensures UpdateTerm(st, id, NoChanges) == Ok((st, Some(st.terms[id])))
  {
    Store.EmptyPatchIsNoOp(st, id);
  }

  /** A created term is found again by its own keyword in any letter case, as
      long as the keyword has no wildcard, the name fits its column without
      being cut, and no other stored term equals it ignoring case. */
  lemma CreateThenFindByKeyword(st: State, data: TermCreate, keyword: string)
    requires Valid(st)
    requires Like.NoLikeWildcards(keyword) && EqualsIgnoreCase(keyword, data.term)
    requires Store.Fits(NewTermOf(data)) && |data.term| <= MaxTermLength
    requires forall k :: k in st.terms ==> !EqualsIgnoreCase(st.terms[k].term, data.term)
    ensures CreateTerm(st, data).Ok?
    ensures var (st', row) := CreateTerm(st, data).value;
      GetTermByKeyword(st', keyword) == Ok(Some(row))
  {
    var r := CreateTerm(st, data);
    Listing.NulFreeIgnoreCase(keyword, data.term);
    assert !Store.TermExists(st, data.term) by {
      forall k | k in st.terms ensures st.terms[k].term != data.term {
        assert !EqualsIgnoreCase(st.terms[k].term, data.term);
      }
    }
    var (st', row) := r.value;
    Like.IlikeLiteral("", keyword);
    forall k | k in st'.terms
      ensures Listing.KeywordMatches(Listing.Sql, st'.terms[k].term, keyword) <==> k == row.id
    {
      Like.IlikeLiteral(st'.terms[k].term, keyword);
    }
    Listing.KeywordFindsSoleMatch(st', Listing.Sql, keyword, row.id);
  }

  /** With a wildcard in the keyword the lookup can return a different term:
      the keyword `a_b` finds the stored term `axb`. */
  lemma KeywordWildcardFindsOther(st: State, id: int)
    requires Valid(st)
    requires st.terms.Keys == {id} && st.terms[id].term == "axb"
    ensures GetTermByKeyword(st, "a_b") == Ok(Some(st.terms[id]))
  {
    Like.UnderscoreIsWildcard();
    Listing.KeywordFindsSoleMatch(st, Listing.Sql, "a_b", id);
  }
}

=== FILE: domain.dfy ===
/** The glossary's persistent entities: term rows, relation rows, the five
    relation kinds, and the database state that holds them together with the
    integrity constraints the schema declares (backend/app/models.py). */
module Domain {
  import opened Optional

  /** The closed set of relation kinds. */
  datatype RelationKind = IsA | PartOf | RelatedTo | SynonymOf | DerivedFrom

  /** The wire spelling of a relation kind. */
  function KindName(k: RelationKind): string {
    match k
    case IsA => "is-a"
    case PartOf => "part-of"
    case RelatedTo => "related-to"
    case SynonymOf => "synonym-of"
    case DerivedFrom => "derived-from"
  }

  /** Recognises exactly the five spellings; the inverse of `KindName`. */
  function ParseKind(s: string): (r: Option<RelationKind>)
    ensures r.Some? ==> KindName(r.value) == s
    ensures r.None? ==> forall k :: KindName(k) != s
  {
    if s == "is-a" then Some(IsA)
    else if s == "part-of" then Some(PartOf)
    else if s == "related-to" then Some(RelatedTo)
    else if s == "synonym-of" then Some(SynonymOf)
    else if s == "derived-from" then Some(DerivedFrom)
    else None
  }

  /** The pattern `^(is-a|part-of|related-to|synonym-of|derived-from)$`. */
  predicate IsKindName(s: string) {
    ParseKind(s).Some?
  }

  /** Each of the five spellings is short and NUL-free. */
  lemma KindNameFits(s: string)
    requires IsKindName(s)
    ensures NulFree(s) && |s| <= MaxKindLength
  {
  }

  /** Widths of the bounded text columns (backend/app/models.py,
      backend/alembic/versions/0001_init.py); a create request's `term` is
      held to the same 255. */
  const MaxTermLength: nat := 255
  const MaxSourceLength: nat := 512
  const MaxLinkLength: nat := 1024
  const MaxKindLength: nat := 64

  /** The range of a PostgreSQL `INTEGER` column. */
  predicate IsInt32(v: int) {
    -0x8000_0000 <= v < 0x8000_0000
  }

  /** PostgreSQL text cannot hold the character NUL: the Python driver refuses
      such a string before sending it, and the server refuses it as a bound
      parameter. */
  predicate NulFree(s: string) {
    '\0' !in s
  }

  predicate NulFreeOpt(v: Option<string>) {
    v.None? || NulFree(v.value)
  }

  /** A value a `VARCHAR(width)` column accepts: one no longer than the width,
      or one longer only by trailing spaces, which the cast drops. */
  predicate Assignable(s: string, width: nat) {
    |s| <= width || forall i :: width <= i < |s| ==> s[i] == ' '
  }

  /** The value the column stores for an accepted value: its first `width`
      characters. */
  function Clip(s: string, width: nat): (r: string)
    ensures |r| <= width && r <= s
    ensures |s| <= width ==> r == s
    ensures |s| > width ==> |r| == width
  {
    if |s| <= width then s else s[..width]
  }

  function ClipOpt(v: Option<string>, width: nat): (r: Option<string>)
    ensures r.None? <==> v.None?
    ensures r.Some? ==> r.value == Clip(v.value, width)
  {
    if v.Some? then Some(Clip(v.value, width)) else None
  }

  /** A value the column accepts is its stored value followed by spaces only,
      and a value that is its clipped form followed by spaces only is accepted. */
  lemma ClipDropsOnlySpaces(s: string, width: nat)
    ensures Assignable(s, width) <==> forall i :: |Clip(s, width)| <= i < |s| ==> s[i] == ' '
    ensures s[..|Clip(s, width)|] == Clip(s, width)
  {
  }

  /** A nullable text value the database accepts into a column of `width` characters. */
  predicate FitsWidth(v: Option<string>, width: nat) {
    v.None? || Assignable(v.value, width)
  }

  /** A nullable text value no longer than its column: stored as it is. */
  predicate WithinWidth(v: Option<string>, width: nat) {
    v.None? || |v.value| <= width
  }

  /** The bounded columns of a term row, as the database checks them. */
  predicate TermColumnsFit(term: string, title: Option<string>, authors: Option<string>, year: Option<int>, link: Option<string>) {
    && Assignable(term, MaxTermLength)
    && FitsWidth(title, MaxSourceLength) && FitsWidth(authors, MaxSourceLength)
    && FitsWidth(link, MaxLinkLength)
    && (year.None? || IsInt32(year.value))
  }

  /** The bounded columns of a term row hold values no longer than their widths. */
  predicate TermColumnsWithin(term: string, title: Option<string>, authors: Option<string>, link: Option<string>) {
    && |term| <= MaxTermLength
    && WithinWidth(title, MaxSourceLength) && WithinWidth(authors, MaxSourceLength)
    && WithinWidth(link, MaxLinkLength)
  }

  /** The text columns of a term row hold no NUL. */
  predicate TermTextNulFree(term: string, definition: string, synonyms: Option<string>, tags: Option<string>,
                            title: Option<string>, authors: Option<string>, link: Option<string>) {
    && NulFree(term) && NulFree(definition) && NulFreeOpt(synonyms) && NulFreeOpt(tags)
    && NulFreeOpt(title) && NulFreeOpt(authors) && NulFreeOpt(link)
  }

  /** A row of the `terms` table. Timestamps are ticks of the store's clock. */
  datatype TermRow = TermRow(
    id: int,
    term: string,
    definition: string,
    synonyms: Option<string>,
    tags: Option<string>,
    sourceTitle: Option<string>,
    sourceAuthors: Option<string>,
    sourceYear: Option<int>,
    sourceLink: Option<string>,
    createdAt: nat,
    updatedAt: nat)

  /** A row of the `relations` table; `kind` is the free-text `type` column. */
  datatype RelationRow = RelationRow(id: int, sourceId: int, targetId: int, kind: string)

  /** The whole database: both tables, their next autoincrement ids, and the
      clock tick of the latest write. */
  datatype State = State(
    terms: map<int, TermRow>,
    relations: map<int, RelationRow>,
    nextTermId: int,
    nextRelationId: int,
    clock: nat)

  /** A freshly migrated, empty database. */
  const Empty := State(map[], map[], 1, 1, 0)

  /** Every row is filed under its own id, and ids come from the autoincrement range. */
  predicate KeyedById(st: State) {
    && st.nextTermId >= 1 && st.nextRelationId >= 1
    && (forall k :: k in st.terms ==> st.terms[k].id == k && 1 <= k < st.nextTermId)
    && (forall k :: k in st.relations ==> st.relations[k].id == k && 1 <= k < st.nextRelationId)
  }

  /** The `unique=True` constraint on `terms.term` (exact, case-sensitive). */
  predicate UniqueTerms(terms: map<int, TermRow>) {
    forall a, b :: a in terms && b in terms && terms[a].term == terms[b].term ==> a == b
  }

  /** The foreign keys `relations.source_id` and `relations.target_id`. */
  predicate EndpointsExist(st: State) {
    forall k :: k in st.relations ==>
      st.relations[k].sourceId in st.terms && st.relations[k].targetId in st.terms
  }

  /** `created_at <= updated_at`, both no later than the latest write. */
  predicate TimestampsOrdered(st: State) {
    forall k :: k in st.terms ==> st.terms[k].createdAt <= st.terms[k].updatedAt <= st.clock
  }

  /** The database accepts the row's values into their columns. */
  predicate TermFits(t: TermRow) {
    && TermTextNulFree(t.term, t.definition, t.synonyms, t.tags, t.sourceTitle, t.sourceAuthors, t.sourceLink)
    && TermColumnsFit(t.term, t.sourceTitle, t.sourceAuthors, t.sourceYear, t.sourceLink)
  }

  /** The database accepts the value into the 64-character `type` column. */
  predicate KindFits(kind: string) {
    NulFree(kind) && Assignable(kind, MaxKindLength)
  }

  /** A stored term row: accepted values, each within its width. */
  predicate TermStored(t: TermRow) {
    TermFits(t) && TermColumnsWithin(t.term, t.sourceTitle, t.sourceAuthors, t.sourceLink)
  }

  /** A stored relation row: a NUL-free kind within its width. */
  predicate RelationStored(r: RelationRow) {
    NulFree(r.kind) && |r.kind| <= MaxKindLength
  }

  /** Every stored value is one its column holds. */
  predicate ColumnsFit(st: State) {
    && (forall k :: k in st.terms ==> TermStored(st.terms[k]))
    && (forall k :: k in st.relations ==> RelationStored(st.relations[k]))
  }

  /** The integrity constraints the schema declares. */
  predicate Valid(st: State) {
    KeyedById(st) && UniqueTerms(st.terms) && EndpointsExist(st) && TimestampsOrdered(st) && ColumnsFit(st)
  }

  /** Every stored relation kind is one of the five; only the validated
      Python REST path keeps this, the column itself is free text. */
  predicate KindsValid(st: State) {
    forall k :: k in st.relations ==> IsKindName(st.relations[k].kind)
  }

  lemma EmptyValid()
    ensures Valid(Empty) && KindsValid(Empty)
  {
  }
}

=== FILE: glossary_ui.dfy ===
/** The web client's glossary state (frontend/src/composables/useGlossary.ts)
    as a state machine. Each action is a function from the state before it and
    the replies of the HTTP calls it makes to the state after it together with
    the calls made, in order. Awaiting is sequential here, so the busy flags are
    observed only once an action has finished. */
module GlossaryUi {
  import opened Optional
  import opened Domain
  import opened Labels
  import opened TsTypes
  import Codec
  import Text
  import PrismaService

  /** The editing form has the shape of a create request. */
  type Form = TermCreate

  /** A listed relation: the row as the API returns it. */
  type Relation = RelationRow

  datatype Ui = Ui(
    terms: seq<TermResponse>,
    relations: seq<Relation>,
    query: string,
    editing: Option<TermResponse>,
    form: Form,
    loading: bool,
    saving: bool,
    error: Option<string>)

  /** What an awaited call rejected with: an `Error` or any other value. */
  datatype Thrown = Raised(e: ClientError) | NotAnError

  /** A call's reply: its value, or what it rejected with. */
  type Reply<T> = Result<T, Thrown>

  /** The HTTP calls of the client (frontend/src/api.ts). */
  datatype Call =
    | ListTermsCall(query: Option<string>)
    | ListRelationsCall
    | CreateTermCall(data: Form)
    | UpdateTermCall(id: int, data: Form)
    | DeleteTermCall(id: int)
    | CreateRelationCall(sourceId: int, targetId: int, kind: string)
    | UpdateRelationCall(id: int, patch: RelationUpdate)
    | DeleteRelationCall(id: int)

  datatype Step = Step(ui: Ui, calls: seq<Call>)

  /** The text stored in `error` after a rejection. */
  function ErrorText(t: Thrown): (r: string)
    ensures r != ""
    ensures t.NotAnError? ==> r == UnknownError
    ensures t.Raised? ==> r == ParseError(t.e)
  {
    match t
    case Raised(e) => ParseError(e)
    case NotAnError => UnknownError
  }

  /** `emptyForm`: blank strings and lists, no year. */
  function EmptyForm(): (f: Form)
    ensures f.term == "" && f.definition == ""
    ensures f.synonyms == Some([]) && f.tags == Some([])
    ensures f.sourceTitle == Some("") && f.sourceAuthors == Some("") && f.sourceLink == Some("")
    ensures f.sourceYear.None?
  {
    TermCreate("", "", Some([]), Some([]), Some(""), Some(""), None, Some(""))
  }

  /** The state when the page opens. */
  function Initial(): (u: Ui)
    ensures u.terms == [] && u.relations == [] && u.query == ""
    ensures u.editing.None? && u.form == EmptyForm()
    ensures !u.loading && !u.saving && u.error.None?
  {
    Ui([], [], "", None, EmptyForm(), false, false, None)
  }

  // ---------------------------------------------------------------------------
  // Loading

  /** `query.value || undefined`: a blank search sends no parameter. */
  function QueryParam(q: string): (r: Option<string>)
    ensures r.None? <==> q == ""
    ensures r.Some? ==> r.value == q
  {
    if q == "" then None else Some(q)
  }

  /** `loadRelations`: one call; the list replaces the old one, or the error is shown. */
  function LoadRelations(u: Ui, rels: Reply<seq<Relation>>): (s: Step)
    ensures s.calls == [ListRelationsCall]
    ensures !s.ui.loading
    ensures rels.Ok? ==> s.ui.relations == rels.value && s.ui.error.None?
    ensures rels.Err? ==> s.ui.relations == u.relations && s.ui.error == Some(ErrorText(rels.error))
    ensures s.ui.(relations := u.relations, loading := u.loading, error := u.error) == u
  {
    var u := u.(loading := true, error := None);
    match rels
    case Ok(xs) => Step(u.(relations := xs, loading := false), [ListRelationsCall])
    case Err(t) => Step(u.(error := Some(ErrorText(t)), loading := false), [ListRelationsCall])
  }

  /** `loadTerms`: lists the terms for the current search and, when that
      succeeds, reloads the relations; an error of the relation reload is
      caught inside it and does not undo the new term list. */
  function LoadTerms(u: Ui, terms: Reply<seq<TermResponse>>, rels: Reply<seq<Relation>>): (s: Step)
    ensures s.calls == [ListTermsCall(QueryParam(u.query))] + (if terms.Ok? then [ListRelationsCall] else [])
    ensures !s.ui.loading
    ensures terms.Ok? ==> s.ui.terms == terms.value
    ensures terms.Err? ==> s.ui == u.(loading := false, error := Some(ErrorText(terms.error)))
    ensures s.ui.error.None? <==> terms.Ok? && rels.Ok?
    ensures s.ui.(terms := u.terms, relations := u.relations, loading := u.loading, error := u.error) == u
  {
    var u := u.(loading := true, error := None);
    var call := ListTermsCall(QueryParam(u.query));
    match terms
    case Ok(xs) =>
      var r := LoadRelations(u.(terms := xs), rels);
      Step(r.ui.(loading := false), [call] + r.calls)
    case Err(t) => Step(u.(error := Some(ErrorText(t)), loading := false), [call])
  }

  // ---------------------------------------------------------------------------
  // Editing

  /** `startEdit`: the form takes the term's values, absent lists as empty
      lists, absent texts as empty strings, an absent year as no year. */
  function StartEdit(u: Ui, t: TermResponse): (r: Ui)
    ensures r.editing == Some(t)
    ensures r.form.term == t.term && r.form.definition == t.definition
    ensures r.form.synonyms == Some(t.synonyms.GetOr([])) && r.form.tags == Some(t.tags.GetOr([]))
    ensures r.form.sourceTitle == Some(t.sourceTitle.GetOr(""))
    ensures r.form.sourceAuthors == Some(t.sourceAuthors.GetOr(""))
    ensures r.form.sourceLink == Some(t.sourceLink.GetOr(""))
    ensures r.form.sourceYear == t.sourceYear
    ensures r.(editing := u.editing, form := u.form) == u
  {
    u.(editing := Some(t),
       form := TermCreate(t.term, t.definition, Some(t.synonyms.GetOr([])), Some(t.tags.GetOr([])),
         Some(t.sourceTitle.GetOr("")), Some(t.sourceAuthors.GetOr("")), t.sourceYear,
         Some(t.sourceLink.GetOr(""))))
  }

  /** `resetForm`: leave editing mode with a blank form. */
  function ResetForm(u: Ui): (r: Ui)
    ensures r.editing.None? && r.form == EmptyForm()
    ensures r.(editing := u.editing, form := u.form) == u
  {
    u.(editing := None, form := EmptyForm())
  }

  /** Resetting forgets any edit in progress, and twice is once. */
  lemma ResetForgetsEdit(u: Ui, t: TermResponse)
    ensures ResetForm(StartEdit(u, t)) == ResetForm(u)
    ensures ResetForm(ResetForm(u)) == ResetForm(u)
    ensures ResetForm(Initial()) == Initial()
  {
  }

  /** The request `saveTerm` sends: an update of the edited term, else a create. */
  function SaveCall(u: Ui): (c: Call)
    ensures u.editing.Some? <==> c.UpdateTermCall?
    ensures u.editing.None? <==> c.CreateTermCall?
    ensures c.UpdateTermCall? ==> c.id == u.editing.value.id && c.data == u.form
    ensures c.CreateTermCall? ==> c.data == u.form
  {
    if u.editing.Some? then UpdateTermCall(u.editing.value.id, u.form) else CreateTermCall(u.form)
  }

  /** `saveTerm`: send the form; on success reset it and reload everything,
      on failure keep the form and the edit and show the error. */
  function SaveTerm(u: Ui, write: Reply<()>, terms: Reply<seq<TermResponse>>, rels: Reply<seq<Relation>>): (s: Step)
    ensures |s.calls| >= 1 && s.calls[0] == SaveCall(u)
    ensures !s.ui.saving
    ensures write.Err? ==> s.calls == [SaveCall(u)]
    ensures write.Err? ==> s.ui == u.(saving := false, error := Some(ErrorText(write.error)))
    ensures write.Ok? ==> s.ui.editing.None? && s.ui.form == EmptyForm() && !s.ui.loading
    ensures write.Ok? ==> s.calls[1..] == LoadTerms(ResetForm(u), terms, rels).calls
  {
    var u := u.(saving := true, error := None);
    var call := SaveCall(u);
    match write
    case Ok(_) =>
      var l := LoadTerms(ResetForm(u), terms, rels);
      Step(l.ui.(saving := false), [call] + l.calls)
    case Err(t) => Step(u.(error := Some(ErrorText(t)), saving := false), [call])
  }

  /** An edit whose save is rejected can be retried as it stands: the same
      request goes out again. */
  lemma FailedSaveCanBeRetried(u: Ui, t: Thrown, write: Reply<()>, terms: Reply<seq<TermResponse>>, rels: Reply<seq<Relation>>)
    ensures var again := SaveTerm(u, Err(t), terms, rels).ui;
      SaveTerm(again, write, terms, rels).calls[0] == SaveCall(u)
  {
  }

  /** `removeTerm`: delete, then reload everything. The form is left as it
      is, even when it is editing the removed term. */
  function RemoveTerm(u: Ui, t: TermResponse, write: Reply<()>, terms: Reply<seq<TermResponse>>, rels: Reply<seq<Relation>>): (s: Step)
    ensures |s.calls| >= 1 && s.calls[0] == DeleteTermCall(t.id)
    ensures !s.ui.saving
    ensures s.ui.editing == u.editing && s.ui.form == u.form
    ensures write.Err? ==> s.calls == [DeleteTermCall(t.id)] && s.ui.error == Some(ErrorText(write.error))
    ensures write.Ok? ==> s.calls[1..] == LoadTerms(u, terms, rels).calls
  {
    var u := u.(saving := true, error := None);
    var call := DeleteTermCall(t.id);
    match write
    case Ok(_) =>
      var l := LoadTerms(u, terms, rels);
      Step(l.ui.(saving := false), [call] + l.calls)
    case Err(e) => Step(u.(error := Some(ErrorText(e)), saving := false), [call])
  }

  // ---------------------------------------------------------------------------
  // Relations

  /** The message shown when the two ends of a new relation are not two different terms. */
  const PickDifferent: string := "Выберите разные узлы"

  /** JavaScript truthiness of a `number | null` id: absent and zero are false. */
  predicate Chosen(id: Option<int>) {
    id.Some? && id.value != 0
  }

  /** `addRelation`'s guard lets the request through: both ends chosen and different. */
  predicate DistinctEnds(source: Option<int>, target: Option<int>) {
    Chosen(source) && Chosen(target) && source.value != target.value
  }

  /** `addRelation` as written: past the guard it calls `api.createRelation`,
      which the client module does not define (it exports `createRelationApi`),
      so the call throws a `TypeError` with some message `typeError` before
      any request is sent. */
  function AddRelation(u: Ui, source: Option<int>, target: Option<int>, kind: RelationKind, typeError: string): (s: Step)
    ensures s.calls == []
    ensures !DistinctEnds(source, target) ==> s.ui == u.(error := Some(PickDifferent))
    ensures DistinctEnds(source, target) ==>
      s.ui == u.(saving := false, error := Some(ErrorText(Raised(ClientError(typeError, None)))))
  {
    if !Chosen(source) || !Chosen(target) || source.value == target.value then
      Step(u.(error := Some(PickDifferent)), [])
    else
      var u := u.(saving := true, error := None);
      Step(u.(error := Some(ErrorText(Raised(ClientError(typeError, None)))), saving := false), [])
  }

  /** No relation can be added from the client as written: whatever is
      chosen, no request is sent and an error is shown. */
  lemma AddRelationNeverSends(u: Ui, source: Option<int>, target: Option<int>, kind: RelationKind, typeError: string)
    ensures AddRelation(u, source, target, kind, typeError).calls == []
    ensures AddRelation(u, source, target, kind, typeError).ui.error.Some?
    ensures AddRelation(u, source, target, kind, typeError).ui.relations == u.relations
  {
  }

  /** `addRelation` with the client's create call (`createRelationApi`):
      past the guard it posts the relation and reloads the relations. */
  function AddRelationCorrected(u: Ui, source: Option<int>, target: Option<int>, kind: RelationKind,
                                write: Reply<()>, rels: Reply<seq<Relation>>): (s: Step)
    ensures s.calls != [] <==> DistinctEnds(source, target)
    ensures !DistinctEnds(source, target) ==> s.ui == u.(error := Some(PickDifferent))
    ensures DistinctEnds(source, target) ==>
      s.calls[0] == CreateRelationCall(source.value, target.value, KindName(kind)) && !s.ui.saving
    ensures DistinctEnds(source, target) && write.Ok? ==>
      s.calls == [s.calls[0], ListRelationsCall] && s.ui == LoadRelations(u, rels).ui.(saving := false)
    ensures DistinctEnds(source, target) && write.Err? ==>
      |s.calls| == 1 && s.ui.error == Some(ErrorText(write.error)) && s.ui.relations == u.relations
  {
    if !Chosen(source) || !Chosen(target) || source.value == target.value then
      Step(u.(error := Some(PickDifferent)), [])
    else
      var u' := u.(saving := true, error := None);
      var call := CreateRelationCall(source.value, target.value, KindName(kind));
      match write
      case Ok(_) =>
        var l := LoadRelations(u', rels);
        assert l.ui.(saving := false) == LoadRelations(u, rels).ui.(saving := false);
        Step(l.ui.(saving := false), [call] + l.calls)
      case Err(t) => Step(u'.(error := Some(ErrorText(t)), saving := false), [call])
  }

  /** What the corrected client sends always names a relation kind both
      backends accept, between two existing-looking distinct ids. */
  lemma AddedRelationIsWellFormed(u: Ui, source: Option<int>, target: Option<int>, kind: RelationKind,
                                  write: Reply<()>, rels: Reply<seq<Relation>>)
    requires DistinctEnds(source, target)
    ensures var c := AddRelationCorrected(u, source, target, kind, write, rels).calls[0];
      c.CreateRelationCall? && IsRelationType(c.kind) && IsKindName(c.kind) && c.sourceId != c.targetId
  {
    EveryKindHasLabel(kind);
    ClientAndServerAgreeOnKinds(KindName(kind));
  }

  /** `editRelation`: send the patch, then reload the relations. */
  function EditRelation(u: Ui, id: int, patch: RelationUpdate, write: Reply<()>, rels: Reply<seq<Relation>>): (s: Step)
    ensures |s.calls| >= 1 && s.calls[0] == UpdateRelationCall(id, patch) && !s.ui.saving
    ensures write.Ok? ==> s.calls == [UpdateRelationCall(id, patch), ListRelationsCall]
    ensures write.Ok? ==> s.ui == LoadRelations(u, rels).ui.(saving := false)
    ensures write.Err? ==> s.calls == [UpdateRelationCall(id, patch)]
    ensures write.Err? ==> s.ui == u.(saving := false, error := Some(ErrorText(write.error)))
  {
    RelationWrite(u, UpdateRelationCall(id, patch), write, rels)
  }

  /** `removeRelation`: delete, then reload the relations. */
  function RemoveRelation(u: Ui, id: int, write: Reply<()>, rels: Reply<seq<Relation>>): (s: Step)
    ensures |s.calls| >= 1 && s.calls[0] == DeleteRelationCall(id) && !s.ui.saving
    ensures write.Ok? ==> s.calls == [DeleteRelationCall(id), ListRelationsCall]
    ensures write.Ok? ==> s.ui == LoadRelations(u, rels).ui.(saving := false)
    ensures write.Err? ==> s.calls == [DeleteRelationCall(id)]
    ensures write.Err? ==> s.ui == u.(saving := false, error := Some(ErrorText(write.error)))
  {
    RelationWrite(u, DeleteRelationCall(id), write, rels)
  }

  /** The shared shape of the relation writes: busy, call, reload or show the error. */
  function RelationWrite(u: Ui, call: Call, write: Reply<()>, rels: Reply<seq<Relation>>): (s: Step)
    ensures |s.calls| >= 1 && s.calls[0] == call && !s.ui.saving
    ensures write.Ok? ==> s.calls == [call, ListRelationsCall] && s.ui == LoadRelations(u, rels).ui.(saving := false)
    ensures write.Err? ==> s.calls == [call] && s.ui == u.(saving := false, error := Some(ErrorText(write.error)))
  {
    var u' := u.(saving := true, error := None);
    match write
    case Ok(_) =>
      var l := LoadRelations(u', rels);
      assert l.ui.(saving := false) == LoadRelations(u, rels).ui.(saving := false);
      Step(l.ui.(saving := false), [call] + l.calls)
    case Err(t) => Step(u'.(error := Some(ErrorText(t)), saving := false), [call])
  }

  // ---------------------------------------------------------------------------
  // The form against the TypeScript backend

  /** The form as the update body it becomes when the edited term is saved. */
  function AsUpdate(f: Form): (d: TermUpdate)
    ensures d.term == Some(f.term) && d.definition == Some(f.definition)
    ensures d.synonyms == f.synonyms && d.tags == f.tags
    ensures d.sourceTitle == f.sourceTitle && d.sourceAuthors == f.sourceAuthors
    ensures d.sourceYear == f.sourceYear && d.sourceLink == f.sourceLink
  {
    TermUpdate(Some(f.term), Some(f.definition), f.synonyms, f.tags,
      f.sourceTitle, f.sourceAuthors, f.sourceYear, f.sourceLink)
  }

  /** Opening a listed term for editing and saving it untouched keeps its
      name, definition and year, and its lists as the form shows them (an
      empty shown list comes back absent), but a source text that was NULL
      comes back as the empty string. */
  lemma UntouchedEditKeepsTerm(st: State, u: Ui, id: int)
    requires Valid(st) && id in st.terms
    requires PrismaService.UpdateTerm(st, id, AsUpdate(StartEdit(u, FormatTerm(st.terms[id])).form)).Ok?
    ensures var t := FormatTerm(st.terms[id]);
      var t' := FormatTerm(PrismaService.UpdateTerm(st, id, AsUpdate(StartEdit(u, t).form)).value.1);
      && t'.id == t.id && t'.term == t.term && t'.definition == t.definition
      && t'.sourceYear == t.sourceYear
      && t'.synonyms.GetOr([]) == t.synonyms.GetOr([]) && t'.tags.GetOr([]) == t.tags.GetOr([])
      && t'.sourceTitle == Some(t.sourceTitle.GetOr(""))
      && t'.sourceAuthors == Some(t.sourceAuthors.GetOr(""))
      && t'.sourceLink == Some(t.sourceLink.GetOr(""))
  {
    var row := st.terms[id];
    ShownListSurvivesSave(row.synonyms);
    ShownListSurvivesSave(row.tags);
  }

  /** A list column as shown, put in the form and written back as an update
      (an empty list clears the column), reads back as the form showed it. */
  lemma ShownListSurvivesSave(stored: Option<string>)
    ensures var xs := Codec.DecodeFormat(stored).GetOr([]);
      var written := if |xs| == 0 then None else Some(Text.Join(xs, Codec.Comma));
      Codec.DecodeFormat(written).GetOr([]) == xs
  {
    var xs := Codec.DecodeFormat(stored).GetOr([]);
    if |xs| > 0 {
      FormatReadsJoin(xs);
    }
  }
}

=== FILE: grpc.dfy ===
/** The gRPC service of the Python backend (backend/app/grpc_server.py): each
    handler maps its request message onto the same SQLAlchemy functions the
    REST API uses and projects the rows into protobuf messages. A missing row
    aborts with NOT_FOUND; any exception the handler does not catch reaches
    the client as UNKNOWN. Protobuf scalars have no "unset": an empty string
    or a zero stands for absence, which the handlers translate with `or None`. */
module Grpc {
  import opened Optional
  import opened Text
  import opened Domain
  import Schemas
  import Store
  import Listing
  import Like
  import Codec
  import Crud

  /** How a call ends: a reply, `context.abort(NOT_FOUND, details)`, or an
      uncaught exception (status UNKNOWN). */
  datatype Outcome<+T> = Done(value: T) | NotFound(details: string) | Unknown

  const TermNotFound: string := "Term not found"
  const RelationNotFound: string := "Relation not found"

  /** `ListTerms` page when the request leaves `limit` at zero, and the graph's page. */
  const DefaultLimit: nat := 100
  const GraphLimit: nat := 10000

  // ---------------------------------------------------------------------------
  // Messages

  datatype PbSource = PbSource(title: string, authors: string, year: int, link: string)

  datatype PbTerm = PbTerm(
    id: int,
    term: string,
    definition: string,
    synonyms: seq<string>,
    tags: seq<string>,
    source: PbSource,
    createdAt: nat,
    updatedAt: nat)

  datatype PbRelation = PbRelation(id: int, sourceId: int, targetId: int, kind: string)

  datatype PbGraph = PbGraph(nodes: seq<PbTerm>, edges: seq<PbRelation>)

  datatype ListTermsRequest = ListTermsRequest(query: string, limit: int, offset: int)

  /** `source` is a message field, so its presence is known (`HasField`). */
  datatype CreateTermRequest = CreateTermRequest(
    term: string, definition: string, synonyms: seq<string>, tags: seq<string>, source: Option<PbSource>)

  /** `term` and `definition` have presence; the two lists are repeated fields. */
  datatype UpdateTermRequest = UpdateTermRequest(
    id: int, term: Option<string>, definition: Option<string>,
    synonyms: seq<string>, tags: seq<string>, source: Option<PbSource>)

  datatype CreateRelationRequest = CreateRelationRequest(sourceId: int, targetId: int, kind: string)

  datatype UpdateRelationRequest = UpdateRelationRequest(
    id: int, sourceId: Option<int>, targetId: Option<int>, kind: Option<string>)

  // ---------------------------------------------------------------------------
  // Projections

  /** `x or ""`: a NULL column is sent as the empty string. */
  function OrEmpty(v: Option<string>): (r: string)
    ensures v.Some? ==> r == v.value
    ensures v.None? ==> r == ""
  {
    v.GetOr("")
  }

  /** `x or None`: the empty string reads as "not given". */
  function NoneIfEmpty(s: string): (r: Option<string>)
    ensures r.None? <==> s == ""
    ensures r.Some? ==> r.value == s
  {
    if s == "" then None else Some(s)
  }

  /** `_term_to_pb`: lists split on commas, `[]` for NULL or empty; NULL source
      columns become `""` and year 0. */
  function TermToPb(row: TermRow): (r: PbTerm)
    ensures r.id == row.id && r.term == row.term && r.definition == row.definition
    ensures r.createdAt == row.createdAt && r.updatedAt == row.updatedAt
    ensures r.synonyms == [] <==> row.synonyms.None? || row.synonyms.value == ""
    ensures r.synonyms != [] ==> Join(r.synonyms, Codec.Comma) == row.synonyms.value
    ensures r.tags == [] <==> row.tags.None? || row.tags.value == ""
    ensures r.tags != [] ==> Join(r.tags, Codec.Comma) == row.tags.value
    ensures r.source.title == OrEmpty(row.sourceTitle) && r.source.authors == OrEmpty(row.sourceAuthors)
    ensures r.source.link == OrEmpty(row.sourceLink)
    ensures r.source.year == (if row.sourceYear.Some? then row.sourceYear.value else 0)
  {
    PbTerm(row.id, row.term, row.definition,
      Codec.DecodeGrpc(row.synonyms), Codec.DecodeGrpc(row.tags),
      PbSource(OrEmpty(row.sourceTitle), OrEmpty(row.sourceAuthors), row.sourceYear.GetOr(0), OrEmpty(row.sourceLink)),
      row.createdAt, row.updatedAt)
  }

  function TermsToPb(rows: seq<TermRow>): (r: seq<PbTerm>)
    ensures |r| == |rows| && forall i :: 0 <= i < |rows| ==> r[i] == TermToPb(rows[i])
  {
    seq(|rows|, i requires 0 <= i < |rows| => TermToPb(rows[i]))
  }

  function RelationToPb(row: RelationRow): (r: PbRelation)
    ensures r.id == row.id && r.sourceId == row.sourceId && r.targetId == row.targetId && r.kind == row.kind
  {
    PbRelation(row.id, row.sourceId, row.targetId, row.kind)
  }

  function RelationsToPb(rows: seq<RelationRow>): (r: seq<PbRelation>)
    ensures |r| == |rows| && forall i :: 0 <= i < |rows| ==> r[i] == RelationToPb(rows[i])
  {
    seq(|rows|, i requires 0 <= i < |rows| => RelationToPb(rows[i]))
  }

  /** The `SourceLike` object both term handlers build: empty strings and a zero
      year read as absent. */
  function SourceFromPb(s: PbSource): (r: Schemas.SourceInfo)
    ensures r.title == NoneIfEmpty(s.title) && r.authors == NoneIfEmpty(s.authors) && r.link == NoneIfEmpty(s.link)
    ensures r.year.None? <==> s.year == 0
    ensures r.year.Some? ==> r.year.value == s.year
  {
    Schemas.SourceInfo(NoneIfEmpty(s.title), NoneIfEmpty(s.authors), if s.year != 0 then Some(s.year) else None, NoneIfEmpty(s.link))
  }

  // ---------------------------------------------------------------------------
  // Terms

  /** `ListTerms`: an empty query is no filter, a zero limit is 100; a negative
      limit or offset is refused by the database, a query holding NUL by the
      driver. */
  function ListTerms(st: State, req: ListTermsRequest): (r: Outcome<seq<PbTerm>>)
    requires Valid(st)
    ensures r.Done? || r == Unknown
    ensures r.Done? <==> req.limit >= 0 && req.offset >= 0 && NulFree(req.query)
    ensures r.Done? ==>
      && |r.value| <= (if req.limit == 0 then DefaultLimit else req.limit)
      && forall i :: 0 <= i < |r.value| ==> exists k :: k in st.terms && r.value[i] == TermToPb(st.terms[k])
    ensures r.Done? ==> PbPageOf(r.value, Listing.Ordered(st, Listing.Sql, NoneIfEmpty(req.query)),
      if req.limit == 0 then DefaultLimit else req.limit, req.offset)
  {
    if req.limit < 0 || req.offset < 0 then Unknown
    else
      var limit: nat := if req.limit == 0 then DefaultLimit else req.limit;
      var found := Crud.ListTerms(st, NoneIfEmpty(req.query), limit, req.offset);
      if found.Err? then Unknown
      else
        var rows := found.value;
        PbTermsFromStore(st, rows);
        PbPage(rows, Listing.Ordered(st, Listing.Sql, NoneIfEmpty(req.query)), limit, req.offset);
        Done(TermsToPb(rows))
  }

  /** `page` is the conversion of the window of `all` at `offset`, at most `limit` long. */
  ghost predicate PbPageOf(page: seq<PbTerm>, all: seq<TermRow>, limit: int, offset: int) {
    && offset >= 0
    && |page| == (if offset >= |all| then 0 else Listing.Min(limit, |all| - offset))
    && forall i :: 0 <= i < |page| ==> offset + i < |all| && page[i] == TermToPb(all[offset + i])
  }

  /** Converting a page of `all` converts that window of `all`. */
  lemma PbPage(rows: seq<TermRow>, all: seq<TermRow>, limit: nat, offset: nat)
    requires Listing.IsPage(rows, all, limit, offset)
    ensures PbPageOf(TermsToPb(rows), all, limit, offset)
  {
  }

  /** Converted rows that all come from the store are conversions of stored terms. */
  lemma PbTermsFromStore(st: State, rows: seq<TermRow>)
    requires forall t :: t in rows ==> t.id in st.terms && st.terms[t.id] == t
    ensures forall i :: 0 <= i < |rows| ==> rows[i].id in st.terms && TermsToPb(rows)[i] == TermToPb(st.terms[rows[i].id])
  {
    assert forall i :: 0 <= i < |rows| ==> rows[i] in rows;
  }

  /** `GetTermByKeyword`: NOT_FOUND when nothing matches; UNKNOWN when the
      keyword holds NUL or the pattern raises on some stored term. */
  function GetTermByKeyword(st: State, keyword: string): (r: Outcome<PbTerm>)
    requires Valid(st)
    ensures r == Unknown <==> !NulFree(keyword) || exists k :: k in st.terms && Like.Ilike(st.terms[k].term, keyword).None?
    ensures r.NotFound? <==>
      NulFree(keyword) && forall k :: k in st.terms ==> Like.Ilike(st.terms[k].term, keyword) == Some(false)
    ensures r.NotFound? ==> r.details == TermNotFound
    ensures r.Done? ==> exists k :: k in st.terms && r.value == TermToPb(st.terms[k]) && Like.Ilike(st.terms[k].term, keyword) == Some(true)
    ensures r.Done? ==> Crud.GetTermByKeyword(st, keyword).Ok? && r.value == TermToPb(Crud.GetTermByKeyword(st, keyword).value.value)
  {
    var found := Crud.GetTermByKeyword(st, keyword);
    if found.Err? then Unknown
    else if found.value.None? then NotFound(TermNotFound)
    else
      var row := found.value.value;
      assert row.id in st.terms && st.terms[row.id] == row;
      Done(TermToPb(row))
  }

  /** The `TermCreateLike` object `CreateTerm` hands to `create_term`. */
  function CreateDataOf(req: CreateTermRequest): (d: Schemas.TermCreate)
    ensures d.term == req.term && d.definition == req.definition
    ensures d.synonyms == Some(req.synonyms) && d.tags == Some(req.tags)
    ensures d.source.Some? <==> req.source.Some?
    ensures d.source.Some? ==> d.source.value == SourceFromPb(req.source.value)
  {
    Schemas.TermCreate(req.term, req.definition, Some(req.synonyms), Some(req.tags),
      if req.source.Some? then Some(SourceFromPb(req.source.value)) else None)
  }

  /** `CreateTerm`: no validation beyond the database's; a taken value, one
      that does not fit its column, or one holding NUL raises. */
  function CreateTerm(st: State, req: CreateTermRequest): (r: (State, Outcome<PbTerm>))
    requires Valid(st)
    ensures Valid(r.0)
    ensures r.1.Done? || r.1 == Unknown
    ensures r.1.Done? <==> Store.Fits(Crud.NewTermOf(CreateDataOf(req))) && !Store.TermExists(st, req.term)
    ensures !r.1.Done? ==>
      r.0 == (if Store.Fits(Crud.NewTermOf(CreateDataOf(req))) then st.(nextTermId := st.nextTermId + 1) else st)
    ensures r.1.Done? ==> var (st', out) := (r.0, r.1.value);
      && out.id !in st.terms && out.id in st'.terms && out == TermToPb(st'.terms[out.id])
      && st'.terms == st.terms[out.id := st'.terms[out.id]] && st'.relations == st.relations
      && out.term == Clip(req.term, MaxTermLength) && out.definition == req.definition
  {
    var w := Crud.CreateTerm(st, CreateDataOf(req));
    if w.Err? then (Store.AfterRefusedTermInsert(st, Crud.NewTermOf(CreateDataOf(req))), Unknown)
    else (w.value.0, Done(TermToPb(w.value.1)))
  }

  /** The `TermUpdateLike` object, when building it does not raise: a non-empty
      list is supplied, and `HasField` on an empty repeated field raises. */
  function UpdateDataOf(req: UpdateTermRequest): (d: Option<Schemas.TermUpdate>)
    ensures d.Some? <==> |req.synonyms| > 0 && |req.tags| > 0
    ensures d.Some? ==> d.value == UpdateDataCorrected(req)
  {
    if |req.synonyms| > 0 && |req.tags| > 0 then Some(UpdateDataCorrected(req)) else None
  }

  /** The update object as evidently intended: an empty repeated field means
      "not supplied". */
  function UpdateDataCorrected(req: UpdateTermRequest): (d: Schemas.TermUpdate)
    ensures d.term == req.term && d.definition == req.definition
    ensures d.synonyms.None? <==> |req.synonyms| == 0
    ensures d.synonyms.Some? ==> d.synonyms.value == req.synonyms
    ensures d.tags.None? <==> |req.tags| == 0
    ensures d.tags.Some? ==> d.tags.value == req.tags
    ensures d.source.Some? <==> req.source.Some?
    ensures d.source.Some? ==> d.source.value == SourceFromPb(req.source.value)
  {
    Schemas.TermUpdate(req.term, req.definition,
      if |req.synonyms| > 0 then Some(req.synonyms) else None,
      if |req.tags| > 0 then Some(req.tags) else None,
      if req.source.Some? then Some(SourceFromPb(req.source.value)) else None)
  }

  /** `update_term` behind either request mapping: NOT_FOUND for a missing id. */
  function ApplyUpdate(st: State, id: int, data: Schemas.TermUpdate): (r: (State, Outcome<PbTerm>))
    requires Valid(st)
    ensures Valid(r.0)
    ensures !r.1.Done? ==> r.0 == st
    ensures r.1 == NotFound(TermNotFound) <==> id !in st.terms
    ensures r.1.Done? || r.1 == NotFound(TermNotFound) || r.1 == Unknown
    ensures id in st.terms ==> (r.1.Done? <==> Crud.UpdateTerm(st, id, data).Ok?)
    ensures r.1.Done? ==> var (st', out) := (r.0, r.1.value);
      && id in st.terms && out.id == id && id in st'.terms && out == TermToPb(st'.terms[id])
      && st'.terms == st.terms[id := st'.terms[id]] && st'.relations == st.relations
  {
    var w := Crud.UpdateTerm(st, id, data);
    if w.Err? then (st, Unknown)
    else if w.value.1.None? then (st, NotFound(TermNotFound))
    else (w.value.0, Done(TermToPb(w.value.1.value)))
  }

  /** `UpdateTerm` as written: a request with an empty synonyms or tags list
      raises before anything is written. */
  function UpdateTerm(st: State, req: UpdateTermRequest): (r: (State, Outcome<PbTerm>))
    requires Valid(st)
    ensures Valid(r.0)
    ensures |req.synonyms| == 0 || |req.tags| == 0 ==> r == (st, Unknown)
    ensures |req.synonyms| > 0 && |req.tags| > 0 ==> r == ApplyUpdate(st, req.id, UpdateDataCorrected(req))
  {
    var d := UpdateDataOf(req);
    if d.None? then (st, Unknown) else ApplyUpdate(st, req.id, d.value)
  }

  /** `UpdateTerm` with an empty list read as "not supplied". */
  function UpdateTermCorrected(st: State, req: UpdateTermRequest): (r: (State, Outcome<PbTerm>))
    requires Valid(st)
    ensures Valid(r.0)
    ensures r.1 == NotFound(TermNotFound) <==> req.id !in st.terms
    ensures req.id in st.terms ==> (r.1.Done? <==>
      !(req.term.Some? && Store.TermTaken(st, req.term.value, req.id))
      && TermFits(Store.Patched(st.terms[req.id], Crud.PatchOf(UpdateDataCorrected(req)))))
    ensures r.1.Done? ==> var (before, out) := (st.terms[req.id], r.1.value);
      && out.term == (if req.term.Some? then Clip(req.term.value, MaxTermLength) else before.term)
      && (|req.synonyms| == 0 ==> out.synonyms == Codec.DecodeGrpc(before.synonyms))
      && (|req.tags| == 0 ==> out.tags == Codec.DecodeGrpc(before.tags))
  {
    ApplyUpdate(st, req.id, UpdateDataCorrected(req))
  }

  /** `DeleteTerm`: NOT_FOUND for a missing id, UNKNOWN for a term some
      relation references (the delete raises). */
  function DeleteTerm(st: State, id: int): (r: (State, Outcome<()>))
    requires Valid(st)
    ensures Valid(r.0)
    ensures r.1.Done? <==> id in st.terms && !Store.Referenced(st, id)
    ensures id !in st.terms ==> r == (st, NotFound(TermNotFound))
    ensures id in st.terms && Store.Referenced(st, id) ==> r == (st, Unknown)
    ensures r.1.Done? ==> r.0.terms == st.terms - {id} && r.0.relations == st.relations
  {
    var w := Crud.DeleteTerm(st, id);
    if w.Err? then (st, Unknown)
    else if w.value.1 then (w.value.0, Done(()))
    else (st, NotFound(TermNotFound))
  }

  // ---------------------------------------------------------------------------
  // Relations

  /** `CreateRelation` as written: the object passed to `create_relation` is a
      bare class without `model_dump`, so every call raises and nothing is stored. */
  function CreateRelation(st: State, req: CreateRelationRequest): (r: (State, Outcome<PbRelation>))
    requires Valid(st)
    ensures r.0 == st && !r.1.Done?
  {
    (st, Unknown)
  }

  /** `CreateRelation` handing `create_relation` a real `RelationCreate`, whose
      validation refuses an unknown kind. */
  function CreateRelationCorrected(st: State, req: CreateRelationRequest): (r: (State, Outcome<PbRelation>))
    requires Valid(st)
    ensures Valid(r.0)
    ensures KindsValid(st) ==> KindsValid(r.0)
    ensures r.1.Done? || r.1 == Unknown
    ensures r.1.Done? <==> IsKindName(req.kind) && req.sourceId in st.terms && req.targetId in st.terms
    ensures !r.1.Done? ==> r.0 == if IsKindName(req.kind) then st.(nextRelationId := st.nextRelationId + 1) else st
    ensures r.1.Done? ==> var (st', out) := (r.0, r.1.value);
      && out.id !in st.relations && out == PbRelation(out.id, req.sourceId, req.targetId, req.kind)
      && st'.relations == st.relations[out.id := RelationRow(out.id, req.sourceId, req.targetId, req.kind)]
      && st'.terms == st.terms
  {
    var data := Schemas.RelationCreate(req.sourceId, req.targetId, req.kind);
    if !Schemas.ValidRelationCreate(data) then (st, Unknown)
    else
      KindNameFits(data.kind);
      var w := Crud.CreateRelation(st, data);
      if w.Err? then (Store.AfterRefusedRelationInsert(st, Store.NewRelation(data.sourceId, data.targetId, data.kind)), Unknown)
      else (w.value.0, Done(RelationToPb(w.value.1)))
  }

  /** `UpdateRelation`: the kind is not checked here, beyond the database's
      width and NUL rules, and is stored cut to its width; NOT_FOUND for a
      missing id. */
  function UpdateRelation(st: State, req: UpdateRelationRequest): (r: (State, Outcome<PbRelation>))
    requires Valid(st)
    ensures Valid(r.0)
    ensures !r.1.Done? ==> r.0 == st
    ensures r.1 == NotFound(RelationNotFound) <==> req.id !in st.relations
    ensures r.1.Done? || r.1 == NotFound(RelationNotFound) || r.1 == Unknown
    ensures req.id in st.relations ==> (r.1.Done? <==>
      && (req.kind.None? || KindFits(req.kind.value))
      && (req.sourceId.None? || req.sourceId.value in st.terms) && (req.targetId.None? || req.targetId.value in st.terms))
    ensures r.1.Done? ==> var (st', out) := (r.0, r.1.value);
      && req.id in st.relations && out.id == req.id
      && out.sourceId == (if req.sourceId.Some? then req.sourceId.value else st.relations[req.id].sourceId)
      && out.targetId == (if req.targetId.Some? then req.targetId.value else st.relations[req.id].targetId)
      && out.kind == (if req.kind.Some? then Clip(req.kind.value, MaxKindLength) else st.relations[req.id].kind)
      && st'.relations == st.relations[req.id := RelationRow(out.id, out.sourceId, out.targetId, out.kind)]
      && st'.terms == st.terms
  {
    var w := Crud.UpdateRelation(st, req.id, Schemas.RelationUpdate(req.sourceId, req.targetId, req.kind));
    if w.Err? then (st, Unknown)
    else if w.value.1.None? then (st, NotFound(RelationNotFound))
    else (w.value.0, Done(RelationToPb(w.value.1.value)))
  }

  /** `DeleteRelation`: NOT_FOUND for a missing id. */
  function DeleteRelation(st: State, id: int): (r: (State, Outcome<()>))
    requires Valid(st)
    ensures Valid(r.0)
    ensures r.1.Done? <==> id in st.relations
    ensures !r.1.Done? ==> r == (st, NotFound(RelationNotFound))
    ensures r.1.Done? ==> r.0.relations == st.relations - {id} && r.0.terms == st.terms
  {
    var (st', ok) := Crud.DeleteRelation(st, id);
    if ok then (st', Done(())) else (st, NotFound(RelationNotFound))
  }

  /** `ListRelations`: every stored relation. */
  function ListRelations(st: State): (r: seq<PbRelation>)
    requires Valid(st)
    ensures forall k :: k in st.relations ==> RelationToPb(st.relations[k]) in r
    ensures forall x :: x in r ==> x.id in st.relations && x == RelationToPb(st.relations[x.id])
  {
    var rows := Crud.ListRelations(st);
    PbRelationsOfStore(st, rows);
    RelationsToPb(rows)
  }

  /** Converting a listing of exactly the stored relations lists exactly their conversions. */
  lemma PbRelationsOfStore(st: State, rows: seq<RelationRow>)
    requires forall k :: k in st.relations ==> st.relations[k] in rows
    requires forall x :: x in rows ==> x.id in st.relations && st.relations[x.id] == x
    ensures forall k :: k in st.relations ==> RelationToPb(st.relations[k]) in RelationsToPb(rows)
    ensures forall x :: x in RelationsToPb(rows) ==> x.id in st.relations && x == RelationToPb(st.relations[x.id])
  {
    var out := RelationsToPb(rows);
    forall k | k in st.relations ensures RelationToPb(st.relations[k]) in out {
      var i :| 0 <= i < |rows| && rows[i] == st.relations[k];
      assert out[i] == RelationToPb(st.relations[k]);
    }
    forall x | x in out ensures x.id in st.relations && x == RelationToPb(st.relations[x.id]) {
      var i :| 0 <= i < |out| && out[i] == x;
      assert rows[i] in rows;
    }
  }

  /** `GetGraph`: the first 10000 terms in `term` order, and every relation. */
  function GetGraph(st: State): (r: PbGraph)
    requires Valid(st)
    ensures PbPageOf(r.nodes, Listing.Ordered(st, Listing.Sql, None), GraphLimit, 0)
    ensures |r.nodes| <= GraphLimit
    ensures forall k :: k in st.relations ==> RelationToPb(st.relations[k]) in r.edges
    ensures forall x :: x in r.edges ==> x.id in st.relations && x == RelationToPb(st.relations[x.id])
  {
    var rows := Crud.ListTerms(st, None, GraphLimit, 0).value;
    PbPage(rows, Listing.Ordered(st, Listing.Sql, None), GraphLimit, 0);
    PbGraph(TermsToPb(rows), ListRelations(st))
  }

  // ---------------------------------------------------------------------------
  // Properties

  /** The four source fields survive a create and read back, each text cut to
      its column's width: an empty string or zero year is stored as NULL and
      sent back as the empty string or zero. */
  lemma CreateEchoesSource(st: State, req: CreateTermRequest)
    requires Valid(st)
    requires CreateTerm(st, req).1.Done?
    ensures var s := req.source.GetOr(PbSource("", "", 0, ""));
      CreateTerm(st, req).1.value.source ==
        PbSource(Clip(s.title, MaxSourceLength), Clip(s.authors, MaxSourceLength), s.year, Clip(s.link, MaxLinkLength))
  {
  }

  /** A list survives a create and read back exactly when it is empty, or its
      join is non-empty and no element holds a comma. */
  lemma CreateEchoesSynonyms(st: State, req: CreateTermRequest)
    requires Valid(st)
    requires CreateTerm(st, req).1.Done?
    ensures CreateTerm(st, req).1.value.synonyms == req.synonyms <==>
      |req.synonyms| == 0 || (Join(req.synonyms, Codec.Comma) != "" && FreeOf(req.synonyms, Codec.Comma))
  {
    Codec.GrpcRoundTrip(req.synonyms);
  }

  /** Nothing validates a gRPC create: an empty term is stored. */
  lemma CreateAcceptsEmptyTerm(st: State)
    requires Valid(st) && !Store.TermExists(st, "")
    ensures CreateTerm(st, CreateTermRequest("", "d", [], [], None)).1.Done?
  {
  }

  /** As written, an update that leaves either list empty never succeeds, even
      for a stored id; corrected, it succeeds and leaves that list alone. */
  lemma UpdateWithoutListsFails(st: State, id: int)
    requires Valid(st) && id in st.terms
    ensures UpdateTerm(st, UpdateTermRequest(id, None, None, [], [], None)) == (st, Unknown)
    ensures UpdateTermCorrected(st, UpdateTermRequest(id, None, None, [], [], None)).1 == Done(TermToPb(st.terms[id]))
  {
    var req := UpdateTermRequest(id, None, None, [], [], None);
    assert UpdateDataCorrected(req) == Schemas.NoChanges;
    Crud.NoChangesIsNoOp(st, id);
  }

  /** Corrected, a relation between stored terms with a known kind is stored
      and can be listed; as written the same request stores nothing. */
  lemma CreatedRelationIsListed(st: State, req: CreateRelationRequest)
    requires Valid(st) && IsKindName(req.kind) && req.sourceId in st.terms && req.targetId in st.terms
    ensures CreateRelation(st, req).0 == st
    ensures var (st', out) := CreateRelationCorrected(st, req);
      out.Done? && out.value in ListRelations(st')
  {
    var (st', out) := CreateRelationCorrected(st, req);
    assert out.value.id in st'.relations;
    assert RelationToPb(st'.relations[out.value.id]) == out.value;
  }
}

=== FILE: http.dfy ===
/** Responses of the HTTP layers (FastAPI and Express) and the status codes
    they use. */
module Http {

  const Ok200: int := 200
  const Created201: int := 201
  const NoContent204: int := 204
  const BadRequest400: int := 400
  const Unauthorized401: int := 401
  const NotFound404: int := 404
  const Unprocessable422: int := 422
  const InternalError500: int := 500
  const Unavailable503: int := 503

  /** A response: a JSON body, an empty body, an error with a `detail`
      message, or a refusal whose body (FastAPI's list of validation errors)
      is not modelled. */
  datatype Reply<+T> =
    | Body(status: int, body: T)
    | Empty(status: int)
    | Problem(status: int, detail: string)
    | Rejected(status: int)
  {
    /** Whether the request succeeded. */
    predicate Success() {
      200 <= status < 300
    }
  }

  /** The `detail` the Express handlers send for a caught failure. */
  const InternalDetail: string := "Internal server error"

  /** The plain-text body Starlette sends for an exception nothing handles. */
  const ServerErrorText: string := "Internal Server Error"

  /** FastAPI's answer to an exception nothing handles. */
  function Unhandled<T>(): Reply<T> {
    Problem(InternalError500, ServerErrorText)
  }
}

=== FILE: labels.dfy ===
/** The small helpers of the web client (frontend/src/utils.ts): the display
    label of each relation kind, the relation-kind test, and the error text
    shown to the user. */
module Labels {
  import opened Optional
  import opened Domain

  /** `RELATION_LABELS[type]`: the Russian label shown for each kind. */
  function RelationLabel(k: RelationKind): (r: string)
    ensures r != ""
  {
    match k
    case IsA => "является"
    case PartOf => "часть"
    case RelatedTo => "связан с"
    case SynonymOf => "синоним"
    case DerivedFrom => "происходит от"
  }

  /** No two kinds share a label, so a label identifies its kind. */
  lemma LabelsDistinct(a: RelationKind, b: RelationKind)
    ensures RelationLabel(a) == RelationLabel(b) <==> a == b
  {
    if a != b {
      assert RelationLabel(a)[0] != RelationLabel(b)[0] || |RelationLabel(a)| != |RelationLabel(b)|;
    }
  }

  /** `isRelationType`: the value is one of the label table's own keys. */
  function IsRelationType(v: string): (r: bool)
    ensures r <==> exists k :: KindName(k) == v
  {
    var p := ParseKind(v);
    if p.Some? then assert KindName(p.value) == v; true else false
  }

  /** The client and the Python schema accept the same spellings. */
  lemma ClientAndServerAgreeOnKinds(v: string)
    ensures IsRelationType(v) <==> IsKindName(v)
  {
    if IsRelationType(v) {
      var k :| KindName(k) == v;
      match k
      case IsA =>
      case PartOf =>
      case RelatedTo =>
      case SynonymOf =>
      case DerivedFrom =>
    }
  }

  /** Every kind's spelling is a relation type, and its label is the table's entry. */
  lemma EveryKindHasLabel(k: RelationKind)
    ensures IsRelationType(KindName(k))
    ensures ParseKind(KindName(k)) == Some(k)
  {
    match k
    case IsA =>
    case PartOf =>
    case RelatedTo =>
    case SynonymOf =>
    case DerivedFrom =>
  }

  // ---------------------------------------------------------------------------
  // Error text

  /** An `Error` as the client sees it: its `message`, and the `detail` of the
      JSON body when it is an HTTP error whose body has one. */
  datatype ClientError = ClientError(message: string, detail: Option<string>)

  /** The text shown when neither a detail nor a message is available. */
  const UnknownError: string := "Неизвестная ошибка"

  /** `parseError`: a non-empty server `detail` wins, then a non-empty
      `message`, then the fixed fallback; the text is never empty. */
  function ParseError(e: ClientError): (r: string)
    ensures r != ""
    ensures e.detail.Some? && e.detail.value != "" ==> r == e.detail.value
    ensures (e.detail.None? || e.detail.value == "") && e.message != "" ==> r == e.message
    ensures r == UnknownError ==> (e.detail.None? || e.detail.value == "" || e.detail.value == UnknownError)
  {
    if e.detail.Some? && e.detail.value != "" then e.detail.value
    else if e.message != "" then e.message
    else UnknownError
  }
}

=== FILE: like.dfy ===
/** PostgreSQL's `ILIKE` as the SQLAlchemy layer uses it: the query text is
    interpolated into the pattern unescaped, so `%` matches any run of
    characters, `_` any one character, and `\` makes the next character
    literal (section 9.7.1 of the PostgreSQL manual). Case is ignored by
    lowering both sides. The verdict comes from the scan of PostgreSQL's
    like_match.c, proved to agree with a token-level meaning of the pattern;
    the scan raises "LIKE pattern must not end with escape character" only
    when it reaches a trailing lone `\`: outside a `%` run only with text
    still to match, and right after a `%` run whatever text remains. */
module Like {
  import opened Optional
  import opened Text

  /** One element of a parsed pattern. */
  datatype Token = Lit(c: char) | One | Many

  /** Parses a pattern; None when it ends in an unpaired escape. */
  function Parse(p: string): (r: Option<seq<Token>>)
    decreases |p|
  {
    if |p| == 0 then Some([])
    else if p[0] == '\\' then
      if |p| == 1 then None
      else
        var rest := Parse(p[2..]);
        if rest.None? then None else Some([Lit(p[1])] + rest.value)
    else
      var rest := Parse(p[1..]);
      if rest.None? then None else Some([TokenOf(p[0])] + rest.value)
  }

  /** The token an unescaped character stands for. */
  function TokenOf(c: char): Token {
    if c == '%' then Many else if c == '_' then One else Lit(c)
  }

  /** One parsing step over an unescaped first character. */
  lemma ParseStep(p: string, ts: seq<Token>)
    requires |p| > 0 && p[0] != '\\' && Parse(p[1..]) == Some(ts)
    ensures Parse(p) == Some([TokenOf(p[0])] + ts)
  {
  }

  /** Whether `s` matches the parsed pattern, character for character. */
  predicate MatchTokens(s: string, ts: seq<Token>)
    decreases |ts|, |s|
  {
    if |ts| == 0 then |s| == 0
    else match ts[0]
      case Many => MatchTokens(s, ts[1..]) || (|s| > 0 && MatchTokens(s[1..], ts))
      case One => |s| > 0 && MatchTokens(s[1..], ts[1..])
      case Lit(c) => |s| > 0 && s[0] == c && MatchTokens(s[1..], ts[1..])
  }

  // ---------------------------------------------------------------------------
  // What a pattern means

  /** `t` matches the pattern text `p`: the pattern parses and its tokens match
      `t`. A pattern ending in a lone escape matches nothing. */
  predicate PatternMatches(t: string, p: string) {
    Parse(p).Some? && MatchTokens(t, Parse(p).value)
  }

  /** Some suffix of `t` (`t` itself or the empty one included) matches `p`. */
  predicate SuffixMatches(t: string, p: string) {
    exists i :: 0 <= i <= |t| && PatternMatches(t[i..], p)
  }

  predicate AllPercent(p: string) {
    forall i :: 0 <= i < |p| ==> p[i] == '%'
  }

  lemma MatchesEscape(t: string, p: string)
    requires |p| >= 1 && p[0] == '\\'
    ensures PatternMatches(t, p) <==> |p| >= 2 && |t| > 0 && t[0] == p[1] && PatternMatches(t[1..], p[2..])
  {
    if |p| >= 2 && Parse(p[2..]).Some? {
      var ts := [Lit(p[1])] + Parse(p[2..]).value;
      assert ts[1..] == Parse(p[2..]).value;
    }
  }

  lemma MatchesPercent(t: string, p: string)
    requires |p| >= 1 && p[0] == '%'
    ensures PatternMatches(t, p) <==> PatternMatches(t, p[1..]) || (|t| > 0 && PatternMatches(t[1..], p))
  {
    if Parse(p[1..]).Some? {
      var ts := [Many] + Parse(p[1..]).value;
      assert ts[1..] == Parse(p[1..]).value;
    }
  }

  /** An underscore or a plain character at the head of the pattern consumes
      one character of the text. */
  lemma MatchesPlain(t: string, p: string)
    requires |p| >= 1 && p[0] != '\\' && p[0] != '%'
    ensures PatternMatches(t, p) <==> |t| > 0 && (p[0] == '_' || t[0] == p[0]) && PatternMatches(t[1..], p[1..])
  {
    if Parse(p[1..]).Some? {
      var ts := [TokenOf(p[0])] + Parse(p[1..]).value;
      assert ts[1..] == Parse(p[1..]).value;
    }
  }

  /** The empty text matches exactly the patterns made of `%` alone. */
  lemma {:induction false} MatchesEmptyText(p: string)
    ensures PatternMatches("", p) <==> AllPercent(p)
    decreases |p|
  {
    if |p| > 0 {
      if p[0] == '\\' {
        MatchesEscape("", p);
      } else if p[0] == '%' {
        MatchesPercent("", p);
        MatchesEmptyText(p[1..]);
        assert AllPercent(p) <==> AllPercent(p[1..]) by {
          assert forall i :: 1 <= i < |p| ==> p[i] == p[1..][i - 1];
        }
      } else {
        MatchesPlain("", p);
      }
    }
  }

  lemma SuffixStep(t: string, p: string)
    ensures SuffixMatches(t, p) <==> PatternMatches(t, p) || (|t| > 0 && SuffixMatches(t[1..], p))
  {
    assert t[0..] == t;
    if |t| > 0 && SuffixMatches(t[1..], p) {
      var i :| 0 <= i <= |t[1..]| && PatternMatches(t[1..][i..], p);
      assert t[1..][i..] == t[i + 1..];
    }
    if SuffixMatches(t, p) && !PatternMatches(t, p) {
      var i :| 0 <= i <= |t| && PatternMatches(t[i..], p);
      assert t[1..][i - 1..] == t[i..];
    }
  }

  lemma SuffixOfSuffix(t: string, p: string, k: nat)
    requires k <= |t| && SuffixMatches(t[k..], p)
    ensures SuffixMatches(t, p)
  {
    var i :| 0 <= i <= |t[k..]| && PatternMatches(t[k..][i..], p);
    assert t[k..][i..] == t[k + i..];
  }

  /** A leading `%` matches any prefix: `%q` matches `t` iff `q` matches a suffix. */
  lemma {:induction false} PercentIsSuffix(t: string, p: string)
    requires |p| >= 1 && p[0] == '%'
    ensures PatternMatches(t, p) <==> SuffixMatches(t, p[1..])
    decreases |t|
  {
    MatchesPercent(t, p);
    SuffixStep(t, p[1..]);
    if |t| > 0 {
      PercentIsSuffix(t[1..], p);
    }
  }

  lemma SuffixPercent(t: string, q: string)
    requires |q| >= 1 && q[0] == '%'
    ensures SuffixMatches(t, q) <==> SuffixMatches(t, q[1..])
  {
    if SuffixMatches(t, q) {
      var i :| 0 <= i <= |t| && PatternMatches(t[i..], q);
      PercentIsSuffix(t[i..], q);
      SuffixOfSuffix(t, q[1..], i);
    }
    if SuffixMatches(t, q[1..]) {
      PercentIsSuffix(t, q);
      assert t[0..] == t;
    }
  }

  /** A head that consumes one character (`_`, a plain character, or an escape
      pair of width `n`) needs that character in front of any matching suffix. */
  lemma SuffixNeedsHead(t: string, p: string, n: nat)
    requires (n == 1 && |p| >= 1 && p[0] != '\\' && p[0] != '%') || (n == 2 && |p| >= 2 && p[0] == '\\')
    requires SuffixMatches(t, p)
    ensures |t| > 0 && SuffixMatches(t[1..], p[n..])
  {
    var i :| 0 <= i <= |t| && PatternMatches(t[i..], p);
    if n == 1 {
      MatchesPlain(t[i..], p);
    } else {
      MatchesEscape(t[i..], p);
    }
    assert t[1..][i..] == t[i..][1..];
  }

  lemma SuffixUnderscore(t: string, q: string)
    requires |q| >= 1 && q[0] == '_'
    ensures SuffixMatches(t, q) <==> |t| > 0 && SuffixMatches(t[1..], q[1..])
  {
    if SuffixMatches(t, q) {
      SuffixNeedsHead(t, q, 1);
    }
    if |t| > 0 && SuffixMatches(t[1..], q[1..]) {
      var j :| 0 <= j <= |t[1..]| && PatternMatches(t[1..][j..], q[1..]);
      assert t[j..][1..] == t[1..][j..];
      MatchesPlain(t[j..], q);
    }
  }

  // ---------------------------------------------------------------------------
  // PostgreSQL's matcher

  /** The number of `_` in the run of `%` and `_` that opens `q`. */
  function WildCount(q: string): nat
    decreases |q|
  {
    if |q| > 0 && q[0] == '%' then WildCount(q[1..])
    else if |q| > 0 && q[0] == '_' then 1 + WildCount(q[1..])
    else 0
  }

  /** What follows the run of `%` and `_` that opens `q`. */
  function WildRest(q: string): (r: string)
    ensures |r| <= |q| && r == q[|q| - |r|..]
    ensures |r| > 0 ==> r[0] != '%' && r[0] != '_'
    ensures WildCount(q) <= |q| - |r|
    decreases |q|
  {
    if |q| > 0 && (q[0] == '%' || q[0] == '_') then
      var r := WildRest(q[1..]);
      assert q[1..][|q| - 1 - |r|..] == q[|q| - |r|..];
      r
    else q
  }

  /** After a `%`, only the number of `_` in the wildcard run matters. */
  lemma {:induction false} SuffixAfterRun(t: string, q: string)
    ensures SuffixMatches(t, q) <==> |t| >= WildCount(q) && SuffixMatches(t[WildCount(q)..], WildRest(q))
    decreases |q|
  {
    if |q| > 0 && q[0] == '%' {
      SuffixPercent(t, q);
      SuffixAfterRun(t, q[1..]);
    } else if |q| > 0 && q[0] == '_' {
      SuffixUnderscore(t, q);
      if |t| > 0 {
        SuffixAfterRun(t[1..], q[1..]);
        if |t| >= WildCount(q) {
          assert t[1..][WildCount(q[1..])..] == t[WildCount(q)..];
        }
      }
    } else {
      assert t[0..] == t;
    }
  }

  lemma {:induction false} ParseAfterRun(q: string)
    ensures Parse(q).None? <==> Parse(WildRest(q)).None?
    decreases |q|
  {
    if |q| > 0 && (q[0] == '%' || q[0] == '_') {
      ParseAfterRun(q[1..]);
    }
  }

  /** Where the wildcard-skipping loop after a `%` stops: with the text and the
      pattern past the run, or out of text while an `_` still needs a character. */
  datatype Skip = Skipped(t: string, p: string) | OutOfText

  /** The loop after a `%` in `MatchText`: `%` is skipped, `_` consumes one
      character of the text, anything else stops it. */
  function SkipWildcards(t: string, p: string): (r: Skip)
    ensures r.OutOfText? <==> |t| < WildCount(p)
    ensures r.Skipped? ==> r.t == t[WildCount(p)..] && r.p == WildRest(p)
    decreases |p|
  {
    if |p| > 0 && p[0] == '%' then SkipWildcards(t, p[1..])
    else if |p| > 0 && p[0] == '_' then
      if |t| == 0 then OutOfText
      else
        var r := SkipWildcards(t[1..], p[1..]);
        assert r.Skipped? ==> t[1..][WildCount(p[1..])..] == t[WildCount(p)..];
        r
    else Skipped(t, p)
  }

  /** The outcome of `MatchText` in PostgreSQL's like_match.c: LIKE_TRUE,
      LIKE_FALSE, LIKE_ABORT (no later start in the text can match either), or
      the error "LIKE pattern must not end with escape character". */
  datatype Verdict = Matched | Unmatched | Aborted | Raised

  /** `MatchText(t, p)`: a lone `%` matches at once, anything else goes to the scan. */
  function MatchText(t: string, p: string): (r: Verdict)
    ensures r == Matched <==> PatternMatches(t, p)
    ensures r == Aborted ==> !SuffixMatches(t, p)
    ensures r == Raised ==> Parse(p).None?
    decreases |t| + |p|, 1
  {
    if |p| == 1 && p[0] == '%' then
      PercentIsSuffix(t, p);
      assert PatternMatches(t[|t|..], p[1..]);
      Matched
    else MatchLoop(t, p)
  }

  /** The main loop of `MatchText`, one pattern element per step; a trailing
      lone escape is refused when the scan reaches it, which outside a `%` run
      needs text left and right after a `%` run does not. */
  function MatchLoop(t: string, p: string): (r: Verdict)
    ensures r == Matched <==> PatternMatches(t, p)
    ensures r == Aborted ==> !SuffixMatches(t, p)
    ensures r == Raised ==> Parse(p).None?
    decreases |t| + |p|, 0
  {
    if |t| == 0 || |p| == 0 then
      if |t| > 0 then Unmatched
      else
        MatchesEmptyText(p);
        SuffixStep(t, p);
        if AllPercent(p) then Matched else Aborted
    else if p[0] == '\\' then
      MatchesEscape(t, p);
      if |p| == 1 then Raised
      else if p[1] != t[0] then Unmatched
      else
        assert SuffixMatches(t, p) ==> SuffixMatches(t[1..], p[2..]) by {
          if SuffixMatches(t, p) {
            SuffixNeedsHead(t, p, 2);
          }
        }
        MatchLoop(t[1..], p[2..])
    else if p[0] == '%' then
      PercentIsSuffix(t, p);
      SuffixPercent(t, p);
      SuffixAfterRun(t, p[1..]);
      ParseAfterRun(p[1..]);
      match SkipWildcards(t, p[1..])
      case OutOfText => Aborted
      case Skipped(t', p') =>
        if |p'| == 0 then
          assert PatternMatches(t'[|t'|..], p');
          Matched
        else if p'[0] == '\\' && |p'| < 2 then Raised
        else ScanFor(t', p', if p'[0] == '\\' then p'[1] else p'[0])
    else
      MatchesPlain(t, p);
      assert SuffixMatches(t, p) ==> SuffixMatches(t[1..], p[1..]) by {
        if SuffixMatches(t, p) {
          SuffixNeedsHead(t, p, 1);
        }
      }
      if p[0] == '_' then MatchLoop(t[1..], p[1..])
      else if p[0] != t[0] then Unmatched
      else MatchLoop(t[1..], p[1..])
  }

  /** The search after a `%`: try `MatchText` at every position whose character
      is the one the rest of the pattern starts with, and stop at the first
      verdict other than LIKE_FALSE; LIKE_ABORT when the text runs out. */
  function ScanFor(t: string, p: string, first: char): (r: Verdict)
    requires |p| >= 1 && p[0] != '%' && p[0] != '_' && (p[0] == '\\' ==> |p| >= 2)
    requires first == if p[0] == '\\' then p[1] else p[0]
    ensures r != Unmatched
    ensures r == Matched <==> SuffixMatches(t, p)
    ensures r == Aborted ==> !SuffixMatches(t, p)
    ensures r == Raised ==> Parse(p).None?
    decreases |t| + |p|, 2
  {
    SuffixStep(t, p);
    assert PatternMatches(t, p) ==> |t| > 0 && t[0] == first by {
      if p[0] == '\\' {
        MatchesEscape(t, p);
      } else {
        MatchesPlain(t, p);
      }
    }
    assert |t| == 0 ==> !PatternMatches(t, p) by {
      MatchesEmptyText(p);
    }
    if |t| == 0 then Aborted
    else if t[0] == first then
      var m := MatchText(t, p);
      if m != Unmatched then m else ScanFor(t[1..], p, first)
    else ScanFor(t[1..], p, first)
  }

  // ---------------------------------------------------------------------------
  // ILIKE

  /** `s ILIKE p`: both sides lower-cased, then PostgreSQL's scan; None when
      the scan raises the escape error. A pattern the scan accepts gives its
      meaning; only a malformed pattern can raise, and whether it does depends
      on the text. */
  function Ilike(s: string, p: string): (r: Option<bool>)
    ensures r.Some? ==> (r.value <==> PatternMatches(Lower(s), Lower(p)))
    ensures r.None? ==> Parse(Lower(p)).None?
  {
    var v := MatchText(Lower(s), Lower(p));
    if v == Raised then None else Some(v == Matched)
  }

  /** A well-formed pattern never raises and matches as its tokens say. */
  lemma IlikeTokens(s: string, p: string, ts: seq<Token>)
    requires Parse(Lower(p)) == Some(ts)
    ensures Ilike(s, p) == Some(MatchTokens(Lower(s), ts))
  {
  }

  /** The characters `ILIKE` gives a meaning of their own. */
  predicate NoLikeWildcards(s: string) {
    '%' !in s && '_' !in s && '\\' !in s
  }

  /** The tokens that match exactly `s`. */
  function Literal(s: string): (r: seq<Token>)
    ensures |r| == |s|
    ensures forall i :: 0 <= i < |s| ==> r[i] == Lit(s[i])
  {
    seq(|s|, i requires 0 <= i < |s| => Lit(s[i]))
  }

  // ---------------------------------------------------------------------------
  // A wildcard-free pattern is a plain string

  lemma {:induction false} ParseLiteral(q: string)
    requires NoLikeWildcards(q)
    ensures Parse(q) == Some(Literal(q))
    decreases |q|
  {
    if |q| > 0 {
      assert q[0] != '\\' && TokenOf(q[0]) == Lit(q[0]) by { assert q[0] in q; }
      assert NoLikeWildcards(q[1..]) by { assert forall c :: c in q[1..] ==> c in q; }
      ParseLiteral(q[1..]);
      ParseStep(q, Literal(q[1..]));
      assert Literal(q) == [Lit(q[0])] + Literal(q[1..]);
    }
  }

  lemma {:induction false} MatchLiteral(s: string, q: string)
    ensures MatchTokens(s, Literal(q)) <==> s == q
    decreases |q|
  {
    if |q| > 0 {
      assert Literal(q)[1..] == Literal(q[1..]);
      if |s| > 0 {
        MatchLiteral(s[1..], q[1..]);
        assert s == [s[0]] + s[1..] && q == [q[0]] + q[1..];
      }
    }
  }

  lemma LowerKeepsWildcardFree(q: string)
    requires NoLikeWildcards(q)
    ensures NoLikeWildcards(Lower(q))
  {
    forall i | 0 <= i < |q| ensures Lower(q)[i] !in {'%', '_', '\\'} {
      assert q[i] in q;
    }
  }

  /** With no wildcard in the keyword, `ILIKE` is equality ignoring case. */
  lemma IlikeLiteral(s: string, keyword: string)
    requires NoLikeWildcards(keyword)
    ensures Ilike(s, keyword) == Some(EqualsIgnoreCase(s, keyword))
  {
    LowerKeepsWildcardFree(keyword);
    ParseLiteral(Lower(keyword));
    MatchLiteral(Lower(s), Lower(keyword));
  }

  /** An underscore in the keyword matches any character. */
  lemma UnderscoreIsWildcard()
    ensures Ilike("axb", "a_b") == Some(true)
  {
    assert Lower("a_b") == "a_b";
    assert Lower("axb") == "axb";
    ParseStep("b", []);
    assert [TokenOf('b')] + [] == [Lit('b')];
    ParseStep("_b", [Lit('b')]);
    assert [TokenOf('_')] + [Lit('b')] == [One, Lit('b')];
    ParseStep("a_b", [One, Lit('b')]);
    assert [TokenOf('a')] + [One, Lit('b')] == [Lit('a'), One, Lit('b')];
    assert MatchTokens("axb", [Lit('a'), One, Lit('b')]) by {
      assert "axb"[1..] == "xb" && "xb"[1..] == "b" && "b"[1..] == "";
      assert [Lit('a'), One, Lit('b')][1..] == [One, Lit('b')];
      assert [One, Lit('b')][1..] == [Lit('b')];
      assert [Lit('b')][1..] == [];
    }
  }

  // ---------------------------------------------------------------------------
  // A keyword ending in a lone escape

  lemma {:induction false} ParseLoneEscape(w: string)
    requires NoLikeWildcards(w)
    ensures Parse(w + "\\").None?
    decreases |w|
  {
    if |w| == 0 {
      assert w + "\\" == "\\";
    } else {
      WildcardFreeHead(w);
      assert (w + "\\")[1..] == w[1..] + "\\";
      ParseLoneEscape(w[1..]);
    }
  }

  lemma {:induction false} LoopLoneEscape(t: string, w: string)
    requires NoLikeWildcards(w)
    ensures MatchLoop(t, w + "\\") == Raised <==> |t| > |w| && IsPrefix(w, t)
    decreases |w|
  {
    var p := w + "\\";
    assert !AllPercent(p) by {
      assert p[|p| - 1] == '\\';
    }
    if |w| > 0 {
      WildcardFreeHead(w);
      assert p[0] == w[0] && p[1..] == w[1..] + "\\";
      if |t| > 0 && t[0] == w[0] {
        LoopLoneEscape(t[1..], w[1..]);
        assert IsPrefix(w, t) <==> IsPrefix(w[1..], t[1..]) by {
          if IsPrefix(w[1..], t[1..]) && |w| <= |t| {
            assert t[..|w|] == [t[0]] + t[1..][..|w| - 1];
            assert w == [w[0]] + w[1..];
          }
        }
      }
    }
  }

  /** The escape error depends on the text: a keyword `w\` with `w` free of
      wildcards raises exactly on the texts that extend `w`, ignoring case, by
      at least one character, and is false on every other text. */
  lemma IlikeLoneEscape(s: string, w: string)
    requires NoLikeWildcards(w)
    ensures Ilike(s, w + "\\") == if |s| > |w| && IsPrefix(Lower(w), Lower(s)) then None else Some(false)
  {
    var lw := Lower(w);
    assert Lower(w + "\\") == lw + "\\";
    LowerKeepsWildcardFree(w);
    ParseLoneEscape(lw);
    LoopLoneEscape(Lower(s), lw);
    assert |lw + "\\"| != 1 || (lw + "\\")[0] != '%';
  }

  /** So the keyword `a\` is false on `a` and on `b`, and raises on `ab`. */
  lemma LoneEscapeExamples()
    ensures Ilike("a", "a\\") == Some(false)
    ensures Ilike("b", "a\\") == Some(false)
    ensures Ilike("ab", "a\\") == None
  {
    assert Lower("a") == "a" && Lower("b") == "b" && Lower("ab") == "ab";
    assert "ab"[..1] == "a" && "b"[..1] == "b";
    IlikeLoneEscape("a", "a");
    IlikeLoneEscape("b", "a");
    IlikeLoneEscape("ab", "a");
  }

  // ---------------------------------------------------------------------------
  // The substring pattern `%q%`

  /** `%q%` never ends in a lone escape: the closing `%` either stands alone or
      is the escaped character. */
  lemma {:induction false} ParseClosedByPercent(x: string)
    ensures Parse(x + "%").Some?
    decreases |x|
  {
    if |x| == 0 {
      assert Parse("%") == Some([Many] + []);
    } else if x[0] == '\\' && |x| == 1 {
      assert x + "%" == "\\%";
      assert Parse("\\%") == Some([Lit('%')] + []);
    } else if x[0] == '\\' {
      ParseClosedByPercent(x[2..]);
      assert (x + "%")[2..] == x[2..] + "%";
    } else {
      ParseClosedByPercent(x[1..]);
      assert (x + "%")[1..] == x[1..] + "%";
    }
  }

  /** The parsed `%query%` pattern the listing filters with. */
  function SubstringPattern(q: string): (r: seq<Token>)
    ensures Parse("%" + Lower(q) + "%") == Some(r)
  {
    ParseClosedByPercent("%" + Lower(q));
    Parse("%" + Lower(q) + "%").value
  }

  /** `col ILIKE '%' || lower(q) || '%'`, the search's column test. */
  predicate IlikeContains(col: string, q: string) {
    Ilike(col, "%" + Lower(q) + "%") == Some(true)
  }

  /** The search pattern never raises, and matches as its tokens say. */
  lemma IlikeContainsTokens(col: string, q: string)
    ensures Ilike(col, "%" + Lower(q) + "%") == Some(MatchTokens(Lower(col), SubstringPattern(q)))
  {
    var p := "%" + Lower(q) + "%";
    assert Lower(p) == p by {
      forall i | 0 <= i < |p| ensures Lower(p)[i] == p[i] {
        if 0 < i < |p| - 1 {
          assert p[i] == Lower(q)[i - 1];
        }
      }
    }
    IlikeTokens(col, p, SubstringPattern(q));
  }

  /** `Many` followed by a literal matches exactly the strings that end with it
      after some prefix, which is how `%q%` becomes a substring test. */
  lemma {:induction false} MatchLiteralThenMany(s: string, q: string)
    ensures MatchTokens(s, Literal(q) + [Many]) <==> IsPrefix(q, s)
    decreases |q|
  {
    var ts := Literal(q) + [Many];
    if |q| == 0 {
      assert ts == [Many];
      MatchManyAlone(s);
    } else {
      assert ts[0] == Lit(q[0]);
      assert ts[1..] == Literal(q[1..]) + [Many];
      if |s| > 0 {
        MatchLiteralThenMany(s[1..], q[1..]);
      }
    }
  }

  lemma {:induction false} MatchManyAlone(s: string)
    ensures MatchTokens(s, [Many])
    decreases |s|
  {
    assert [Many][1..] == [];
    if |s| > 0 {
      MatchManyAlone(s[1..]);
    }
  }

  lemma {:induction false} MatchManyPrefix(s: string, rest: seq<Token>)
    ensures MatchTokens(s, [Many] + rest) <==> exists i :: 0 <= i <= |s| && MatchTokens(s[i..], rest)
    decreases |s|
  {
    var ts := [Many] + rest;
    assert ts[1..] == rest;
    assert s[0..] == s;
    if |s| > 0 {
      MatchManyPrefix(s[1..], rest);
      if MatchTokens(s[1..], ts) {
        var i :| 0 <= i <= |s[1..]| && MatchTokens(s[1..][i..], rest);
        assert s[1..][i..] == s[i + 1..];
      }
      if exists i :: 0 <= i <= |s| && MatchTokens(s[i..], rest) {
        var i :| 0 <= i <= |s| && MatchTokens(s[i..], rest);
        if i > 0 {
          assert s[1..][i - 1..] == s[i..];
        }
      }
    } else {
      if exists i :: 0 <= i <= |s| && MatchTokens(s[i..], rest) {
        var i :| 0 <= i <= |s| && MatchTokens(s[i..], rest);
        assert i == 0;
      }
    }
  }

  lemma {:induction false} ContainsIffPrefixAt(s: string, q: string)
    ensures Contains(s, q) <==> exists i :: 0 <= i <= |s| && IsPrefix(q, s[i..])
  {
    ContainsIffOccurs(s, q);
    if Contains(s, q) {
      var i :| OccursAt(s, q, i);
      assert IsPrefix(q, s[i..]);
    }
    if exists i :: 0 <= i <= |s| && IsPrefix(q, s[i..]) {
      var i :| 0 <= i <= |s| && IsPrefix(q, s[i..]);
      assert OccursAt(s, q, i);
    }
  }

  /** With no wildcard in the query, the listing's `ILIKE '%q%'` is the
      case-insensitive substring test. */
  lemma IlikeContainsLiteral(col: string, q: string)
    requires NoLikeWildcards(q)
    ensures IlikeContains(col, q) <==> ContainsIgnoreCase(col, q)
  {
    var lq := Lower(q);
    var s := Lower(col);
    IlikeContainsTokens(col, q);
    LowerKeepsWildcardFree(q);
    ParseLiteral(lq);
    assert "%" + lq + "%" == ['%'] + (lq + "%");
    ParseClosedByPercent(lq);
    ParseLiteralThenPercent(lq);
    assert SubstringPattern(q) == [Many] + (Literal(lq) + [Many]);
    MatchManyPrefix(s, Literal(lq) + [Many]);
    forall i | 0 <= i <= |s| ensures MatchTokens(s[i..], Literal(lq) + [Many]) <==> IsPrefix(lq, s[i..]) {
      MatchLiteralThenMany(s[i..], lq);
    }
    ContainsIffPrefixAt(s, lq);
  }

  lemma {:induction false} ParseLiteralThenPercent(q: string)
    requires NoLikeWildcards(q)
    ensures Parse(q + "%") == Some(Literal(q) + [Many])
    decreases |q|
  {
    if |q| == 0 {
      assert q + "%" == "%";
      ParseStep("%", []);
      assert [TokenOf('%')] + [] == Literal(q) + [Many];
    } else {
      var p := q + "%";
      var tail := Literal(q[1..]) + [Many];
      WildcardFreeHead(q);
      assert p[0] == q[0] && p[1..] == q[1..] + "%";
      ParseLiteralThenPercent(q[1..]);
      ParseStep(p, tail);
      LiteralCons(q);
      assert Literal(q) + [Many] == [Lit(q[0])] + tail;
    }
  }

  /** The head of a wildcard-free string is a plain literal and its tail stays wildcard-free. */
  lemma WildcardFreeHead(q: string)
    requires |q| > 0 && NoLikeWildcards(q)
    ensures q[0] != '\\' && TokenOf(q[0]) == Lit(q[0]) && NoLikeWildcards(q[1..])
  {
    assert q[0] in q;
    forall c | c in q[1..] ensures c in q {
      var i :| 0 <= i < |q[1..]| && q[1..][i] == c;
      assert q[i + 1] == c;
    }
  }

  lemma LiteralCons(q: string)
    requires |q| > 0
    ensures Literal(q) == [Lit(q[0])] + Literal(q[1..])
  {
  }

  /** `%a_b%` parses to a wildcard, `a`, any one character, `b`, a wildcard. */
  lemma UnderscorePattern()
    ensures SubstringPattern("a_b") == [Many, Lit('a'), One, Lit('b'), Many]
  {
    assert Lower("a_b") == "a_b";
    assert "%" + "a_b" + "%" == "%a_b%";
    ParseStep("%", []);
    assert [TokenOf('%')] + [] == [Many];
    ParseStep("b%", [Many]);
    assert [TokenOf('b')] + [Many] == [Lit('b'), Many];
    ParseStep("_b%", [Lit('b'), Many]);
    assert [TokenOf('_')] + [Lit('b'), Many] == [One, Lit('b'), Many];
    ParseStep("a_b%", [One, Lit('b'), Many]);
    assert [TokenOf('a')] + [One, Lit('b'), Many] == [Lit('a'), One, Lit('b'), Many];
    ParseStep("%a_b%", [Lit('a'), One, Lit('b'), Many]);
    assert [TokenOf('%')] + [Lit('a'), One, Lit('b'), Many] == [Many, Lit('a'), One, Lit('b'), Many];
  }

  lemma UnderscoreMatch()
    ensures MatchTokens("axb", [Many, Lit('a'), One, Lit('b'), Many])
  {
    assert [Many, Lit('a'), One, Lit('b'), Many][1..] == [Lit('a'), One, Lit('b'), Many];
    assert [Lit('a'), One, Lit('b'), Many][1..] == [One, Lit('b'), Many];
    assert [One, Lit('b'), Many][1..] == [Lit('b'), Many];
    assert [Lit('b'), Many][1..] == [Many];
    assert [Many][1..] == [];
    assert "axb"[1..] == "xb" && "xb"[1..] == "b" && "b"[1..] == "";
  }

  /** An underscore in the query also matches any character of a column. */
  lemma UnderscoreSearch()
    ensures IlikeContains("axb", "a_b") && !ContainsIgnoreCase("axb", "a_b")
  {
    assert Lower("a_b") == "a_b";
    assert Lower("axb") == "axb";
    UnderscorePattern();
    UnderscoreMatch();
    IlikeContainsTokens("axb", "a_b");
    ContainsIffOccurs("axb", "a_b");
    assert "axb"[0..3][1] == 'x' != '_';
    assert !OccursAt("axb", "a_b", 0);
    forall i | OccursAt("axb", "a_b", i) ensures i == 0 {}
  }
}

=== FILE: listing.dfy ===
/** The term listing both backends serve: filter by a case-insensitive
    search of four columns, order by `term`, then cut one page; and the
    case-insensitive lookup by keyword (backend/app/crud.py,
    backend/src/services/termService.ts). The two backends phrase the search
    differently: Prisma's `contains` and `equals` in insensitive mode, and
    SQLAlchemy's `ILIKE` with the query pasted into the pattern. */
module Listing {
  import opened Optional
  import opened Text
  import opened Domain
  import Store
  import Like

  /** Which backend phrases the search. */
  datatype Engine = Prisma | Sql

  // ---------------------------------------------------------------------------
  // Filter

  /** One column's test: a case-insensitive substring for Prisma, `ILIKE
      '%query%'` for SQLAlchemy. */
  predicate ColumnMatches(engine: Engine, col: string, q: string) {
    match engine
    case Prisma => ContainsIgnoreCase(col, q)
    case Sql => Like.IlikeContains(col, q)
  }

  /** The OR of the four column tests. Synonyms and tags are searched in their
      stored, comma-joined form; a NULL column never matches. */
  predicate Matches(engine: Engine, t: TermRow, q: string) {
    || ColumnMatches(engine, t.term, q)
    || ColumnMatches(engine, t.definition, q)
    || (t.synonyms.Some? && ColumnMatches(engine, t.synonyms.value, q))
    || (t.tags.Some? && ColumnMatches(engine, t.tags.value, q))
  }

  /** The query filters: it is present and not empty. */
  predicate Filters(query: Option<string>) {
    query.Some? && query.value != ""
  }

  /** A missing or empty query selects every row; any other query filters. */
  predicate Selected(engine: Engine, t: TermRow, query: Option<string>) {
    query.None? || query.value == "" || Matches(engine, t, query.value)
  }

  function Filter(rows: seq<TermRow>, engine: Engine, query: Option<string>): (r: seq<TermRow>)
    ensures forall t :: t in r <==> t in rows && Selected(engine, t, query)
    ensures multiset(r) <= multiset(rows)
    ensures |r| <= |rows|
  {
    if |rows| == 0 then []
    else
      assert rows == [rows[0]] + rows[1..];
      (if Selected(engine, rows[0], query) then [rows[0]] else []) + Filter(rows[1..], engine, query)
  }

  /** No row is listed twice. */
  predicate NoRepeats(rows: seq<TermRow>) {
    forall i, j :: 0 <= i < j < |rows| ==> rows[i] != rows[j]
  }

  /** No two listed rows share a name. */
  predicate DistinctTerms(rows: seq<TermRow>) {
    forall i, j :: 0 <= i < j < |rows| ==> rows[i].term != rows[j].term
  }

  lemma {:induction false} CountsOfIncreasing(rows: seq<TermRow>)
    requires forall i, j :: 0 <= i < j < |rows| ==> rows[i].id < rows[j].id
    ensures forall t :: multiset(rows)[t] <= 1
    decreases |rows|
  {
    if |rows| > 0 {
      CountsOfIncreasing(rows[1..]);
      assert rows == [rows[0]] + rows[1..];
      assert rows[0] !in rows[1..] by {
        forall j | 0 <= j < |rows[1..]| ensures rows[1..][j] != rows[0] {
          assert rows[1..][j] == rows[j + 1];
        }
      }
    }
  }

  lemma NoRepeatsOfCounts(rows: seq<TermRow>)
    requires forall t :: multiset(rows)[t] <= 1
    ensures NoRepeats(rows)
  {
    forall i, j | 0 <= i < j < |rows| ensures rows[i] != rows[j] {
      if rows[i] == rows[j] {
        CountTwice(rows, i, j);
        assert false;
      }
    }
  }

  lemma CountTwice(rows: seq<TermRow>, i: nat, j: nat)
    requires i < j < |rows| && rows[i] == rows[j]
    ensures multiset(rows)[rows[i]] >= 2
  {
    var x := rows[i];
    assert rows == rows[..j] + rows[j..];
    assert x == rows[..j][i] && x in rows[..j];
    assert x == rows[j..][0] && x in rows[j..];
  }

  /** Stored rows without repeats have distinct names, by the unique constraint. */
  lemma StoredDistinct(st: State, rows: seq<TermRow>)
    requires Valid(st) && NoRepeats(rows)
    requires forall t :: t in rows ==> t.id in st.terms && st.terms[t.id] == t
    ensures DistinctTerms(rows)
  {
    forall i, j | 0 <= i < j < |rows| ensures rows[i].term != rows[j].term {
      assert rows[i] in rows && rows[j] in rows;
    }
  }

  // ---------------------------------------------------------------------------
  // Order

  predicate SortedByTerm(rows: seq<TermRow>) {
    forall i, j :: 0 <= i < j < |rows| ==> LexLe(rows[i].term, rows[j].term)
  }

  lemma ConsSorted(x: TermRow, rows: seq<TermRow>)
    requires SortedByTerm(rows)
    requires forall t :: t in rows ==> LexLe(x.term, t.term)
    ensures SortedByTerm([x] + rows)
  {
    var r := [x] + rows;
    forall i, j | 0 <= i < j < |r| ensures LexLe(r[i].term, r[j].term) {
      if i == 0 {
        assert r[j] in rows;
      } else {
        assert r[i] == rows[i - 1] && r[j] == rows[j - 1];
      }
    }
  }

  lemma HeadBelowSorted(x: TermRow, rows: seq<TermRow>)
    requires SortedByTerm(rows) && |rows| > 0
    requires LexLe(x.term, rows[0].term)
    ensures forall t :: t in rows ==> LexLe(x.term, t.term)
  {
    forall t | t in rows ensures LexLe(x.term, t.term) {
      var j :| 0 <= j < |rows| && rows[j] == t;
      if j > 0 {
        LexLeTrans(x.term, rows[0].term, t.term);
      }
    }
  }

  /** Inserts `x` into a sorted list after the elements that sort before it. */
  function InsertByTerm(x: TermRow, rows: seq<TermRow>): (r: seq<TermRow>)
    requires SortedByTerm(rows)
    ensures SortedByTerm(r)
    ensures multiset(r) == multiset(rows) + multiset{x}
    decreases |rows|
  {
    if |rows| == 0 then [x]
    else if LexLe(x.term, rows[0].term) then
      HeadBelowSorted(x, rows);
      ConsSorted(x, rows);
      [x] + rows
    else
      var tail := InsertByTerm(x, rows[1..]);
      LexLeTotal(x.term, rows[0].term);
      assert rows == [rows[0]] + rows[1..];
      forall t | t in tail ensures LexLe(rows[0].term, t.term) {
        assert t in multiset(tail);
        if t != x {
          assert t in rows[1..];
        }
      }
      ConsSorted(rows[0], tail);
      [rows[0]] + tail
  }

  /** `ORDER BY term`: a sorted permutation of the rows. */
  function SortByTerm(rows: seq<TermRow>): (r: seq<TermRow>)
    ensures SortedByTerm(r)
    ensures multiset(r) == multiset(rows)
    decreases |rows|
  {
    if |rows| == 0 then []
    else
      assert rows == [rows[0]] + rows[1..];
      InsertByTerm(rows[0], SortByTerm(rows[1..]))
  }

  // ---------------------------------------------------------------------------
  // Page

  function Min(a: int, b: int): int {
    if a <= b then a else b
  }

  /** `r` is the window of `xs` that skips `offset` rows and keeps at most
      `limit` of the rest, in order. */
  ghost predicate IsPage<T>(r: seq<T>, xs: seq<T>, limit: nat, offset: nat) {
    && |r| == (if offset >= |xs| then 0 else Min(limit, |xs| - offset))
    && forall i :: 0 <= i < |r| ==> r[i] == xs[offset + i]
  }

  /** `LIMIT limit OFFSET offset` / Prisma's `take` and `skip`. */
  function Page<T>(xs: seq<T>, limit: nat, offset: nat): (r: seq<T>)
    ensures IsPage(r, xs, limit, offset)
  {
    if offset >= |xs| then [] else xs[offset..offset + Min(limit, |xs| - offset)]
  }

  /** Consecutive pages tile the listing: the page of `a` rows at `offset`
      followed by the page of `b` rows right after it is the page of `a + b` rows. */
  lemma PagesTile<T>(xs: seq<T>, a: nat, b: nat, offset: nat)
    ensures Page(xs, a, offset) + Page(xs, b, offset + a) == Page(xs, a + b, offset)
  {
    var left := Page(xs, a, offset);
    var right := Page(xs, b, offset + a);
    var whole := Page(xs, a + b, offset);
    assert |left + right| == |whole|;
    forall i | 0 <= i < |whole| ensures (left + right)[i] == whole[i] {
      if i >= |left| {
        assert (left + right)[i] == right[i - |left|];
      }
    }
  }

  /** A page large enough, from offset zero, is everything. */
  lemma WholePage<T>(xs: seq<T>, limit: nat)
    requires limit >= |xs|
    ensures Page(xs, limit, 0) == xs
  {
  }

  // ---------------------------------------------------------------------------
  // Listing

  /** Default page size of every listing entry point. */
  const DefaultLimit: nat := 100

  /** Every stored term the query selects, once each, in `term` order. */
  function Ordered(st: State, engine: Engine, query: Option<string>): (r: seq<TermRow>)
    requires Valid(st)
    ensures SortedByTerm(r) && NoRepeats(r)
    ensures forall t :: t in r ==> t.id in st.terms && st.terms[t.id] == t && Selected(engine, t, query)
    ensures forall k :: k in st.terms && Selected(engine, st.terms[k], query) ==> st.terms[k] in r
  {
    var rows := Store.TermRows(st);
    var filtered := Filter(rows, engine, query);
    var r := SortByTerm(filtered);
    SortedSelection(st.terms, rows, engine, query);
    CountsOfIncreasing(rows);
    assert forall t :: multiset(r)[t] <= 1 by {
      forall t ensures multiset(r)[t] <= 1 {
        assert multiset(r)[t] == multiset(filtered)[t] <= multiset(rows)[t];
      }
    }
    NoRepeatsOfCounts(r);
    r
  }

  /** Two lists sorted by `term` with distinct names and the same rows are equal. */
  lemma {:induction false} SortedDistinctEqual(a: seq<TermRow>, b: seq<TermRow>)
    requires SortedByTerm(a) && SortedByTerm(b) && DistinctTerms(a) && DistinctTerms(b)
    requires forall t :: t in a <==> t in b
    ensures a == b
    decreases |a|
  {
    if |a| == 0 {
      NoMembersEmpty(b);
    } else {
      assert a[0] in b;
      assert b[0] in a;
      var j :| 0 <= j < |a| && a[j] == b[0];
      var i :| 0 <= i < |b| && b[i] == a[0];
      if j != 0 {
        assert LexLe(a[0].term, b[0].term);
        assert i != 0;
        assert LexLe(b[0].term, a[0].term);
        LexLeAntisym(a[0].term, b[0].term);
        assert false;
      }
      TailMembers(a, b);
      TailMembers(b, a);
      SortedDistinctEqual(a[1..], b[1..]);
      assert a == [a[0]] + a[1..] && b == [b[0]] + b[1..];
    }
  }

  /** Past a shared head, whatever follows in `a` follows in `b` too. */
  lemma TailMembers(a: seq<TermRow>, b: seq<TermRow>)
    requires |a| > 0 && |b| > 0 && a[0] == b[0] && DistinctTerms(a)
    requires forall t :: t in a ==> t in b
    ensures forall t :: t in a[1..] ==> t in b[1..]
  {
    forall t | t in a[1..] ensures t in b[1..] {
      var k :| 0 <= k < |a[1..]| && a[1..][k] == t;
      assert a[k + 1] == t && t.term != a[0].term;
      assert t in b;
      var m :| 0 <= m < |b| && b[m] == t;
      assert m != 0;
      assert b[1..][m - 1] == t;
    }
  }

  /** A list with no members is empty. */
  lemma NoMembersEmpty<T>(b: seq<T>)
    requires forall t :: t !in b
    ensures b == []
  {
    forall t ensures multiset(b)[t] == 0 {
      assert t !in b;
    }
    assert multiset(b) == multiset{};
    assert |b| == |multiset(b)| == 0;
  }

  /** `Ordered` is determined by its contract: any list of exactly the selected
      stored terms, sorted by `term` and without repeats, is that list. */
  lemma OrderedUnique(st: State, engine: Engine, query: Option<string>, xs: seq<TermRow>)
    requires Valid(st)
    requires SortedByTerm(xs) && NoRepeats(xs)
    requires forall t :: t in xs <==> t.id in st.terms && st.terms[t.id] == t && Selected(engine, t, query)
    ensures xs == Ordered(st, engine, query)
  {
    var ys := Ordered(st, engine, query);
    StoredDistinct(st, xs);
    StoredDistinct(st, ys);
    forall t ensures t in xs <==> t in ys {
      if t in ys {
        assert t.id in st.terms && st.terms[t.id] == t && Selected(engine, t, query);
      }
    }
    SortedDistinctEqual(xs, ys);
  }

  lemma SortedSelection(terms: map<int, TermRow>, rows: seq<TermRow>, engine: Engine, query: Option<string>)
    requires forall k :: k in terms ==> terms[k] in rows
    requires forall i :: 0 <= i < |rows| ==> rows[i].id in terms && terms[rows[i].id] == rows[i]
    ensures forall t :: t in SortByTerm(Filter(rows, engine, query)) ==>
      t.id in terms && terms[t.id] == t && Selected(engine, t, query)
    ensures forall k :: k in terms && Selected(engine, terms[k], query) ==>
      terms[k] in SortByTerm(Filter(rows, engine, query))
  {
    var filtered := Filter(rows, engine, query);
    var r := SortByTerm(filtered);
    forall t | t in r ensures t.id in terms && terms[t.id] == t && Selected(engine, t, query) {
      assert t in multiset(r);
      assert t in filtered;
      var i :| 0 <= i < |rows| && rows[i] == t;
    }
    forall k | k in terms && Selected(engine, terms[k], query) ensures terms[k] in r {
      assert terms[k] in filtered;
      assert terms[k] in multiset(filtered);
    }
  }

  /** The shared term listing: filter, order ascending by `term`, then the
      slice `[offset, offset + limit)` of that order. */
  function ListTerms(st: State, engine: Engine, query: Option<string>, limit: nat, offset: nat): (r: seq<TermRow>)
    requires Valid(st)
    ensures IsPage(r, Ordered(st, engine, query), limit, offset)
    ensures SortedByTerm(r)
    ensures |r| <= limit
    ensures forall t :: t in r ==> t.id in st.terms && st.terms[t.id] == t && Selected(engine, t, query)
  {
    var all := Ordered(st, engine, query);
    var r := Page(all, limit, offset);
    forall t | t in r ensures t in all {
      var i :| 0 <= i < |r| && r[i] == t;
      assert all[offset + i] == t;
    }
    r
  }

  /** Every stored term the query selects is on some page: it is the single row
      of the one-row page at its rank. */
  lemma ListTermsComplete(st: State, engine: Engine, query: Option<string>, id: int)
    requires Valid(st)
    requires id in st.terms && Selected(engine, st.terms[id], query)
    ensures exists offset: nat :: ListTerms(st, engine, query, 1, offset) == [st.terms[id]]
  {
    var all := Ordered(st, engine, query);
    var t := st.terms[id];
    assert t in all;
    var i :| 0 <= i < |all| && all[i] == t;
    assert ListTerms(st, engine, query, 1, i) == Page(all, 1, i);
    PageOfOne(all, i);
  }

  lemma PageOfOne<T>(xs: seq<T>, i: nat)
    requires i < |xs|
    ensures Page(xs, 1, i) == [xs[i]]
  {
  }

  /** With no filter and a large enough page, the listing holds every stored term. */
  lemma UnfilteredListsAll(st: State, engine: Engine, limit: nat, id: int)
    requires Valid(st)
    requires limit >= |Ordered(st, engine, None)|
    requires id in st.terms
    ensures st.terms[id] in ListTerms(st, engine, None, limit, 0)
  {
    WholePage(Ordered(st, engine, None), limit);
    assert st.terms[id].id == id;
  }

  // ---------------------------------------------------------------------------
  // Keyword lookup

  /** Prisma's `equals` in insensitive mode, or SQLAlchemy's `term ILIKE
      keyword`; a row on which the pattern raises counts as not matching here
      (`RowRaises` says when the SQLAlchemy lookup fails instead). */
  predicate KeywordMatches(engine: Engine, term: string, keyword: string) {
    match engine
    case Prisma => EqualsIgnoreCase(term, keyword)
    case Sql => Like.Ilike(term, keyword) == Some(true)
  }

  /** The position of the first row whose `term` matches `keyword`, or `|rows|`
      when there is none. */
  function FirstMatch(rows: seq<TermRow>, engine: Engine, keyword: string): (i: nat)
    ensures i <= |rows|
    ensures forall j :: 0 <= j < i ==> !KeywordMatches(engine, rows[j].term, keyword)
    ensures i < |rows| ==> KeywordMatches(engine, rows[i].term, keyword)
    decreases |rows|
  {
    if |rows| == 0 then 0
    else if KeywordMatches(engine, rows[0].term, keyword) then 0
    else 1 + FirstMatch(rows[1..], engine, keyword)
  }

  /** Case folding neither makes nor removes a NUL, so a keyword equal to a
      NUL-free name ignoring case is NUL-free too. */
  lemma NulFreeIgnoreCase(a: string, b: string)
    requires EqualsIgnoreCase(a, b) && NulFree(b)
    ensures NulFree(a)
  {
    forall i | 0 <= i < |a| ensures a[i] != '\0' {
      assert Lower(a)[i] == Lower(b)[i];
    }
  }

  /** The keyword lookup: the first matching row (rows are scanned in id order). */
  function GetByKeyword(st: State, engine: Engine, keyword: string): (r: Option<TermRow>)
    requires Valid(st)
    ensures r.Some? ==> r.value.id in st.terms && st.terms[r.value.id] == r.value
    ensures r.Some? ==> KeywordMatches(engine, r.value.term, keyword)
    ensures r.None? <==> forall k :: k in st.terms ==> !KeywordMatches(engine, st.terms[k].term, keyword)
    ensures r.Some? ==> forall k :: k in st.terms && k < r.value.id ==> !KeywordMatches(engine, st.terms[k].term, keyword)
  {
    var rows := Store.TermRows(st);
    var i := FirstMatch(rows, engine, keyword);
    FirstMatchInStore(st.terms, rows, engine, keyword);
    if i < |rows| then Some(rows[i]) else None
  }

  lemma FirstMatchInStore(terms: map<int, TermRow>, rows: seq<TermRow>, engine: Engine, keyword: string)
    requires forall k :: k in terms ==> terms[k].id == k && terms[k] in rows
    requires forall i :: 0 <= i < |rows| ==> rows[i].id in terms && terms[rows[i].id] == rows[i]
    requires forall i, j :: 0 <= i < j < |rows| ==> rows[i].id < rows[j].id
    ensures var i := FirstMatch(rows, engine, keyword);
      && (i == |rows| <==> forall k :: k in terms ==> !KeywordMatches(engine, terms[k].term, keyword))
      && (i < |rows| ==> forall k :: k in terms && k < rows[i].id ==> !KeywordMatches(engine, terms[k].term, keyword))
  {
    var i := FirstMatch(rows, engine, keyword);
    forall k | k in terms && (i == |rows| || k < rows[i].id) ensures !KeywordMatches(engine, terms[k].term, keyword) {
      var j :| 0 <= j < |rows| && rows[j] == terms[k];
      assert rows[j].id == k;
      assert j < i;
    }
  }

  /** Whether `term ILIKE keyword` raises on some row of `rows`. */
  function RowRaises(rows: seq<TermRow>, keyword: string): (r: bool)
    ensures r <==> exists i :: 0 <= i < |rows| && Like.Ilike(rows[i].term, keyword).None?
    decreases |rows|
  {
    if |rows| == 0 then false
    else if Like.Ilike(rows[0].term, keyword).None? then true
    else
      var r := RowRaises(rows[1..], keyword);
      assert r ==> exists i :: 0 <= i < |rows| && Like.Ilike(rows[i].term, keyword).None? by {
        if r {
          var i :| 0 <= i < |rows[1..]| && Like.Ilike(rows[1..][i].term, keyword).None?;
          assert rows[i + 1] == rows[1..][i];
        }
      }
      assert (exists i :: 0 <= i < |rows| && Like.Ilike(rows[i].term, keyword).None?) ==> r by {
        if exists i :: 0 <= i < |rows| && Like.Ilike(rows[i].term, keyword).None? {
          var i :| 0 <= i < |rows| && Like.Ilike(rows[i].term, keyword).None?;
          assert i > 0 && rows[1..][i - 1] == rows[i];
        }
      }
      r
  }

  /** Scanning the stored rows raises iff the pattern raises on some stored
      term. */
  lemma RowRaisesInStore(st: State, keyword: string)
    requires Valid(st)
    ensures RowRaises(Store.TermRows(st), keyword) <==> exists k :: k in st.terms && Like.Ilike(st.terms[k].term, keyword).None?
  {
    SomeRowInStore(st, Store.TermRows(st), (t: string) => Like.Ilike(t, keyword).None?);
  }

  /** A property holds of some listed row iff it holds of some stored term. */
  lemma SomeRowInStore(st: State, rows: seq<TermRow>, bad: string -> bool)
    requires forall k :: k in st.terms ==> st.terms[k] in rows
    requires forall i :: 0 <= i < |rows| ==> rows[i].id in st.terms && st.terms[rows[i].id] == rows[i]
    ensures (exists i :: 0 <= i < |rows| && bad(rows[i].term)) <==> exists k :: k in st.terms && bad(st.terms[k].term)
  {
    if exists i :: 0 <= i < |rows| && bad(rows[i].term) {
      var i :| 0 <= i < |rows| && bad(rows[i].term);
      assert rows[i].id in st.terms;
    }
    if exists k :: k in st.terms && bad(st.terms[k].term) {
      var k :| k in st.terms && bad(st.terms[k].term);
      var i :| 0 <= i < |rows| && rows[i] == st.terms[k];
    }
  }

  /** When exactly one stored term matches the keyword, the lookup finds it. */
  lemma KeywordFindsSoleMatch(st: State, engine: Engine, keyword: string, id: int)
    requires Valid(st)
    requires id in st.terms && KeywordMatches(engine, st.terms[id].term, keyword)
    requires forall k :: k in st.terms && k != id ==> !KeywordMatches(engine, st.terms[k].term, keyword)
    ensures GetByKeyword(st, engine, keyword) == Some(st.terms[id])
  {
  }

  /** Without wildcards in the keyword both engines look up the same row. */
  lemma KeywordEnginesAgree(st: State, keyword: string)
    requires Valid(st)
    requires Like.NoLikeWildcards(keyword)
    ensures GetByKeyword(st, Sql, keyword) == GetByKeyword(st, Prisma, keyword)
  {
    forall t: string ensures KeywordMatches(Sql, t, keyword) == KeywordMatches(Prisma, t, keyword) {
      Like.IlikeLiteral(t, keyword);
    }
    var rows := Store.TermRows(st);
    FirstMatchesAgree(rows, keyword);
  }

  lemma {:induction false} FirstMatchesAgree(rows: seq<TermRow>, keyword: string)
    requires forall t: string :: KeywordMatches(Sql, t, keyword) == KeywordMatches(Prisma, t, keyword)
    ensures FirstMatch(rows, Sql, keyword) == FirstMatch(rows, Prisma, keyword)
    decreases |rows|
  {
    if |rows| > 0 {
      FirstMatchesAgree(rows[1..], keyword);
    }
  }

  /** Without wildcards in the query both engines select the same rows. */
  lemma SearchEnginesAgree(t: TermRow, q: string)
    requires Like.NoLikeWildcards(q)
    ensures Matches(Sql, t, q) == Matches(Prisma, t, q)
  {
    Like.IlikeContainsLiteral(t.term, q);
    Like.IlikeContainsLiteral(t.definition, q);
    if t.synonyms.Some? {
      Like.IlikeContainsLiteral(t.synonyms.value, q);
    }
    if t.tags.Some? {
      Like.IlikeContainsLiteral(t.tags.value, q);
    }
  }

  // ---------------------------------------------------------------------------
  // Search over the comma-joined columns

  lemma LowerConcat(a: string, b: string)
    ensures Lower(a + b) == Lower(a) + Lower(b)
  {
  }

  lemma ContainsInfix(a: string, b: string, c: string, q: string)
    requires Contains(b, q)
    ensures Contains(a + b + c, q)
  {
    ContainsIffOccurs(b, q);
    var i :| OccursAt(b, q, i);
    assert (a + b + c)[|a| + i..|a| + i + |q|] == b[i..i + |q|];
    assert OccursAt(a + b + c, q, |a| + i);
    ContainsIffOccurs(a + b + c, q);
  }

  lemma {:induction false} JoinHasPiece(xs: seq<string>, sep: char, i: nat)
    requires i < |xs|
    ensures exists before, after :: Join(xs, sep) == before + xs[i] + after
    decreases i
  {
    if |xs| == 1 {
      assert Join(xs, sep) == "" + xs[0] + "";
    } else if i == 0 {
      assert Join(xs, sep) == "" + xs[0] + ([sep] + Join(xs[1..], sep));
    } else {
      JoinHasPiece(xs[1..], sep, i - 1);
      var before, after :| Join(xs[1..], sep) == before + xs[1..][i - 1] + after;
      assert Join(xs, sep) == (xs[0] + [sep] + before) + xs[i] + after;
    }
  }

  /** A query found inside one synonym finds the term through its joined column. */
  lemma SynonymHitMatches(t: TermRow, xs: seq<string>, i: nat, q: string)
    requires t.synonyms == Some(Join(xs, ','))
    requires i < |xs| && ContainsIgnoreCase(xs[i], q)
    ensures Matches(Prisma, t, q)
  {
    JoinHasPiece(xs, ',', i);
    var before, after :| Join(xs, ',') == before + xs[i] + after;
    LowerConcat(before + xs[i], after);
    LowerConcat(before, xs[i]);
    ContainsInfix(Lower(before), Lower(xs[i]), Lower(after), Lower(q));
  }

  /** The converse fails: because the joined column is searched, a query that
      spans the separator matches although no single synonym contains it. */
  lemma SearchSpansSeparator()
    ensures var t := TermRow(1, "x", "y", Some(Join(["ab", "cd"], ',')), None, None, None, None, None, 1, 1);
      Matches(Prisma, t, "b,c") && !ContainsIgnoreCase("ab", "b,c") && !ContainsIgnoreCase("cd", "b,c")
  {
    var t := TermRow(1, "x", "y", Some(Join(["ab", "cd"], ',')), None, None, None, None, None, 1, 1);
    assert Join(["ab", "cd"], ',') == "ab,cd";
    assert Lower("ab,cd") == "ab,cd";
    assert Lower("b,c") == "b,c";
    assert OccursAt("ab,cd", "b,c", 1);
    ContainsIffOccurs("ab,cd", "b,c");
  }
}

=== FILE: optional.dfy ===
/** Nullable values and failing computations, as the glossary's layers use them:
    `None` stands for Python's `None` and TypeScript's `null`/`undefined`. */
module Optional {

  datatype Option<+T> = None | Some(value: T) {

    /** The value, or `default` when there is none (Python's `x or d` on non-falsy values). */
    function GetOr(default: T): T {
      match this
      case Some(v) => v
      case None => default
    }
  }

  /** A computation that either produced a value or raised an error. */
  datatype Result<+T, +E> = Ok(value: T) | Err(error: E)
}

=== FILE: prisma.dfy ===
/** The Prisma services of the TypeScript backend
    (backend/src/services/termService.ts, relationService.ts) over the
    abstract store. Unlike the SQLAlchemy layer they report a missing row as
    an error too: every refusal is a Prisma known-request error, identified
    by its code. No input is validated here. */
module PrismaService {
  import opened Optional
  import opened Text
  import opened Domain
  import opened TsTypes
  import Store
  import Listing
  import Codec

  /** The `code` of a Prisma known-request error. */
  type ErrorCode = string

  const ValueTooLongCode: ErrorCode := "P2000"
  const NullConstraintCode: ErrorCode := "P2011"
  const UniqueFailedCode: ErrorCode := "P2002"
  const ForeignKeyFailedCode: ErrorCode := "P2003"
  const RecordNotFoundCode: ErrorCode := "P2025"
  /** The database's own refusal of a NUL in a bound text value reaches the
      caller as an unknown-request error, which carries no code. */
  const UnknownRequestCode: ErrorCode := ""

  /** The code Prisma reports for a refusal of the database. An ill-formed
      pattern cannot arise: Prisma builds its patterns itself. */
  function CodeOf(e: Store.StoreError): (c: ErrorCode)
    requires e != Store.BadPattern
    ensures c == UniqueFailedCode <==> e == Store.UniqueViolation
    ensures c == RecordNotFoundCode <==> e == Store.RecordNotFound
    ensures c == ForeignKeyFailedCode <==> e == Store.ForeignKeyViolation
    ensures c == ValueTooLongCode <==> e == Store.ValueTooLong
    ensures c == NullConstraintCode <==> e == Store.NotNullViolation
    ensures c == UnknownRequestCode <==> e == Store.NulCharacter
  {
    match e
    case UniqueViolation => UniqueFailedCode
    case ForeignKeyViolation => ForeignKeyFailedCode
    case RecordNotFound => RecordNotFoundCode
    case ValueTooLong => ValueTooLongCode
    case NotNullViolation => NullConstraintCode
    case NulCharacter => UnknownRequestCode
  }

  /** A store write, its refusal reported by code. */
  function Coded<T>(w: Result<T, Store.StoreError>): (r: Result<T, ErrorCode>)
    requires w.Err? ==> w.error != Store.BadPattern
    ensures r.Ok? <==> w.Ok?
    ensures r.Ok? ==> r.value == w.value
    ensures r.Err? ==> r.error == CodeOf(w.error)
  {
    if w.Ok? then Ok(w.value) else Err(CodeOf(w.error))
  }

  // ---------------------------------------------------------------------------
  // Terms

  /** Default page of `listTerms`. */
  const DefaultLimit: nat := 100
  const DefaultOffset: nat := 0

  /** `listTerms`: a missing or empty query applies no filter, any other keeps
      the terms with a case-insensitive hit in one of the four columns; ordered
      by `term`, `skip` then `take`. A filtering query holding NUL is refused
      by the database. */
  function ListTerms(st: State, query: Option<string>, limit: nat, offset: nat): (r: Result<seq<TermRow>, ErrorCode>)
    requires Valid(st)
    ensures r.Err? <==> Listing.Filters(query) && !NulFree(query.value)
    ensures r.Err? ==> r.error == UnknownRequestCode
    ensures r.Ok? ==> Listing.IsPage(r.value, Listing.Ordered(st, Listing.Prisma, query), limit, offset)
    ensures r.Ok? ==> Listing.SortedByTerm(r.value) && |r.value| <= limit
    ensures r.Ok? ==> forall t :: t in r.value ==>
      t.id in st.terms && st.terms[t.id] == t && Listing.Selected(Listing.Prisma, t, query)
  {
    if Listing.Filters(query) && !NulFree(query.value) then Err(UnknownRequestCode)
    else Ok(Listing.ListTerms(st, Listing.Prisma, query, limit, offset))
  }

  /** `getTermById`: `findUnique` on the primary key. */
  function GetTermById(st: State, id: int): (r: Option<TermRow>)
    ensures r.Some? <==> id in st.terms
    ensures r.Some? ==> r.value == st.terms[id]
  {
    Store.GetTerm(st, id)
  }

  /** `getTermByKeyword`: the first term equal to the keyword ignoring case, or
      null; a keyword holding NUL is refused by the database. */
  function GetTermByKeyword(st: State, keyword: string): (r: Result<Option<TermRow>, ErrorCode>)
    requires Valid(st)
    ensures r.Err? <==> !NulFree(keyword)
    ensures r.Err? ==> r.error == UnknownRequestCode
    ensures r.Ok? && r.value.Some? ==> var t := r.value.value;
      t.id in st.terms && st.terms[t.id] == t && EqualsIgnoreCase(t.term, keyword)
    ensures r.Ok? ==> (r.value.None? <==> forall k :: k in st.terms ==> !EqualsIgnoreCase(st.terms[k].term, keyword))
  {
    if !NulFree(keyword) then Err(UnknownRequestCode)
    else Ok(Listing.GetByKeyword(st, Listing.Prisma, keyword))
  }

  /** The columns `createTerm` writes: the body spread as it is, the two lists
      through `toJoinedString`. */
  function NewTermOf(data: TermCreate): (n: Store.NewTerm)
    ensures n.term == data.term && n.definition == data.definition
    ensures n.sourceTitle == data.sourceTitle && n.sourceAuthors == data.sourceAuthors
    ensures n.sourceYear == data.sourceYear && n.sourceLink == data.sourceLink
    ensures n.synonyms == Codec.EncodeOnCreate(data.synonyms) && n.tags == Codec.EncodeOnCreate(data.tags)
  {
    Codec.CreateEncodingsAgree(data.synonyms);
    Codec.CreateEncodingsAgree(data.tags);
    Store.NewTerm(data.term, data.definition,
      Codec.StoredOnCreate(Codec.ToJoinedString(data.synonyms)),
      Codec.StoredOnCreate(Codec.ToJoinedString(data.tags)),
      data.sourceTitle, data.sourceAuthors, data.sourceYear, data.sourceLink)
  }

  /** `createTerm`: each bounded value cut to its width; refused with P2002
      when the stored `term` is taken, with P2000 when a value does not fit its
      column, and with an unknown-request error when a value holds NUL. */
  function CreateTerm(st: State, data: TermCreate): (r: Result<(State, TermRow), ErrorCode>)
    requires Valid(st)
    ensures r.Err? <==> !Store.Fits(NewTermOf(data)) || Store.TermExists(st, data.term)
    ensures r.Err? ==>
      r.error == (if !Store.NulFreeTerm(NewTermOf(data)) then UnknownRequestCode
                  else if !Store.Fits(NewTermOf(data)) then ValueTooLongCode else UniqueFailedCode)
    ensures r.Ok? ==> var (st', row) := r.value;
      && Store.ContentOf(row) == Store.Clipped(NewTermOf(data))
      && row.id !in st.terms
      && st'.terms == st.terms[row.id := row] && st'.relations == st.relations
      && Valid(st')
  {
    Coded(Store.InsertTerm(st, NewTermOf(data)))
  }

  /** A key of the update body: absent leaves the column alone, present writes it. */
  function Present<T>(v: Option<T>): (r: Option<Option<T>>)
    ensures r.None? <==> v.None?
    ensures r.Some? ==> r.value == v
  {
    if v.Some? then Some(v) else None
  }

  /** The column writes of `updateTerm`: each key of the body on its own. */
  function PatchOf(data: TermUpdate): (p: Store.TermPatch)
    ensures p.term == data.term && p.definition == data.definition
    ensures p.synonyms == Codec.ToJoinedString(data.synonyms) && p.tags == Codec.ToJoinedString(data.tags)
    ensures p.sourceTitle == Present(data.sourceTitle) && p.sourceAuthors == Present(data.sourceAuthors)
    ensures p.sourceYear == Present(data.sourceYear) && p.sourceLink == Present(data.sourceLink)
  {
    Store.TermPatch(data.term, data.definition,
      Codec.ToJoinedString(data.synonyms), Codec.ToJoinedString(data.tags),
      Present(data.sourceTitle), Present(data.sourceAuthors), Present(data.sourceYear), Present(data.sourceLink))
  }

  /** `updateTerm`: P2025 for a missing id; otherwise writes exactly the keys
      present — an absent list stays, `[]` becomes NULL, any other list its
      join — each bounded value cut to its width; refused like a create. */
  function UpdateTerm(st: State, id: int, data: TermUpdate): (r: Result<(State, TermRow), ErrorCode>)
    requires Valid(st)
    ensures id !in st.terms ==> r == Err(RecordNotFoundCode)
    ensures id in st.terms ==> (r.Err? <==>
      !TermFits(Store.Patched(st.terms[id], PatchOf(data))) || (data.term.Some? && Store.TermTaken(st, data.term.value, id)))
    ensures r.Ok? ==> var (st', row, before) := (r.value.0, r.value.1, st.terms[id]);
      && id in st.terms && row.id == id && row.createdAt == before.createdAt
      && row.term == (if data.term.Some? then Clip(data.term.value, MaxTermLength) else before.term)
      && row.definition == (if data.definition.Some? then data.definition.value else before.definition)
      && row.synonyms == (if data.synonyms.None? then before.synonyms
                          else if |data.synonyms.value| == 0 then None
                          else Some(Join(data.synonyms.value, Codec.Comma)))
      && row.tags == (if data.tags.None? then before.tags
                      else if |data.tags.value| == 0 then None
                      else Some(Join(data.tags.value, Codec.Comma)))
      && row.sourceTitle == (if data.sourceTitle.Some? then ClipOpt(data.sourceTitle, MaxSourceLength) else before.sourceTitle)
      && row.sourceAuthors == (if data.sourceAuthors.Some? then ClipOpt(data.sourceAuthors, MaxSourceLength) else before.sourceAuthors)
      && row.sourceYear == (if data.sourceYear.Some? then data.sourceYear else before.sourceYear)
      && row.sourceLink == (if data.sourceLink.Some? then ClipOpt(data.sourceLink, MaxLinkLength) else before.sourceLink)
      && st'.terms == st.terms[id := row] && st'.relations == st.relations
      && Valid(st')
  {
    Coded(Store.UpdateTerm(st, id, PatchOf(data)))
  }

  /** `deleteTerm`: P2025 for a missing id; the cascade takes the term's relations along. */
  function DeleteTerm(st: State, id: int): (r: Result<State, ErrorCode>)
    requires Valid(st)
    ensures r.Err? <==> id !in st.terms
    ensures r.Err? ==> r.error == RecordNotFoundCode
    ensures r.Ok? ==> r.value.terms == st.terms - {id} && r.value.relations == Store.Detached(st.relations, id)
    ensures r.Ok? ==> Valid(r.value)
  {
    Coded(Store.DeleteTerm(st, id))
  }

  // ---------------------------------------------------------------------------
  // Relations

  /** `listRelations`: every stored relation, no filter. */
  function ListRelations(st: State): (r: seq<RelationRow>)
    requires Valid(st)
    ensures forall k :: k in st.relations ==> st.relations[k] in r
    ensures forall x :: x in r ==> x.id in st.relations && st.relations[x.id] == x
  {
    Store.RelationRows(st)
  }

  /** `getRelationById`. */
  function GetRelationById(st: State, id: int): (r: Option<RelationRow>)
    ensures r.Some? <==> id in st.relations
    ensures r.Some? ==> r.value == st.relations[id]
  {
    Store.GetRelation(st, id)
  }

  /** `createRelation`: the body as given, with no check on the kind, which is
      cut to its width; refused with P2003 for a dangling endpoint, P2000 for a
      kind that does not fit, an unknown-request error for a kind holding NUL. */
  function CreateRelation(st: State, data: RelationCreate): (r: Result<(State, RelationRow), ErrorCode>)
    requires Valid(st)
    ensures r.Err? <==> !KindFits(data.kind) || data.sourceId !in st.terms || data.targetId !in st.terms
    ensures r.Err? ==>
      r.error == (if !NulFree(data.kind) then UnknownRequestCode
                  else if !KindFits(data.kind) then ValueTooLongCode else ForeignKeyFailedCode)
    ensures r.Ok? ==> var (st', row) := r.value;
      && row.id !in st.relations
      && row.sourceId == data.sourceId && row.targetId == data.targetId && row.kind == Clip(data.kind, MaxKindLength)
      && st'.relations == st.relations[row.id := row] && st'.terms == st.terms
      && Valid(st')
  {
    Coded(Store.InsertRelation(st, Store.NewRelation(data.sourceId, data.targetId, data.kind)))
  }

  /** `updateRelation`: P2025 for a missing id; otherwise writes exactly the
      keys present, the kind cut to its width, refused like a create. */
  function UpdateRelation(st: State, id: int, data: RelationUpdate): (r: Result<(State, RelationRow), ErrorCode>)
    requires Valid(st)
    ensures id !in st.relations ==> r == Err(RecordNotFoundCode)
    ensures r.Err? <==>
      || id !in st.relations
      || (data.kind.Some? && !KindFits(data.kind.value))
      || (data.sourceId.Some? && data.sourceId.value !in st.terms) || (data.targetId.Some? && data.targetId.value !in st.terms)
    ensures r.Ok? ==> var (st', row, before) := (r.value.0, r.value.1, st.relations[id]);
      && id in st.relations && row.id == id
      && row.sourceId == (if data.sourceId.Some? then data.sourceId.value else before.sourceId)
      && row.targetId == (if data.targetId.Some? then data.targetId.value else before.targetId)
      && row.kind == (if data.kind.Some? then Clip(data.kind.value, MaxKindLength) else before.kind)
      && st'.relations == st.relations[id := row] && st'.terms == st.terms
      && Valid(st')
  {
    Coded(Store.UpdateRelation(st, id, Store.RelationPatch(data.sourceId, data.targetId, data.kind)))
  }

  /** `deleteRelation`: removes that relation and nothing else; P2025 for a missing id. */
  function DeleteRelation(st: State, id: int): (r: Result<State, ErrorCode>)
    requires Valid(st)
    ensures r.Err? <==> id !in st.relations
    ensures r.Err? ==> r.error == RecordNotFoundCode
    ensures r.Ok? ==> r.value.relations == st.relations - {id} && r.value.terms == st.terms
    ensures r.Ok? ==> Valid(r.value)
  {
    Coded(Store.DeleteRelation(st, id))
  }

  // ---------------------------------------------------------------------------
  // Properties

  /** A second delete of the same term is refused as not found. */
  lemma DeleteTermTwice(st: State, id: int)
    requires Valid(st) && id in st.terms
    ensures DeleteTerm(st, id).Ok?
    ensures DeleteTerm(DeleteTerm(st, id).value, id) == Err(RecordNotFoundCode)
  {
  }

  /** An update whose body is empty changes nothing. */
  lemma EmptyUpdateIsNoOp(st: State, id: int)
    requires Valid(st) && id in st.terms
    ensures UpdateTerm(st, id, TermUpdate(None, None, None, None, None, None, None, None)) == Ok((st, st.terms[id]))
  {
    Store.EmptyPatchIsNoOp(st, id);
  }

  /** A term created through the service reads back, through `formatTerm`,
      with every field as posted, each bounded text cut to its width, and each list equal to the posted one exactly
      when it is absent or non-empty with clean elements. */
  lemma CreateThenFormat(st: State, data: TermCreate)
    requires Valid(st) && Store.Fits(NewTermOf(data)) && !Store.TermExists(st, data.term)
    ensures CreateTerm(st, data).Ok?
    ensures var out := FormatTerm(CreateTerm(st, data).value.1);
      && out.term == Clip(data.term, MaxTermLength) && out.definition == data.definition
      && out.sourceTitle == ClipOpt(data.sourceTitle, MaxSourceLength)
      && out.sourceAuthors == ClipOpt(data.sourceAuthors, MaxSourceLength)
      && out.sourceYear == data.sourceYear && out.sourceLink == ClipOpt(data.sourceLink, MaxLinkLength)
      && (out.synonyms == data.synonyms <==>
            data.synonyms.None? || (|data.synonyms.value| >= 1 && forall k :: 0 <= k < |data.synonyms.value| ==> IsCleanPiece(data.synonyms.value[k], Codec.Comma, JavaScript)))
  {
    if data.synonyms.Some? {
      Codec.FormatRoundTrip(data.synonyms.value);
      Codec.CreateEncodingsAgree(data.synonyms);
    }
  }

  /** Clearing a list through the service stores NULL, which `formatTerm` shows as null. */
  lemma ClearListReadsNull(st: State, id: int, data: TermUpdate)
    requires Valid(st) && id in st.terms
    requires data.synonyms == Some([])
    requires UpdateTerm(st, id, data).Ok?
    ensures FormatTerm(UpdateTerm(st, id, data).value.1).synonyms.None?
  {
  }
}

=== FILE: rest.dfy ===
/** The FastAPI routes of the Python backend (backend/app/routers.py) over the
    SQLAlchemy functions: body validation (422), the `TermOut` and
    `RelationOut` projections, the 404s, and the 500 every exception that
    escapes a handler becomes. */
module RestApi {
  import opened Optional
  import opened Text
  import opened Domain
  import opened Schemas
  import opened Http
  import Store
  import Listing
  import Like
  import Codec
  import Crud

  const TermNotFound: string := "Term not found"
  const RelationNotFound: string := "Relation not found"

  /** The page size `/graph` asks for. */
  const GraphLimit: nat := 10000

  // ---------------------------------------------------------------------------
  // Projections

  /** The four source columns grouped as `source`. */
  function SourceOf(row: TermRow): SourceInfo {
    SourceInfo(row.sourceTitle, row.sourceAuthors, row.sourceYear, row.sourceLink)
  }

  /** `TermOut(...)` built from a row. Pydantic validates it like a request, so
      a stored term that is empty or longer than 255 characters makes the
      construction raise: None. Lists are decoded with
      `s.split(",") if s else None`. */
  function ToTermOut(row: TermRow): (r: Option<TermOut>)
    ensures r.Some? <==> ValidTermName(row.term)
    ensures r.Some? ==> var out := r.value;
      && out.id == row.id && out.term == row.term && out.definition == row.definition
      && out.source == SourceOf(row)
      && out.createdAt == row.createdAt && out.updatedAt == row.updatedAt
      && (out.synonyms.None? <==> row.synonyms.None? || row.synonyms.value == "")
      && (out.synonyms.Some? ==> Join(out.synonyms.value, Codec.Comma) == row.synonyms.value)
      && (out.tags.None? <==> row.tags.None? || row.tags.value == "")
      && (out.tags.Some? ==> Join(out.tags.value, Codec.Comma) == row.tags.value)
  {
    if ValidTermName(row.term) then
      Some(TermOut(row.id, row.term, row.definition,
        Codec.DecodeRest(row.synonyms), Codec.DecodeRest(row.tags),
        SourceOf(row), row.createdAt, row.updatedAt))
    else None
  }

  /** Every row's projection, in order; None as soon as one projection raises. */
  function ToTermOuts(rows: seq<TermRow>): (r: Option<seq<TermOut>>)
    ensures r.Some? <==> forall i :: 0 <= i < |rows| ==> ValidTermName(rows[i].term)
    ensures r.Some? ==> |r.value| == |rows| && forall i :: 0 <= i < |rows| ==> ToTermOut(rows[i]) == Some(r.value[i])
  {
    if forall i :: 0 <= i < |rows| ==> ValidTermName(rows[i].term) then
      Some(seq(|rows|, i requires 0 <= i < |rows| && ValidTermName(rows[i].term) => ToTermOut(rows[i]).value))
    else None
  }

  /** `RelationOut(...)`: pydantic checks the `type` pattern, so a relation
      stored with another kind (possible through the other backends) raises. */
  function ToRelationOut(row: RelationRow): (r: Option<RelationOut>)
    ensures r.Some? <==> IsKindName(row.kind)
    ensures r.Some? ==> r.value == RelationOut(row.id, row.sourceId, row.targetId, row.kind)
  {
    if IsKindName(row.kind) then Some(RelationOut(row.id, row.sourceId, row.targetId, row.kind)) else None
  }

  function ToRelationOuts(rows: seq<RelationRow>): (r: Option<seq<RelationOut>>)
    ensures r.Some? <==> forall i :: 0 <= i < |rows| ==> IsKindName(rows[i].kind)
    ensures r.Some? ==> |r.value| == |rows| && forall i :: 0 <= i < |rows| ==> ToRelationOut(rows[i]) == Some(r.value[i])
  {
    if forall i :: 0 <= i < |rows| ==> IsKindName(rows[i].kind) then
      Some(seq(|rows|, i requires 0 <= i < |rows| && IsKindName(rows[i].kind) => ToRelationOut(rows[i]).value))
    else None
  }

  /** `out` is what the API shows for the stored row with its id. */
  predicate Shows(st: State, out: TermOut) {
    out.id in st.terms && ToTermOut(st.terms[out.id]) == Some(out)
  }

  /** Every stored term can be shown: the invariant under which no read fails. */
  predicate NamesValid(st: State) {
    forall k :: k in st.terms ==> ValidTermName(st.terms[k].term)
  }

  // ---------------------------------------------------------------------------
  // Terms

  /** `GET /terms`: a negative `limit` or `offset` is refused by the database,
      and a filtering query holding NUL by the driver. */
  function ListTerms(st: State, query: Option<string>, limit: int, offset: int): (r: Reply<seq<TermOut>>)
    requires Valid(st)
    ensures r.Body? || r == Unhandled()
    ensures limit < 0 || offset < 0 || (Listing.Filters(query) && !NulFree(query.value)) ==> r == Unhandled()
    ensures NamesValid(st) && limit >= 0 && offset >= 0 && (Listing.Filters(query) ==> NulFree(query.value)) ==> r.Body?
    ensures r.Body? ==> var page := r.body;
      && r.status == Ok200 && |page| <= limit
      && (forall i, j :: 0 <= i < j < |page| ==> LexLe(page[i].term, page[j].term))
      && (forall i :: 0 <= i < |page| ==> Shows(st, page[i]) && Listing.Selected(Listing.Sql, st.terms[page[i].id], query))
    ensures r.Body? ==> OutPageOf(r.body, Listing.Ordered(st, Listing.Sql, query), limit, offset)
  {
    if limit < 0 || offset < 0 then Unhandled()
    else
      var found := Crud.ListTerms(st, query, limit, offset);
      if found.Err? then Unhandled()
      else
        var rows := found.value;
        var outs := ToTermOuts(rows);
        ProjectedPage(st, query, rows, outs);
        PageProjection(rows, Listing.Ordered(st, Listing.Sql, query), limit, offset, outs);
        if outs.None? then Unhandled() else Body(Ok200, outs.value)
  }

  /** Projecting stored, selected, sorted rows keeps all three facts, and
      succeeds whenever every stored name is valid. */
  lemma ProjectedPage(st: State, query: Option<string>, rows: seq<TermRow>, outs: Option<seq<TermOut>>)
    requires outs == ToTermOuts(rows) && Listing.SortedByTerm(rows)
    requires forall t :: t in rows ==> t.id in st.terms && st.terms[t.id] == t && Listing.Selected(Listing.Sql, t, query)
    ensures NamesValid(st) ==> outs.Some?
    ensures outs.Some? ==> var page := outs.value;
      && |page| == |rows|
      && (forall i, j :: 0 <= i < j < |page| ==> LexLe(page[i].term, page[j].term))
      && (forall i :: 0 <= i < |page| ==> Shows(st, page[i]) && Listing.Selected(Listing.Sql, st.terms[page[i].id], query))
  {
    assert forall i :: 0 <= i < |rows| ==> rows[i] in rows;
  }

  /** `page` shows the window of `all` at `offset`, at most `limit` long, row by row. */
  ghost predicate OutPageOf(page: seq<TermOut>, all: seq<TermRow>, limit: int, offset: int) {
    && offset >= 0
    && |page| == (if offset >= |all| then 0 else Listing.Min(limit, |all| - offset))
    && forall i :: 0 <= i < |page| ==> offset + i < |all| && ToTermOut(all[offset + i]) == Some(page[i])
  }

  /** Projecting a page of `all` is the projection of that window of `all`. */
  lemma PageProjection(rows: seq<TermRow>, all: seq<TermRow>, limit: nat, offset: nat, outs: Option<seq<TermOut>>)
    requires outs == ToTermOuts(rows) && Listing.IsPage(rows, all, limit, offset)
    ensures outs.Some? ==> OutPageOf(outs.value, all, limit, offset)
  {
  }

  /** `GET /terms/by-keyword/{keyword}`: 404 when the lookup finds nothing,
      500 when the keyword holds NUL, when the pattern raises on some stored
      term, or when the row found cannot be shown. */
  function GetTermByKeyword(st: State, keyword: string): (r: Reply<TermOut>)
    requires Valid(st)
    ensures r.Body? || r == Problem(NotFound404, TermNotFound) || r == Unhandled()
    ensures r.Body? ==> r.status == Ok200 && Shows(st, r.body) && Like.Ilike(r.body.term, keyword) == Some(true)
    ensures r.Body? ==> Crud.GetTermByKeyword(st, keyword) == Ok(Some(st.terms[r.body.id]))
    ensures r == Problem(NotFound404, TermNotFound) <==>
      NulFree(keyword) && forall k :: k in st.terms ==> Like.Ilike(st.terms[k].term, keyword) == Some(false)
    ensures !NulFree(keyword) || (exists k :: k in st.terms && Like.Ilike(st.terms[k].term, keyword).None?) ==>
      r == Unhandled()
    ensures NamesValid(st) && Crud.GetTermByKeyword(st, keyword).Ok? ==> r != Unhandled()
  {
    var found := Crud.GetTermByKeyword(st, keyword);
    if found.Err? then Unhandled()
    else if found.value.None? then Problem(NotFound404, TermNotFound)
    else
      var out := ToTermOut(found.value.value);
      if out.None? then Unhandled() else Body(Ok200, out.value)
  }

  /** `POST /terms` as written: after the insert, the response is whatever
      `get_term_by_keyword(obj.term)` finds, with status 201. */
  function CreateTerm(st: State, data: TermCreate): (r: (State, Reply<TermOut>))
    requires Valid(st)
    ensures Valid(r.0)
    ensures !ValidTermCreate(data) ==> r == (st, Rejected(Unprocessable422))
    ensures ValidTermCreate(data) && !Store.Fits(Crud.NewTermOf(data)) ==> r == (st, Unhandled())
    ensures ValidTermCreate(data) && Store.Fits(Crud.NewTermOf(data)) && Store.TermExists(st, data.term) ==>
      r == (st.(nextTermId := st.nextTermId + 1), Unhandled())
    ensures ValidTermCreate(data) && Store.Fits(Crud.NewTermOf(data)) && !Store.TermExists(st, data.term) ==>
      Crud.CreateTerm(st, data).Ok? && r.0 == Crud.CreateTerm(st, data).value.0
    ensures r.0.terms != st.terms ==> ValidTermCreate(data) && Crud.CreateTerm(st, data).Ok? && r.0 == Crud.CreateTerm(st, data).value.0
    ensures r.1.Body? ==> r.1.status == Created201 && Shows(r.0, r.1.body) && Like.Ilike(r.1.body.term, data.term) == Some(true)
  {
    if !ValidTermCreate(data) then (st, Rejected(Unprocessable422))
    else
      var w := Crud.CreateTerm(st, data);
      if w.Err? then (Store.AfterRefusedTermInsert(st, Crud.NewTermOf(data)), Unhandled())
      else
        var st' := w.value.0;
        var reply := GetTermByKeyword(st', w.value.1.term);
        (st', if reply.Body? then Body(Created201, reply.body) else reply)
  }

  /** `POST /terms` returning the row it wrote. */
  function CreateTermCorrected(st: State, data: TermCreate): (r: (State, Reply<TermOut>))
    requires Valid(st)
    ensures Valid(r.0)
    ensures !ValidTermCreate(data) ==> r == (st, Rejected(Unprocessable422))
    ensures ValidTermCreate(data) ==> (r.1.Body? <==> Store.Fits(Crud.NewTermOf(data)) && !Store.TermExists(st, data.term))
    ensures !r.1.Body? ==>
      r.0 == (if ValidTermCreate(data) && Store.Fits(Crud.NewTermOf(data)) then st.(nextTermId := st.nextTermId + 1) else st)
    ensures r.1.Body? ==> var (st', out) := (r.0, r.1.body);
      && r.1.status == Created201
      && out.id !in st.terms && Shows(st', out)
      && st'.terms == st.terms[out.id := st'.terms[out.id]] && st'.relations == st.relations
      && out.term == data.term && out.definition == data.definition
      && out.synonyms == Codec.DecodeRest(Codec.EncodeOnCreate(data.synonyms))
      && out.tags == Codec.DecodeRest(Codec.EncodeOnCreate(data.tags))
  {
    if !ValidTermCreate(data) then (st, Rejected(Unprocessable422))
    else
      var w := Crud.CreateTerm(st, data);
      if w.Err? then (Store.AfterRefusedTermInsert(st, Crud.NewTermOf(data)), Unhandled())
      else (w.value.0, Body(Created201, ToTermOut(w.value.1).value))
  }

  /** `PUT /terms/{term_id}` as written: `TermUpdate.term` carries no length
      check, and the response is again re-read by keyword. */
  function UpdateTerm(st: State, id: int, data: TermUpdate): (r: (State, Reply<TermOut>))
    requires Valid(st)
    ensures Valid(r.0)
    ensures id !in st.terms ==> r == (st, Problem(NotFound404, TermNotFound))
    ensures id in st.terms && !TermFits(Store.Patched(st.terms[id], Crud.PatchOf(data))) ==> r == (st, Unhandled())
    ensures id in st.terms && data.term.Some? && Store.TermTaken(st, data.term.value, id) ==> r == (st, Unhandled())
    ensures (&& id in st.terms && TermFits(Store.Patched(st.terms[id], Crud.PatchOf(data)))
             && (data.term.None? || !Store.TermTaken(st, data.term.value, id))) ==>
      Crud.UpdateTerm(st, id, data).Ok? && r.0 == Crud.UpdateTerm(st, id, data).value.0
    ensures r.0 != st ==> Crud.UpdateTerm(st, id, data).Ok? && r.0 == Crud.UpdateTerm(st, id, data).value.0
    ensures r.1.Body? ==> r.1.status == Ok200 && Shows(r.0, r.1.body)
  {
    var w := Crud.UpdateTerm(st, id, data);
    if w.Err? then (st, Unhandled())
    else if w.value.1.None? then (st, Problem(NotFound404, TermNotFound))
    else
      var st' := w.value.0;
      (st', GetTermByKeyword(st', w.value.1.value.term))
  }

  /** `PUT /terms/{term_id}` validating the new term like a create does and
      returning the row it wrote. */
  function UpdateTermCorrected(st: State, id: int, data: TermUpdate): (r: (State, Reply<TermOut>))
    requires Valid(st)
    ensures Valid(r.0)
    ensures NamesValid(st) ==> NamesValid(r.0)
    ensures data.term.Some? && !ValidTermName(data.term.value) ==> r == (st, Rejected(Unprocessable422))
    ensures (data.term.None? || ValidTermName(data.term.value)) && id !in st.terms ==>
      r == (st, Problem(NotFound404, TermNotFound))
    ensures NamesValid(st) && id in st.terms && (data.term.None? || ValidTermName(data.term.value)) ==>
      (r.1.Body? <==>
        TermFits(Store.Patched(st.terms[id], Crud.PatchOf(data))) && (data.term.None? || !Store.TermTaken(st, data.term.value, id)))
    ensures r.1.Body? ==> var (st', out) := (r.0, r.1.body);
      && r.1.status == Ok200 && out.id == id && id in st.terms && Shows(st', out)
      && st'.terms == st.terms[id := st'.terms[id]] && st'.relations == st.relations
      && out.term == (if data.term.Some? then data.term.value else st.terms[id].term)
  {
    if data.term.Some? && !ValidTermName(data.term.value) then (st, Rejected(Unprocessable422))
    else
      var w := Crud.UpdateTerm(st, id, data);
      if w.Err? then (st, Unhandled())
      else if w.value.1.None? then (st, Problem(NotFound404, TermNotFound))
      else
        var out := ToTermOut(w.value.1.value);
        if out.None? then (w.value.0, Unhandled()) else (w.value.0, Body(Ok200, out.value))
  }

  /** `DELETE /terms/{term_id}`: 404 for a missing id, 500 for a term some
      relation references (the delete raises), 204 otherwise. */
  function DeleteTerm(st: State, id: int): (r: (State, Reply<()>))
    requires Valid(st)
    ensures Valid(r.0)
    ensures r.1 == Empty(NoContent204) <==> id in st.terms && !Store.Referenced(st, id)
    ensures id !in st.terms ==> r == (st, Problem(NotFound404, TermNotFound))
    ensures id in st.terms && Store.Referenced(st, id) ==> r == (st, Unhandled())
    ensures r.1 == Empty(NoContent204) ==> r.0.terms == st.terms - {id} && r.0.relations == st.relations
  {
    var w := Crud.DeleteTerm(st, id);
    if w.Err? then (st, Unhandled())
    else if w.value.1 then (w.value.0, Empty(NoContent204))
    else (st, Problem(NotFound404, TermNotFound))
  }

  // ---------------------------------------------------------------------------
  // Relations

  /** `POST /relations`: the kind is checked against the five names first. */
  function CreateRelation(st: State, data: RelationCreate): (r: (State, Reply<RelationOut>))
    requires Valid(st)
    ensures Valid(r.0)
    ensures KindsValid(st) ==> KindsValid(r.0)
    ensures !ValidRelationCreate(data) ==> r == (st, Rejected(Unprocessable422))
    ensures ValidRelationCreate(data) && (data.sourceId !in st.terms || data.targetId !in st.terms) ==>
      r == (st.(nextRelationId := st.nextRelationId + 1), Unhandled())
    ensures ValidRelationCreate(data) ==> (r.1.Body? <==> data.sourceId in st.terms && data.targetId in st.terms)
    ensures !r.1.Body? ==> r.0 == if ValidRelationCreate(data) then st.(nextRelationId := st.nextRelationId + 1) else st
    ensures r.1.Body? ==> var (st', out) := (r.0, r.1.body);
      && r.1.status == Created201 && out.id !in st.relations
      && st'.relations == st.relations[out.id := RelationRow(out.id, data.sourceId, data.targetId, data.kind)]
      && st'.terms == st.terms
      && out == RelationOut(out.id, data.sourceId, data.targetId, data.kind)
  {
    if !ValidRelationCreate(data) then (st, Rejected(Unprocessable422))
    else
      KindNameFits(data.kind);
      var w := Crud.CreateRelation(st, data);
      if w.Err? then (Store.AfterRefusedRelationInsert(st, Store.NewRelation(data.sourceId, data.targetId, data.kind)), Unhandled())
      else
        var row := w.value.1;
        assert KindsValid(st) ==> KindsValid(w.value.0) by {
          if KindsValid(st) {
            KindsValidAfterWrite(st, w.value.0, row);
          }
        }
        (w.value.0, Body(Created201, ToRelationOut(row).value))
  }

  /** Writing one relation row whose kind is one of the five keeps every stored kind one of the five. */
  lemma KindsValidAfterWrite(st: State, st': State, row: RelationRow)
    requires KindsValid(st) && st'.relations == st.relations[row.id := row] && IsKindName(row.kind)
    ensures KindsValid(st')
  {
    forall k | k in st'.relations ensures IsKindName(st'.relations[k].kind) {
      if k != row.id {
        assert st'.relations[k] == st.relations[k];
      }
    }
  }

  /** `GET /relations`: every relation, or 500 when one has a kind outside the five. */
  function ListRelations(st: State): (r: Reply<seq<RelationOut>>)
    requires Valid(st)
    ensures r.Body? || r == Unhandled()
    ensures r.Body? <==> KindsValid(st)
    ensures r.Body? ==> r.status == Ok200
    ensures r.Body? ==> forall k :: k in st.relations ==>
      exists i :: 0 <= i < |r.body| && Some(r.body[i]) == ToRelationOut(st.relations[k])
    ensures r.Body? ==> forall i :: 0 <= i < |r.body| ==>
      r.body[i].id in st.relations && ToRelationOut(st.relations[r.body[i].id]) == Some(r.body[i])
  {
    var rows := Crud.ListRelations(st);
    var outs := ToRelationOuts(rows);
    if outs.None? then
      Unhandled()
    else
      Body(Ok200, outs.value)
  }

  /** `PUT /relations/{relation_id}`: a supplied kind is checked against the
      five names; the stored row is re-validated on the way out. */
  function UpdateRelation(st: State, id: int, data: RelationUpdate): (r: (State, Reply<RelationOut>))
    requires Valid(st)
    ensures Valid(r.0)
    ensures KindsValid(st) ==> KindsValid(r.0)
    ensures !ValidRelationUpdate(data) ==> r == (st, Rejected(Unprocessable422))
    ensures ValidRelationUpdate(data) && id !in st.relations ==> r == (st, Problem(NotFound404, RelationNotFound))
    ensures ValidRelationUpdate(data) && id in st.relations ==> (r.1.Body? <==>
      && (data.sourceId.None? || data.sourceId.value in st.terms) && (data.targetId.None? || data.targetId.value in st.terms)
      && (data.kind.Some? || IsKindName(st.relations[id].kind)))
    ensures ValidRelationUpdate(data) && id in st.relations
      && !((data.sourceId.None? || data.sourceId.value in st.terms) && (data.targetId.None? || data.targetId.value in st.terms))
      ==> r == (st, Unhandled())
    ensures r.1 == Unhandled() && r.0 != st ==>
      && data.kind.None? && id in st.relations && !IsKindName(st.relations[id].kind)
      && Crud.UpdateRelation(st, id, data).Ok? && r.0 == Crud.UpdateRelation(st, id, data).value.0
    ensures r.1.Body? ==> var (st', out) := (r.0, r.1.body);
      && r.1.status == Ok200 && out.id == id && id in st.relations
      && st'.relations == st.relations[id := RelationRow(id, out.sourceId, out.targetId, out.kind)]
      && st'.terms == st.terms
      && out.sourceId == (if data.sourceId.Some? then data.sourceId.value else st.relations[id].sourceId)
      && out.targetId == (if data.targetId.Some? then data.targetId.value else st.relations[id].targetId)
      && out.kind == (if data.kind.Some? then data.kind.value else st.relations[id].kind)
  {
    if !ValidRelationUpdate(data) then (st, Rejected(Unprocessable422))
    else
      assert data.kind.Some? ==> KindFits(data.kind.value) && Clip(data.kind.value, MaxKindLength) == data.kind.value by {
        if data.kind.Some? {
          KindNameFits(data.kind.value);
        }
      }
      var w := Crud.UpdateRelation(st, id, data);
      if w.Err? then (st, Unhandled())
      else if w.value.1.None? then (st, Problem(NotFound404, RelationNotFound))
      else
        var st' := w.value.0;
        var row := w.value.1.value;
        assert KindsValid(st) ==> KindsValid(st') by {
          if KindsValid(st) {
            KindsValidAfterWrite(st, st', row);
          }
        }
        var out := ToRelationOut(row);
        if out.None? then (st', Unhandled()) else (st', Body(Ok200, out.value))
  }

  /** `DELETE /relations/{relation_id}`. */
  function DeleteRelation(st: State, id: int): (r: (State, Reply<()>))
    requires Valid(st)
    ensures Valid(r.0)
    ensures id in st.relations <==> r.1 == Empty(NoContent204)
    ensures id !in st.relations ==> r == (st, Problem(NotFound404, RelationNotFound))
    ensures id in st.relations ==> r.0.relations == st.relations - {id} && r.0.terms == st.terms
  {
    var (st', ok) := Crud.DeleteRelation(st, id);
    if ok then (st', Empty(NoContent204)) else (st, Problem(NotFound404, RelationNotFound))
  }

  // ---------------------------------------------------------------------------
  // Graph

  /** `GET /graph`: the first 10000 terms in `term` order as nodes and every
      relation as an edge. */
  function GetGraph(st: State): (r: Reply<GraphOut>)
    requires Valid(st)
    ensures r.Body? || r == Unhandled()
    ensures NamesValid(st) && KindsValid(st) ==> r.Body?
    ensures r.Body? ==> var g := r.body;
      && r.status == Ok200 && |g.nodes| <= GraphLimit
      && (forall i, j :: 0 <= i < j < |g.nodes| ==> LexLe(g.nodes[i].term, g.nodes[j].term))
      && (forall i :: 0 <= i < |g.nodes| ==> Shows(st, g.nodes[i]))
      && OutPageOf(g.nodes, Listing.Ordered(st, Listing.Sql, None), GraphLimit, 0)
      && (forall k :: k in st.relations ==> exists i :: 0 <= i < |g.edges| && Some(g.edges[i]) == ToRelationOut(st.relations[k]))
      && (forall i :: 0 <= i < |g.edges| ==> g.edges[i].id in st.relations)
  {
    var nodes := ListTerms(st, None, GraphLimit, 0);
    var edges := ListRelations(st);
    if nodes.Body? && edges.Body? then Body(Ok200, GraphOut(nodes.body, edges.body)) else Unhandled()
  }

  // ---------------------------------------------------------------------------
  // Properties

  /** A database holding the single term `term` under id 1. */
  function OneTerm(term: string): (st: State)
    requires |term| <= MaxTermLength && NulFree(term)
    ensures Valid(st) && st.terms.Keys == {1} && st.terms[1].term == term
  {
    State(map[1 := TermRow(1, term, "d", None, None, None, None, None, None, 1, 1)], map[], 2, 1, 1)
  }

  /** As written, creating a case variant `b` of a stored name `a` (say
      `ENTROPY` next to `Entropy`) stores the new row but answers with the old
      one, because the re-read by keyword matches both and takes the lower id. */
  lemma CreateAnswersWithOtherRow(a: string, b: string)
    requires 1 <= |b| <= MaxTermLength && |a| <= MaxTermLength && NulFree(b)
    requires a != b && EqualsIgnoreCase(a, b) && Like.NoLikeWildcards(b)
    ensures var (st', reply) := CreateTerm(OneTerm(a), TermCreate(b, "d", None, None, None));
      && 2 in st'.terms && st'.terms[2].term == b
      && reply.Body? && reply.body.id == 1 && reply.body.term == a
  {
    Listing.NulFreeIgnoreCase(a, b);
    var st := OneTerm(a);
    var data := TermCreate(b, "d", None, None, None);
    assert |Lower(a)| == |Lower(b)|;
    assert !Store.TermExists(st, data.term);
    assert Store.Fits(Crud.NewTermOf(data));
    var (st', row) := Crud.CreateTerm(st, data).value;
    assert row.id == 2 && st'.terms.Keys == {1, 2};
    Like.IlikeLiteral(a, b);
    Like.IlikeLiteral(b, b);
    assert st'.terms[1] == st.terms[1] && st'.terms[2].term == b;
    FindsLowerOfTwo(st', b);
  }

  /** With two stored terms that both match, the keyword lookup answers with id 1. */
  lemma FindsLowerOfTwo(st: State, keyword: string)
    requires Valid(st) && st.terms.Keys == {1, 2} && ValidTermName(st.terms[1].term) && NulFree(keyword)
    requires Like.Ilike(st.terms[1].term, keyword) == Some(true) && Like.Ilike(st.terms[2].term, keyword) == Some(true)
    ensures GetTermByKeyword(st, keyword).Body? && GetTermByKeyword(st, keyword).body.id == 1
    ensures GetTermByKeyword(st, keyword).body.term == st.terms[1].term
  {
    var found := Listing.GetByKeyword(st, Listing.Sql, keyword);
    assert found.Some? && found.value.id == 1;
    assert Crud.GetTermByKeyword(st, keyword) == Ok(found);
  }

  /** A refused create still uses up an id: on a fresh database, creating `a`,
      then `a` again, then `b` stores `b` under id 3, and no row ever gets id 2. */
  lemma RefusedCreateUsesId(a: TermCreate, b: TermCreate)
    requires ValidTermCreate(a) && ValidTermCreate(b) && a.term != b.term
    requires Store.Fits(Crud.NewTermOf(a)) && Store.Fits(Crud.NewTermOf(b))
    ensures var st1 := CreateTerm(Domain.Empty, a).0;
      var (st2, second) := CreateTerm(st1, a);
      var st3 := CreateTerm(st2, b).0;
      && st1.terms.Keys == {1} && second == Unhandled() && st2.terms == st1.terms
      && st3.terms.Keys == {1, 3} && st3.terms[3].term == b.term
  {
    CreateTwice(a);
    CreateAfterRefusal(CreateTerm(Domain.Empty, a).0, a.term, b);
  }

  /** After the refusal, a different name is stored under id 3. */
  lemma CreateAfterRefusal(st1: State, a: string, b: TermCreate)
    requires Valid(st1) && st1.terms.Keys == {1} && st1.terms[1].term == a && st1.nextTermId == 2
    requires ValidTermCreate(b) && Store.Fits(Crud.NewTermOf(b)) && a != b.term
    ensures var st3 := CreateTerm(st1.(nextTermId := 3), b).0;
      st3.terms.Keys == {1, 3} && st3.terms[3].term == b.term
  {
    var st2 := st1.(nextTermId := 3);
    assert !Store.TermExists(st2, b.term) by {
      assert Clip(b.term, MaxTermLength) == b.term;
    }
    FreshCreate(st2, b);
  }

  /** On a fresh database, creating `a` stores it under id 1, and creating it again only uses up id 2. */
  lemma CreateTwice(a: TermCreate)
    requires ValidTermCreate(a) && Store.Fits(Crud.NewTermOf(a))
    ensures var st1 := CreateTerm(Domain.Empty, a).0;
      && Valid(st1) && st1.terms.Keys == {1} && st1.terms[1].term == a.term && st1.nextTermId == 2
      && CreateTerm(st1, a) == (st1.(nextTermId := 3), Unhandled())
  {
    EmptyValid();
    FreshCreate(Domain.Empty, a);
    TakenCreate(CreateTerm(Domain.Empty, a).0, a, 1);
  }

  /** A valid create of a name some row already stores is refused with 500 and uses up one id. */
  lemma TakenCreate(st: State, data: TermCreate, k: int)
    requires Valid(st) && ValidTermCreate(data) && Store.Fits(Crud.NewTermOf(data))
    requires k in st.terms && st.terms[k].term == data.term
    ensures CreateTerm(st, data) == (st.(nextTermId := st.nextTermId + 1), Unhandled())
  {
    assert Clip(data.term, MaxTermLength) == data.term;
  }

  /** A valid create of a free name adds exactly one row, under the next id, holding the name as sent. */
  lemma FreshCreate(st: State, data: TermCreate)
    requires Valid(st) && ValidTermCreate(data) && Store.Fits(Crud.NewTermOf(data)) && !Store.TermExists(st, data.term)
    ensures var st' := CreateTerm(st, data).0;
      && st'.terms.Keys == st.terms.Keys + {st.nextTermId} && st'.terms[st.nextTermId].term == data.term
      && st'.nextTermId == st.nextTermId + 1
  {
    assert Clip(data.term, MaxTermLength) == data.term;
  }

  /** Corrected, the answer is the row just written, and its lists read back as
      posted exactly when the comma encoding can carry them. */
  lemma CreateCorrectedEchoesInput(st: State, data: TermCreate)
    requires Valid(st) && ValidTermCreate(data) && Store.Fits(Crud.NewTermOf(data)) && !Store.TermExists(st, data.term)
    ensures var (st', reply) := CreateTermCorrected(st, data);
      && reply.Body? && reply.body.term == data.term && st'.terms[reply.body.id].term == data.term
      && (reply.body.synonyms == data.synonyms <==>
            data.synonyms.None? || (Join(data.synonyms.value, Codec.Comma) != "" && FreeOf(data.synonyms.value, Codec.Comma)))
  {
    if data.synonyms.Some? {
      Codec.RestRoundTrip(data.synonyms.value);
    }
  }

  /** As written, `PUT` with an empty term commits it and then fails reading it
      back, so afterwards the term can no longer be shown. */
  lemma UpdateToEmptyTermCommitsThenFails()
    ensures var (st', reply) := UpdateTerm(OneTerm("x"), 1, TermUpdate(Some(""), None, None, None, None));
      && reply == Unhandled() && st'.terms[1].term == "" && !NamesValid(st')
  {
    var st := OneTerm("x");
    var data := TermUpdate(Some(""), None, None, None, None);
    assert !Store.TermTaken(st, "", 1);
    var w := Crud.UpdateTerm(st, 1, data);
    var st' := w.value.0;
    assert st'.terms[1].term == "";
    assert Lower("") == "";
    assert Like.Parse("") == Some([]);
    assert Like.Ilike("", "") == Some(true);
  }

  /** Corrected, every REST write keeps every stored term showable, so no
      later read fails on a stored name. */
  lemma CorrectedWritesKeepNamesValid(st: State, data: TermCreate, id: int, patch: TermUpdate)
    requires Valid(st) && NamesValid(st)
    ensures NamesValid(CreateTermCorrected(st, data).0)
    ensures NamesValid(UpdateTermCorrected(st, id, patch).0)
    ensures NamesValid(DeleteTerm(st, id).0)
  {
    var st1 := CreateTermCorrected(st, data).0;
    forall k | k in st1.terms ensures ValidTermName(st1.terms[k].term) {
      if k !in st.terms {
        var w := Crud.CreateTerm(st, data);
        assert w.Ok? && k == w.value.1.id;
      }
    }
  }

  /** The term writes never touch a relation's kind, so with the validated
      relation writes the REST API keeps every stored kind one of the five. */
  lemma TermWritesKeepKinds(st: State, data: TermCreate, id: int, patch: TermUpdate)
    requires Valid(st) && KindsValid(st)
    ensures KindsValid(CreateTerm(st, data).0)
    ensures KindsValid(UpdateTerm(st, id, patch).0)
    ensures KindsValid(DeleteTerm(st, id).0)
  {
    assert CreateTerm(st, data).0.relations == st.relations;
    assert UpdateTerm(st, id, patch).0.relations == st.relations;
    assert DeleteTerm(st, id).0.relations == st.relations;
  }
}

=== FILE: routes.dfy ===
/** The Express routers of the TypeScript backend
    (backend/src/routes/terms.ts, relations.ts): query defaults, `formatTerm`
    on every term answer, and the mapping of Prisma error codes to statuses —
    P2002 to 400 on a term create, P2025 to 404 on an update or delete,
    anything else to 500. */
module Routes {
  import opened Optional
  import opened Text
  import opened Domain
  import opened Http
  import opened TsTypes
  import Store
  import Listing
  import Codec
  import PrismaService

  const TermAlreadyExists: string := "Term already exists"
  const TermNotFound: string := "Term not found"
  const RelationNotFound: string := "Relation not found"

  /** How many terms `/graph` asks for. */
  const GraphLimit: nat := 10000

  /** The graph body: formatted terms as nodes, the raw relation rows as edges. */
  datatype Graph = Graph(nodes: seq<TermResponse>, edges: seq<RelationRow>)

  /** Every failure the routers do not single out. */
  function Failed<T>(): Reply<T> {
    Problem(InternalError500, InternalDetail)
  }

  /** `isPrismaUniqueError` decides between 400 and 500 on a create. */
  function CreateFailure<T>(code: PrismaService.ErrorCode): Reply<T> {
    if code == PrismaService.UniqueFailedCode then Problem(BadRequest400, TermAlreadyExists) else Failed()
  }

  /** `isPrismaNotFoundError` decides between 404 and 500 on an update or delete. */
  function WriteFailure<T>(code: PrismaService.ErrorCode, notFound: string): Reply<T> {
    if code == PrismaService.RecordNotFoundCode then Problem(NotFound404, notFound) else Failed()
  }

  // ---------------------------------------------------------------------------
  // Terms

  /** `GET /terms`: an absent (or empty) `limit` is 100 and `offset` 0; 500 when
      the database refuses a filtering query that holds NUL. */
  function ListTerms(st: State, query: Option<string>, limit: Option<nat>, offset: Option<nat>): (r: Reply<seq<TermResponse>>)
    requires Valid(st)
    ensures r.Body? || r == Failed()
    ensures r.Body? <==> !Listing.Filters(query) || NulFree(query.value)
    ensures r.Body? ==> r.status == Ok200 && |r.body| <= limit.GetOr(PrismaService.DefaultLimit)
    ensures r.Body? ==> forall i :: 0 <= i < |r.body| ==>
      Shows(st, r.body[i]) && Listing.Selected(Listing.Prisma, st.terms[r.body[i].id], query)
    ensures r.Body? ==> forall i, j :: 0 <= i < j < |r.body| ==> LexLe(r.body[i].term, r.body[j].term)
    ensures r.Body? ==>
      var (lim, off, all) := (limit.GetOr(PrismaService.DefaultLimit), offset.GetOr(PrismaService.DefaultOffset), Listing.Ordered(st, Listing.Prisma, query));
      && |r.body| == (if off >= |all| then 0 else Listing.Min(lim, |all| - off))
      && forall i :: 0 <= i < |r.body| ==> r.body[i] == FormatTerm(all[off + i])
  {
    var found := PrismaService.ListTerms(st, query, limit.GetOr(PrismaService.DefaultLimit), offset.GetOr(PrismaService.DefaultOffset));
    if found.Err? then Failed()
    else
      FormattedPage(st, query, found.value);
      FormattedWindow(found.value, Listing.Ordered(st, Listing.Prisma, query),
                      limit.GetOr(PrismaService.DefaultLimit), offset.GetOr(PrismaService.DefaultOffset));
      Body(Ok200, FormatTerms(found.value))
  }

  /** Formatting a window of a listing is the same window of the formatted listing. */
  lemma FormattedWindow(rows: seq<TermRow>, all: seq<TermRow>, lim: nat, off: nat)
    requires Listing.IsPage(rows, all, lim, off)
    ensures var page := FormatTerms(rows);
      && |page| == (if off >= |all| then 0 else Listing.Min(lim, |all| - off))
      && forall i :: 0 <= i < |page| ==> page[i] == FormatTerm(all[off + i])
  {
  }

  /** Formatting a page of stored, selected, sorted rows keeps all three facts. */
  lemma FormattedPage(st: State, query: Option<string>, rows: seq<TermRow>)
    requires Listing.SortedByTerm(rows)
    requires forall t :: t in rows ==> t.id in st.terms && st.terms[t.id] == t && Listing.Selected(Listing.Prisma, t, query)
    ensures var page := FormatTerms(rows);
      && (forall i :: 0 <= i < |page| ==> Shows(st, page[i]) && Listing.Selected(Listing.Prisma, st.terms[page[i].id], query))
      && (forall i, j :: 0 <= i < j < |page| ==> LexLe(page[i].term, page[j].term))
  {
    assert forall i :: 0 <= i < |rows| ==> rows[i] in rows;
  }

  /** `GET /terms/by-keyword/:keyword`: 404 exactly when no term equals the
      keyword ignoring case; 500 when the database refuses a keyword holding NUL. */
  function GetTermByKeyword(st: State, keyword: string): (r: Reply<TermResponse>)
    requires Valid(st)
    ensures r.Body? || r == Problem(NotFound404, TermNotFound) || r == Failed()
    ensures r == Failed() <==> !NulFree(keyword)
    ensures r.Body? ==> r.status == Ok200 && Shows(st, r.body) && EqualsIgnoreCase(r.body.term, keyword)
    ensures r == Problem(NotFound404, TermNotFound) <==>
      NulFree(keyword) && forall k :: k in st.terms ==> !EqualsIgnoreCase(st.terms[k].term, keyword)
  {
    var found := PrismaService.GetTermByKeyword(st, keyword);
    if found.Err? then Failed()
    else if found.value.None? then Problem(NotFound404, TermNotFound)
    else Body(Ok200, FormatTerm(found.value.value))
  }

  /** `POST /terms`: 201 with the new row formatted; 400 when the stored term
      is taken, 500 for a value that does not fit its column or holds NUL. */
  function CreateTerm(st: State, data: TermCreate): (r: (State, Reply<TermResponse>))
    requires Valid(st)
    ensures Valid(r.0)
    ensures !r.1.Body? ==>
      r.0 == (if Store.Fits(PrismaService.NewTermOf(data)) then st.(nextTermId := st.nextTermId + 1) else st)
    ensures r.1 == Problem(BadRequest400, TermAlreadyExists) <==>
      Store.Fits(PrismaService.NewTermOf(data)) && Store.TermExists(st, data.term)
    ensures r.1 == Failed() <==> !Store.Fits(PrismaService.NewTermOf(data))
    ensures r.1.Body? ==> var (st', out) := (r.0, r.1.body);
      && r.1.status == Created201 && out.id !in st.terms && Shows(st', out)
      && st'.terms == st.terms[out.id := st'.terms[out.id]] && st'.relations == st.relations
      && out.term == Clip(data.term, MaxTermLength) && out.definition == data.definition
  {
    var w := PrismaService.CreateTerm(st, data);
    if w.Err? then (Store.AfterRefusedTermInsert(st, PrismaService.NewTermOf(data)), CreateFailure(w.error))
    else (w.value.0, Body(Created201, FormatTerm(w.value.1)))
  }

  /** `PUT /terms/:id`: 200 with the updated row formatted; 404 for a missing
      id, 500 for any other refusal. */
  function UpdateTerm(st: State, id: int, data: TermUpdate): (r: (State, Reply<TermResponse>))
    requires Valid(st)
    ensures Valid(r.0)
    ensures !r.1.Body? ==> r.0 == st
    ensures r.1 == Problem(NotFound404, TermNotFound) <==> id !in st.terms
    ensures id in st.terms ==> (r.1.Body? <==>
      TermFits(Store.Patched(st.terms[id], PrismaService.PatchOf(data))) && (data.term.None? || !Store.TermTaken(st, data.term.value, id)))
    ensures r.1.Body? ==> var (st', out) := (r.0, r.1.body);
      && r.1.status == Ok200 && out.id == id && Shows(st', out)
      && st'.terms == st.terms[id := st'.terms[id]] && st'.relations == st.relations
  {
    var w := PrismaService.UpdateTerm(st, id, data);
    if w.Err? then (st, WriteFailure(w.error, TermNotFound))
    else (w.value.0, Body(Ok200, FormatTerm(w.value.1)))
  }

  /** `DELETE /terms/:id`: 204, or 404 for a missing id. */
  function DeleteTerm(st: State, id: int): (r: (State, Reply<()>))
    requires Valid(st)
    ensures Valid(r.0)
    ensures id in st.terms <==> r.1 == Empty(NoContent204)
    ensures id !in st.terms ==> r == (st, Problem(NotFound404, TermNotFound))
    ensures id in st.terms ==> r.0.terms == st.terms - {id} && r.0.relations == Store.Detached(st.relations, id)
  {
    var w := PrismaService.DeleteTerm(st, id);
    if w.Err? then (st, WriteFailure(w.error, TermNotFound)) else (w.value, Empty(NoContent204))
  }

  // ---------------------------------------------------------------------------
  // Relations

  /** `POST /relations`: 201 with the raw row; every failure is a 500. */
  function CreateRelation(st: State, data: RelationCreate): (r: (State, Reply<RelationRow>))
    requires Valid(st)
    ensures Valid(r.0)
    ensures r.1.Body? || r.1 == Failed()
    ensures !r.1.Body? ==> r.0 == if KindFits(data.kind) then st.(nextRelationId := st.nextRelationId + 1) else st
    ensures r.1.Body? <==> KindFits(data.kind) && data.sourceId in st.terms && data.targetId in st.terms
    ensures r.1.Body? ==> var (st', row) := (r.0, r.1.body);
      && r.1.status == Created201 && row.id !in st.relations
      && row == RelationRow(row.id, data.sourceId, data.targetId, Clip(data.kind, MaxKindLength))
      && st'.relations == st.relations[row.id := row] && st'.terms == st.terms
  {
    var w := PrismaService.CreateRelation(st, data);
    if w.Err? then (Store.AfterRefusedRelationInsert(st, Store.NewRelation(data.sourceId, data.targetId, data.kind)), Failed())
    else (w.value.0, Body(Created201, w.value.1))
  }

  /** `GET /relations`: every stored relation, as stored. */
  function ListRelations(st: State): (r: Reply<seq<RelationRow>>)
    requires Valid(st)
    ensures r.Body? && r.status == Ok200
    ensures forall k :: k in st.relations ==> st.relations[k] in r.body
    ensures forall x :: x in r.body ==> x.id in st.relations && st.relations[x.id] == x
  {
    Body(Ok200, PrismaService.ListRelations(st))
  }

  /** `PUT /relations/:id`: 200 with the updated row; 404 for a missing id, 500
      for any other refusal. */
  function UpdateRelation(st: State, id: int, data: RelationUpdate): (r: (State, Reply<RelationRow>))
    requires Valid(st)
    ensures Valid(r.0)
    ensures !r.1.Body? ==> r.0 == st
    ensures r.1 == Problem(NotFound404, RelationNotFound) <==> id !in st.relations
    ensures r.1.Body? || r.1 == Problem(NotFound404, RelationNotFound) || r.1 == Failed()
    ensures id in st.relations ==> (r.1.Body? <==>
      && (data.kind.None? || KindFits(data.kind.value))
      && (data.sourceId.None? || data.sourceId.value in st.terms) && (data.targetId.None? || data.targetId.value in st.terms))
    ensures r.1.Body? ==> var (st', row) := (r.0, r.1.body);
      && r.1.status == Ok200 && row.id == id && id in st.relations
      && row.sourceId == (if data.sourceId.Some? then data.sourceId.value else st.relations[id].sourceId)
      && row.targetId == (if data.targetId.Some? then data.targetId.value else st.relations[id].targetId)
      && row.kind == (if data.kind.Some? then Clip(data.kind.value, MaxKindLength) else st.relations[id].kind)
      && st'.relations == st.relations[id := row] && st'.terms == st.terms
  {
    var w := PrismaService.UpdateRelation(st, id, data);
    if w.Err? then (st, WriteFailure(w.error, RelationNotFound)) else (w.value.0, Body(Ok200, w.value.1))
  }

  /** `DELETE /relations/:id`: 204, or 404 for a missing id. */
  function DeleteRelation(st: State, id: int): (r: (State, Reply<()>))
    requires Valid(st)
    ensures Valid(r.0)
    ensures id in st.relations <==> r.1 == Empty(NoContent204)
    ensures id !in st.relations ==> r == (st, Problem(NotFound404, RelationNotFound))
    ensures id in st.relations ==> r.0.relations == st.relations - {id} && r.0.terms == st.terms
  {
    var w := PrismaService.DeleteRelation(st, id);
    if w.Err? then (st, WriteFailure(w.error, RelationNotFound)) else (w.value, Empty(NoContent204))
  }

  /** `GET /graph`: the first 10000 terms in `term` order, unfiltered and
      formatted, and every relation. */
  function GetGraph(st: State): (r: Reply<Graph>)
    requires Valid(st)
    ensures r.Body? && r.status == Ok200
    ensures r.body.nodes == FormatTerms(PrismaService.ListTerms(st, None, GraphLimit, 0).value)
    ensures |r.body.nodes| <= GraphLimit
    ensures var all := Listing.Ordered(st, Listing.Prisma, None);
      && |r.body.nodes| == Listing.Min(GraphLimit, |all|)
      && forall i :: 0 <= i < |r.body.nodes| ==> r.body.nodes[i] == FormatTerm(all[i])
    ensures forall k :: k in st.relations ==> st.relations[k] in r.body.edges
    ensures forall x :: x in r.body.edges ==> x.id in st.relations && st.relations[x.id] == x
  {
    Body(Ok200, Graph(FormatTerms(PrismaService.ListTerms(st, None, GraphLimit, 0).value), PrismaService.ListRelations(st)))
  }

  // ---------------------------------------------------------------------------
  // Properties

  /** The statuses a term create can answer, by the store's verdict: taken is
      400, a value that does not fit or holds NUL is 500, anything else
      succeeds. */
  lemma CreateStatuses(st: State, data: TermCreate)
    requires Valid(st)
    ensures var reply := CreateTerm(st, data).1;
      && (reply.status == BadRequest400 <==> Store.Fits(PrismaService.NewTermOf(data)) && Store.TermExists(st, data.term))
      && (reply.status == InternalError500 <==> !Store.Fits(PrismaService.NewTermOf(data)))
      && (reply.status == Created201 <==> Store.Fits(PrismaService.NewTermOf(data)) && !Store.TermExists(st, data.term))
  {
  }

  /** A posted term answers with its lists as posted exactly when each is
      absent, or non-empty with non-empty, trimmed, comma-free elements. */
  lemma CreateEchoesLists(st: State, data: TermCreate)
    requires Valid(st) && Store.Fits(PrismaService.NewTermOf(data)) && !Store.TermExists(st, data.term)
    ensures var reply := CreateTerm(st, data).1;
      && reply.Body?
      && (reply.body.synonyms == data.synonyms <==>
            data.synonyms.None? || (|data.synonyms.value| >= 1 && forall k :: 0 <= k < |data.synonyms.value| ==> IsCleanPiece(data.synonyms.value[k], Codec.Comma, JavaScript)))
  {
    PrismaService.CreateThenFormat(st, data);
  }

  /** When there are at most 10000 terms, the graph shows every one of them. */
  lemma GraphHasEveryTerm(st: State, id: int)
    requires Valid(st) && id in st.terms
    requires |Listing.Ordered(st, Listing.Prisma, None)| <= GraphLimit
    ensures FormatTerm(st.terms[id]) in GetGraph(st).body.nodes
  {
    var rows := PrismaService.ListTerms(st, None, GraphLimit, 0).value;
    Listing.UnfilteredListsAll(st, Listing.Prisma, GraphLimit, id);
    var i :| 0 <= i < |rows| && rows[i] == st.terms[id];
    assert FormatTerms(rows)[i] == FormatTerm(st.terms[id]);
  }
}

=== FILE: schemas.dfy ===
/** The request and response shapes of the Python backend
    (backend/app/schemas.py) and the validation they carry. */
module Schemas {
  import opened Optional
  import opened Domain

  /** Provenance of a term; every field optional. */
  datatype SourceInfo = SourceInfo(title: Option<string>, authors: Option<string>, year: Option<int>, link: Option<string>)

  datatype TermCreate = TermCreate(
    term: string,
    definition: string,
    synonyms: Option<seq<string>>,
    tags: Option<seq<string>>,
    source: Option<SourceInfo>)

  /** A partial update; `None` in a field means "not supplied". */
  datatype TermUpdate = TermUpdate(
    term: Option<string>,
    definition: Option<string>,
    synonyms: Option<seq<string>>,
    tags: Option<seq<string>>,
    source: Option<SourceInfo>)

  /** The update whose every field is left at its default. */
  const NoChanges: TermUpdate := TermUpdate(None, None, None, None, None)

  datatype RelationCreate = RelationCreate(sourceId: int, targetId: int, kind: string)

  datatype RelationUpdate = RelationUpdate(sourceId: Option<int>, targetId: Option<int>, kind: Option<string>)

  /** A term as the REST API returns it: lists decoded, the four source columns grouped. */
  datatype TermOut = TermOut(
    id: int,
    term: string,
    definition: string,
    synonyms: Option<seq<string>>,
    tags: Option<seq<string>>,
    source: SourceInfo,
    createdAt: nat,
    updatedAt: nat)

  datatype RelationOut = RelationOut(id: int, sourceId: int, targetId: int, kind: string)

  /** The graph: every term as a node, every relation as an edge. */
  datatype GraphOut = GraphOut(nodes: seq<TermOut>, edges: seq<RelationOut>)

  /** `Field(..., min_length=1, max_length=255)` on `term`, which `TermCreate`
      and `TermOut` inherit from `TermBase`; `TermUpdate.term` has no such field. */
  predicate ValidTermName(s: string) {
    1 <= |s| <= MaxTermLength
  }

  predicate ValidTermCreate(d: TermCreate) {
    ValidTermName(d.term)
  }

  /** The `type` pattern of `RelationBase`. */
  predicate ValidRelationCreate(d: RelationCreate) {
    IsKindName(d.kind)
  }

  /** The `type` pattern of `RelationUpdate`, which also admits the default None. */
  predicate ValidRelationUpdate(d: RelationUpdate) {
    d.kind.None? || IsKindName(d.kind.value)
  }
}

=== FILE: store.dfy ===
/** The abstract glossary store both backends write to: single-row inserts,
    partial updates and deletes on the `terms` and `relations` tables, with the
    unique, foreign-key and `ON DELETE CASCADE` constraints of
    backend/app/models.py enforced the way the database enforces them, by
    refusing the write. Both the SQLAlchemy functions (module Crud) and the
    Prisma services (module Prisma) are thin layers over these operations. */
module Store {
  import opened Optional
  import opened Domain

  /** Why the database refused a write, or found no row to write.
      `ValueTooLong` is a value outside its column type (a `VARCHAR` width or the
      `INTEGER` range); `BadPattern` is an `ILIKE` pattern ending in a lone
      escape; `NotNullViolation` is a NULL written to a `NOT NULL` column;
      `NulCharacter` is a text value, or a search text, holding NUL. */
  datatype StoreError = UniqueViolation | ForeignKeyViolation | RecordNotFound | ValueTooLong | BadPattern | NotNullViolation | NulCharacter

  /** The column values of a term about to be inserted. */
  datatype NewTerm = NewTerm(
    term: string,
    definition: string,
    synonyms: Option<string>,
    tags: Option<string>,
    sourceTitle: Option<string>,
    sourceAuthors: Option<string>,
    sourceYear: Option<int>,
    sourceLink: Option<string>)

  /** A partial term update: `None` leaves the column alone, `Some(v)` writes `v`
      (and `Some(None)` writes NULL into a nullable column). */
  datatype TermPatch = TermPatch(
    term: Option<string>,
    definition: Option<string>,
    synonyms: Option<Option<string>>,
    tags: Option<Option<string>>,
    sourceTitle: Option<Option<string>>,
    sourceAuthors: Option<Option<string>>,
    sourceYear: Option<Option<int>>,
    sourceLink: Option<Option<string>>)

  /** The column values of a relation about to be inserted. */
  datatype NewRelation = NewRelation(sourceId: int, targetId: int, kind: string)

  /** A partial relation update, `None` meaning "leave the column alone". */
  datatype RelationPatch = RelationPatch(sourceId: Option<int>, targetId: Option<int>, kind: Option<string>)

  /** No text value holds NUL. */
  predicate NulFreeTerm(n: NewTerm) {
    TermTextNulFree(n.term, n.definition, n.synonyms, n.tags, n.sourceTitle, n.sourceAuthors, n.sourceLink)
  }

  /** The database accepts the values into their columns. */
  predicate Fits(n: NewTerm) {
    NulFreeTerm(n) && TermColumnsFit(n.term, n.sourceTitle, n.sourceAuthors, n.sourceYear, n.sourceLink)
  }

  /** Every bounded value is no longer than its column, so it is stored as given. */
  predicate Within(n: NewTerm) {
    TermColumnsWithin(n.term, n.sourceTitle, n.sourceAuthors, n.sourceLink)
  }

  /** The values the columns store: each bounded text cut to its width. */
  function Clipped(n: NewTerm): (c: NewTerm)
    ensures Within(c)
    ensures Within(n) ==> c == n
    ensures c.term == Clip(n.term, MaxTermLength) && c.definition == n.definition
    ensures c.synonyms == n.synonyms && c.tags == n.tags && c.sourceYear == n.sourceYear
    ensures c.sourceTitle == ClipOpt(n.sourceTitle, MaxSourceLength) && c.sourceAuthors == ClipOpt(n.sourceAuthors, MaxSourceLength)
    ensures c.sourceLink == ClipOpt(n.sourceLink, MaxLinkLength)
  {
    n.(term := Clip(n.term, MaxTermLength),
       sourceTitle := ClipOpt(n.sourceTitle, MaxSourceLength),
       sourceAuthors := ClipOpt(n.sourceAuthors, MaxSourceLength),
       sourceLink := ClipOpt(n.sourceLink, MaxLinkLength))
  }

  /** Some stored row holds `term` as the column stores it. */
  predicate TermExists(st: State, term: string) {
    exists k :: k in st.terms && st.terms[k].term == Clip(term, MaxTermLength)
  }

  /** Some row other than `except` already holds `term` as the column stores it. */
  predicate TermTaken(st: State, term: string, except: int) {
    exists k :: k in st.terms && k != except && st.terms[k].term == Clip(term, MaxTermLength)
  }

  /** The column values of a stored term, without id and timestamps. */
  function ContentOf(row: TermRow): NewTerm {
    NewTerm(row.term, row.definition, row.synonyms, row.tags,
            row.sourceTitle, row.sourceAuthors, row.sourceYear, row.sourceLink)
  }

  /** `row` with its column values replaced by `c`. */
  function WithContent(row: TermRow, c: NewTerm): (r: TermRow)
    ensures ContentOf(r) == c
    ensures r.id == row.id && r.createdAt == row.createdAt && r.updatedAt == row.updatedAt
  {
    row.(term := c.term, definition := c.definition, synonyms := c.synonyms, tags := c.tags,
         sourceTitle := c.sourceTitle, sourceAuthors := c.sourceAuthors,
         sourceYear := c.sourceYear, sourceLink := c.sourceLink)
  }

  /** An accepted row is stored, once clipped, as a row its columns hold. */
  lemma ClippedStored(row: TermRow)
    requires TermFits(row)
    ensures TermStored(WithContent(row, Clipped(ContentOf(row))))
  {
  }

  function Pick<T>(update: Option<T>, current: T): T {
    if update.Some? then update.value else current
  }

  /** The columns of `row` after writing the supplied fields of `p`. */
  function Patched(row: TermRow, p: TermPatch): (r: TermRow)
    ensures r.id == row.id && r.createdAt == row.createdAt && r.updatedAt == row.updatedAt
    ensures r.term == (if p.term.Some? then p.term.value else row.term)
    ensures r.synonyms == (if p.synonyms.Some? then p.synonyms.value else row.synonyms)
    ensures r.tags == (if p.tags.Some? then p.tags.value else row.tags)
    ensures p == TermPatch(None, None, None, None, None, None, None, None) ==> r == row
  {
    row.(term := Pick(p.term, row.term),
         definition := Pick(p.definition, row.definition),
         synonyms := Pick(p.synonyms, row.synonyms),
         tags := Pick(p.tags, row.tags),
         sourceTitle := Pick(p.sourceTitle, row.sourceTitle),
         sourceAuthors := Pick(p.sourceAuthors, row.sourceAuthors),
         sourceYear := Pick(p.sourceYear, row.sourceYear),
         sourceLink := Pick(p.sourceLink, row.sourceLink))
  }

  // ---------------------------------------------------------------------------
  // Terms

  function GetTerm(st: State, id: int): (r: Option<TermRow>)
    ensures r.Some? <==> id in st.terms
    ensures r.Some? ==> r.value == st.terms[id]
  {
    if id in st.terms then Some(st.terms[id]) else None
  }

  /** INSERT INTO terms: the next autoincrement id, both timestamps at a new tick,
      each bounded value cut to its width; refused when a value holds NUL, when
      a value does not fit its column, or when another row already has the
      same stored `term`. */
  function InsertTerm(st: State, n: NewTerm): (r: Result<(State, TermRow), StoreError>)
    requires Valid(st)
    ensures r.Err? <==> !Fits(n) || TermExists(st, n.term)
    ensures r.Err? ==>
      r.error == (if !NulFreeTerm(n) then NulCharacter else if !Fits(n) then ValueTooLong else UniqueViolation)
    ensures r.Ok? ==> var (st', row) := r.value;
      && ContentOf(row) == Clipped(n)
      && row.id == st.nextTermId && row.id !in st.terms
      && row.createdAt == row.updatedAt == st'.clock > st.clock
      && st'.terms == st.terms[row.id := row]
      && st'.relations == st.relations
      && st'.nextTermId == st.nextTermId + 1
    ensures r.Ok? ==> Valid(r.value.0)
    ensures KindsValid(st) && r.Ok? ==> KindsValid(r.value.0)
  {
    if !NulFreeTerm(n) then Err(NulCharacter)
    else if !Fits(n) then Err(ValueTooLong)
    else if TermExists(st, n.term) then Err(UniqueViolation)
    else
      var tick := st.clock + 1;
      var c := Clipped(n);
      var row := TermRow(st.nextTermId, c.term, c.definition, c.synonyms, c.tags,
                         c.sourceTitle, c.sourceAuthors, c.sourceYear, c.sourceLink, tick, tick);
      ClippedStored(row.(term := n.term, sourceTitle := n.sourceTitle, sourceAuthors := n.sourceAuthors, sourceLink := n.sourceLink));
      var st' := st.(terms := st.terms[row.id := row], nextTermId := st.nextTermId + 1, clock := tick);
      assert forall k :: k in st.terms ==> st.terms[k].term != c.term;
      assert st.nextTermId !in st.terms;
      Ok((st', row))
  }

  /** The database after INSERT INTO terms is refused. The `id` default draws
      the next value of the table's sequence when the row is formed, and a drawn
      value is never handed back, not even by the rollback: a unique violation,
      found when the formed row reaches the index, uses up an id. A value that
      does not fit its column type is refused while the statement is planned,
      and one holding NUL before the statement is sent: neither draws an id. */
  function AfterRefusedTermInsert(st: State, n: NewTerm): (r: State)
    requires Valid(st) && (!Fits(n) || TermExists(st, n.term))
    ensures Valid(r)
    ensures r.terms == st.terms && r.relations == st.relations
    ensures r.clock == st.clock && r.nextRelationId == st.nextRelationId
    ensures r.nextTermId == (if InsertTerm(st, n).error == UniqueViolation then st.nextTermId + 1 else st.nextTermId)
  {
    if Fits(n) then st.(nextTermId := st.nextTermId + 1) else st
  }

  /** UPDATE terms SET ... WHERE id = ?: writes the supplied columns, each
      bounded value cut to its width, and stamps `updated_at` with a new tick
      when some supplied value differs from the stored one (no UPDATE is issued
      otherwise). Refused for a missing id, for a value holding NUL, for a value
      that does not fit its column, and for a stored `term` another row holds. */
  function UpdateTerm(st: State, id: int, p: TermPatch): (r: Result<(State, TermRow), StoreError>)
    requires Valid(st)
    ensures id !in st.terms ==> r == Err(RecordNotFound)
    ensures id in st.terms ==> (r.Err? <==>
      !TermFits(Patched(st.terms[id], p)) || (p.term.Some? && TermTaken(st, p.term.value, id)))
    ensures id in st.terms && r.Err? ==>
      r.error == (if !NulFreeTerm(ContentOf(Patched(st.terms[id], p))) then NulCharacter
                  else if !TermFits(Patched(st.terms[id], p)) then ValueTooLong else UniqueViolation)
    ensures r.Ok? ==> var (st', row) := r.value;
      && id in st.terms
      && ContentOf(row) == Clipped(ContentOf(Patched(st.terms[id], p)))
      && row.id == id && row.createdAt == st.terms[id].createdAt
      && (row == st.terms[id] <==> Patched(st.terms[id], p) == st.terms[id])
      && (row != st.terms[id] ==> row.updatedAt == st'.clock > st.clock)
      && st'.terms == st.terms[id := row]
      && st'.relations == st.relations
    ensures r.Ok? ==> Valid(r.value.0)
    ensures KindsValid(st) && r.Ok? ==> KindsValid(r.value.0)
  {
    if id !in st.terms then Err(RecordNotFound)
    else if !NulFreeTerm(ContentOf(Patched(st.terms[id], p))) then Err(NulCharacter)
    else if !TermFits(Patched(st.terms[id], p)) then Err(ValueTooLong)
    else if p.term.Some? && TermTaken(st, p.term.value, id) then Err(UniqueViolation)
    else
      var current := st.terms[id];
      var written := Patched(current, p);
      if written == current then Ok((st, current))
      else
        var tick := st.clock + 1;
        ClippedStored(written);
        var row := WithContent(written, Clipped(ContentOf(written))).(updatedAt := tick);
        Ok((st.(terms := st.terms[id := row], clock := tick), row))
  }

  /** The relations that survive deleting term `id` under `ON DELETE CASCADE`. */
  function Detached(relations: map<int, RelationRow>, id: int): (r: map<int, RelationRow>)
    ensures forall k :: k in r <==> k in relations && relations[k].sourceId != id && relations[k].targetId != id
    ensures forall k :: k in r ==> r[k] == relations[k]
  {
    map k | k in relations && relations[k].sourceId != id && relations[k].targetId != id :: relations[k]
  }

  /** Some relation has the term `id` at one of its ends. */
  predicate Referenced(st: State, id: int) {
    exists k :: k in st.relations && (st.relations[k].sourceId == id || st.relations[k].targetId == id)
  }

  /** Detaching an unreferenced term removes no relation. */
  lemma DetachedUnreferenced(st: State, id: int)
    requires !Referenced(st, id)
    ensures Detached(st.relations, id) == st.relations
  {
    var d := Detached(st.relations, id);
    forall k | k in st.relations ensures k in d {
      assert !(st.relations[k].sourceId == id || st.relations[k].targetId == id);
    }
    assert d.Keys == st.relations.Keys;
  }

  /** DELETE FROM terms WHERE id = ?, cascading to every relation that has the
      term at either end; refused for a missing id. */
  function DeleteTerm(st: State, id: int): (r: Result<State, StoreError>)
    requires Valid(st)
    ensures r.Err? <==> id !in st.terms
    ensures r.Err? ==> r.error == RecordNotFound
    ensures r.Ok? ==>
      && r.value.terms == st.terms - {id}
      && r.value.relations == Detached(st.relations, id)
      && r.value.nextTermId == st.nextTermId
    ensures r.Ok? ==> Valid(r.value)
    ensures KindsValid(st) && r.Ok? ==> KindsValid(r.value)
  {
    if id !in st.terms then Err(RecordNotFound)
    else Ok(st.(terms := st.terms - {id}, relations := Detached(st.relations, id)))
  }

  // ---------------------------------------------------------------------------
  // Relations

  function GetRelation(st: State, id: int): (r: Option<RelationRow>)
    ensures r.Some? <==> id in st.relations
    ensures r.Some? ==> r.value == st.relations[id]
  {
    if id in st.relations then Some(st.relations[id]) else None
  }

  /** INSERT INTO relations, the kind cut to its width; refused when the kind
      holds NUL or does not fit its column, or when either endpoint is not a
      stored term. */
  function InsertRelation(st: State, n: NewRelation): (r: Result<(State, RelationRow), StoreError>)
    requires Valid(st)
    ensures r.Err? <==> !KindFits(n.kind) || n.sourceId !in st.terms || n.targetId !in st.terms
    ensures r.Err? ==>
      r.error == (if !NulFree(n.kind) then NulCharacter else if !KindFits(n.kind) then ValueTooLong else ForeignKeyViolation)
    ensures r.Ok? ==> var (st', row) := r.value;
      && row == RelationRow(st.nextRelationId, n.sourceId, n.targetId, Clip(n.kind, MaxKindLength))
      && st'.relations == st.relations[row.id := row]
      && st'.terms == st.terms
    ensures r.Ok? ==> Valid(r.value.0) && r.value.1.id !in st.relations
    ensures KindsValid(st) && IsKindName(n.kind) && r.Ok? ==> KindsValid(r.value.0)
  {
    if !NulFree(n.kind) then Err(NulCharacter)
    else if !KindFits(n.kind) then Err(ValueTooLong)
    else if n.sourceId !in st.terms || n.targetId !in st.terms then Err(ForeignKeyViolation)
    else
      var row := RelationRow(st.nextRelationId, n.sourceId, n.targetId, Clip(n.kind, MaxKindLength));
      assert st.nextRelationId !in st.relations;
      Ok((st.(relations := st.relations[row.id := row], nextRelationId := st.nextRelationId + 1), row))
  }

  /** The database after INSERT INTO relations is refused: as for terms, the
      foreign-key check runs on the formed row, so a dangling endpoint uses up
      an id, while a kind that holds NUL or does not fit is refused before one
      is drawn. */
  function AfterRefusedRelationInsert(st: State, n: NewRelation): (r: State)
    requires Valid(st) && (!KindFits(n.kind) || n.sourceId !in st.terms || n.targetId !in st.terms)
    ensures Valid(r)
    ensures r.terms == st.terms && r.relations == st.relations
    ensures r.clock == st.clock && r.nextTermId == st.nextTermId
    ensures r.nextRelationId == (if InsertRelation(st, n).error == ForeignKeyViolation then st.nextRelationId + 1 else st.nextRelationId)
  {
    if KindFits(n.kind) then st.(nextRelationId := st.nextRelationId + 1) else st
  }

  /** UPDATE relations SET ... WHERE id = ?: writes the supplied columns, the
      kind cut to its width; refused for a missing id, for a kind that holds NUL
      or does not fit its column, and when a new endpoint is not a stored term. */
  function UpdateRelation(st: State, id: int, p: RelationPatch): (r: Result<(State, RelationRow), StoreError>)
    requires Valid(st)
    ensures id !in st.relations ==> r == Err(RecordNotFound)
    ensures id in st.relations ==> (r.Err? <==>
      || (p.kind.Some? && !KindFits(p.kind.value))
      || (p.sourceId.Some? && p.sourceId.value !in st.terms) || (p.targetId.Some? && p.targetId.value !in st.terms))
    ensures id in st.relations && r.Err? ==>
      r.error == (if p.kind.Some? && !NulFree(p.kind.value) then NulCharacter
                  else if p.kind.Some? && !KindFits(p.kind.value) then ValueTooLong else ForeignKeyViolation)
    ensures r.Ok? ==> var (st', row) := r.value;
      && id in st.relations
      && row.id == id
      && row.sourceId == (if p.sourceId.Some? then p.sourceId.value else st.relations[id].sourceId)
      && row.targetId == (if p.targetId.Some? then p.targetId.value else st.relations[id].targetId)
      && row.kind == (if p.kind.Some? then Clip(p.kind.value, MaxKindLength) else st.relations[id].kind)
      && st'.relations == st.relations[id := row]
      && st'.terms == st.terms
    ensures r.Ok? ==> Valid(r.value.0)
    ensures KindsValid(st) && (p.kind.None? || IsKindName(p.kind.value)) && r.Ok? ==> KindsValid(r.value.0)
  {
    if id !in st.relations then Err(RecordNotFound)
    else if p.kind.Some? && !NulFree(p.kind.value) then Err(NulCharacter)
    else if p.kind.Some? && !KindFits(p.kind.value) then Err(ValueTooLong)
    else if (p.sourceId.Some? && p.sourceId.value !in st.terms) || (p.targetId.Some? && p.targetId.value !in st.terms) then
      Err(ForeignKeyViolation)
    else
      var current := st.relations[id];
      var row := current.(sourceId := Pick(p.sourceId, current.sourceId),
                      targetId := Pick(p.targetId, current.targetId),
                      kind := if p.kind.Some? then Clip(p.kind.value, MaxKindLength) else current.kind);
      Ok((st.(relations := st.relations[id := row]), row))
  }

  /** DELETE FROM relations WHERE id = ?; refused for a missing id. */
  function DeleteRelation(st: State, id: int): (r: Result<State, StoreError>)
    requires Valid(st)
    ensures r.Err? <==> id !in st.relations
    ensures r.Err? ==> r.error == RecordNotFound
    ensures r.Ok? ==> r.value.relations == st.relations - {id} && r.value.terms == st.terms
    ensures r.Ok? ==> Valid(r.value)
    ensures KindsValid(st) && r.Ok? ==> KindsValid(r.value)
  {
    if id !in st.relations then Err(RecordNotFound)
    else Ok(st.(relations := st.relations - {id}))
  }

  // ---------------------------------------------------------------------------
  // Table scans

  /** The keys of `m` below `bound`, in ascending order. */
  function IdsBelow<T>(m: map<int, T>, bound: int): (r: seq<int>)
    ensures forall i, j :: 0 <= i < j < |r| ==> r[i] < r[j]
    ensures forall k :: k in r <==> k in m && 1 <= k < bound
    decreases bound
  {
    if bound <= 1 then []
    else
      var prefix := IdsBelow(m, bound - 1);
      assert forall i :: 0 <= i < |prefix| ==> prefix[i] < bound - 1 by {
        forall i | 0 <= i < |prefix| ensures prefix[i] < bound - 1 {
          assert prefix[i] in prefix;
        }
      }
      prefix + (if bound - 1 in m then [bound - 1] else [])
  }

  /** The rows of `m` under the given ids, in that order. */
  function RowsAt<T>(m: map<int, T>, ids: seq<int>): (r: seq<T>)
    requires forall i :: 0 <= i < |ids| ==> ids[i] in m
    ensures |r| == |ids|
    ensures forall i :: 0 <= i < |ids| ==> r[i] == m[ids[i]]
  {
    seq(|ids|, i requires 0 <= i < |ids| => m[ids[i]])
  }

  lemma RowsAtCover<T>(m: map<int, T>, ids: seq<int>)
    requires forall i :: 0 <= i < |ids| ==> ids[i] in m
    requires forall k :: k in m ==> k in ids
    ensures forall k :: k in m ==> m[k] in RowsAt(m, ids)
  {
    var r := RowsAt(m, ids);
    forall k | k in m ensures m[k] in r {
      var i :| 0 <= i < |ids| && ids[i] == k;
      assert r[i] == m[k];
    }
  }

  /** All term rows, in id order. */
  function TermRows(st: State): (r: seq<TermRow>)
    requires Valid(st)
    ensures forall k :: k in st.terms ==> st.terms[k] in r
    ensures forall i :: 0 <= i < |r| ==> r[i].id in st.terms && st.terms[r[i].id] == r[i]
    ensures forall i, j :: 0 <= i < j < |r| ==> r[i].id < r[j].id
  {
    var ids := IdsBelow(st.terms, st.nextTermId);
    RowsAtCover(st.terms, ids);
    RowsAt(st.terms, ids)
  }

  /** All relation rows, in id order. */
  function RelationRows(st: State): (r: seq<RelationRow>)
    requires Valid(st)
    ensures forall k :: k in st.relations ==> st.relations[k] in r
    ensures forall i :: 0 <= i < |r| ==> r[i].id in st.relations && st.relations[r[i].id] == r[i]
    ensures forall i, j :: 0 <= i < j < |r| ==> r[i].id < r[j].id
  {
    var ids := IdsBelow(st.relations, st.nextRelationId);
    RowsAtCover(st.relations, ids);
    RowsAt(st.relations, ids)
  }

  // ---------------------------------------------------------------------------
  // Properties relating several operations

  /** Deleting twice: the second delete of the same id finds no row. */
  lemma DeleteTermTwice(st: State, id: int)
    requires Valid(st)
    requires DeleteTerm(st, id).Ok?
    ensures DeleteTerm(DeleteTerm(st, id).value, id) == Err(RecordNotFound)
  {
  }

  lemma DeleteRelationTwice(st: State, id: int)
    requires Valid(st)
    requires DeleteRelation(st, id).Ok?
    ensures DeleteRelation(DeleteRelation(st, id).value, id) == Err(RecordNotFound)
  {
  }

  /** After a cascade no relation mentions the deleted term, and every relation
      that did not mention it is still there. */
  lemma CascadeRemovesExactlyIncident(st: State, id: int)
    requires Valid(st)
    requires DeleteTerm(st, id).Ok?
    ensures forall k :: k in DeleteTerm(st, id).value.relations ==>
      DeleteTerm(st, id).value.relations[k].sourceId != id && DeleteTerm(st, id).value.relations[k].targetId != id
    ensures forall k :: k in st.relations && st.relations[k].sourceId != id && st.relations[k].targetId != id ==>
      k in DeleteTerm(st, id).value.relations
  {
  }

  /** An insert followed by a delete of the new row restores the term table. */
  lemma InsertThenDeleteTerm(st: State, n: NewTerm)
    requires Valid(st)
    requires InsertTerm(st, n).Ok?
    ensures var (st', row) := InsertTerm(st, n).value;
      DeleteTerm(st', row.id).Ok? && DeleteTerm(st', row.id).value.terms == st.terms
      && DeleteTerm(st', row.id).value.relations == st.relations
  {
    var (st', row) := InsertTerm(st, n).value;
    assert st'.terms - {row.id} == st.terms;
    forall k | k in st.relations ensures st.relations[k].sourceId != row.id && st.relations[k].targetId != row.id {
    }
    assert Detached(st'.relations, row.id) == st.relations;
  }

  /** On a fresh database: a title one space longer than its 512 characters is
      stored without the space, one with a letter in that place is refused as
      too long, and a term holding NUL is refused without drawing an id. */
  lemma WidthAndNulExamples()
    ensures var title := seq(MaxSourceLength, _ => 'a');
      var spaced := NewTerm("t", "d", None, None, Some(title + " "), None, None, None);
      var lettered := NewTerm("t", "d", None, None, Some(title + "b"), None, None, None);
      && InsertTerm(Empty, spaced).Ok? && InsertTerm(Empty, spaced).value.1.sourceTitle == Some(title)
      && InsertTerm(Empty, lettered) == Err(ValueTooLong)
    ensures var nul := NewTerm("a\0b", "d", None, None, None, None, None, None);
      InsertTerm(Empty, nul) == Err(NulCharacter) && AfterRefusedTermInsert(Empty, nul) == Empty
  {
    var title := seq(MaxSourceLength, _ => 'a');
    var spaced := title + " ";
    assert Assignable(spaced, MaxSourceLength) && Clip(spaced, MaxSourceLength) == title;
    assert !Assignable(title + "b", MaxSourceLength) by {
      assert (title + "b")[MaxSourceLength] == 'b';
    }
    assert !NulFree("a\0b") by {
      assert "a\0b"[1] == '\0';
    }
  }

  /** An update with every field absent writes nothing. */
  lemma EmptyPatchIsNoOp(st: State, id: int)
    requires Valid(st)
    requires id in st.terms
    ensures UpdateTerm(st, id, TermPatch(None, None, None, None, None, None, None, None)) == Ok((st, st.terms[id]))
  {
  }
}

=== FILE: text.dfy ===
/** Character-level text operations shared by the list codecs, the term search,
    the settings parser and the authentication gates: case folding, substring
    and prefix tests, splitting and joining on a one-character separator,
    whitespace stripping, and the collation order used to sort terms.

    Case folding and collation are abstractions of what the database and the
    language runtimes do: folding is the ASCII letter mapping and collation is
    lexicographic order on code points. */
module Text {

  /** The two language runtimes, whose whitespace classes differ. */
  datatype Runtime = Python | JavaScript

  /** Whitespace that both `str.strip()` and `String.prototype.trim()` remove:
      the controls U+0009..U+000D, the space, the no-break space, the Unicode
      space separators and the line and paragraph separators. */
  predicate IsCommonSpace(c: char) {
    || ('\t' <= c <= '\r')
    || c == ' ' || c == '\U{00A0}' || c == '\U{1680}'
    || ('\U{2000}' <= c <= '\U{200A}')
    || c == '\U{2028}' || c == '\U{2029}' || c == '\U{202F}' || c == '\U{205F}' || c == '\U{3000}'
  }

  /** The whitespace class of a runtime: Python's `str.strip()` also removes the
      separators U+001C..U+001F and U+0085; JavaScript's `trim()` also removes
      the byte-order mark U+FEFF. */
  predicate IsSpace(c: char, rt: Runtime) {
    || IsCommonSpace(c)
    || (rt == Python && (('\U{001C}' <= c <= '\U{001F}') || c == '\U{0085}'))
    || (rt == JavaScript && c == '\U{FEFF}')
  }

  predicate AllSpace(s: string, rt: Runtime) {
    forall k :: 0 <= k < |s| ==> IsSpace(s[k], rt)
  }

  /** Case folding of one character. */
  function LowerChar(c: char): (r: char)
    ensures !('A' <= r <= 'Z')
    ensures !('A' <= c <= 'Z') ==> r == c
  {
    if 'A' <= c <= 'Z' then (c as int + 32) as char else c
  }

  /** Case folding of a string, character by character. */
  function Lower(s: string): (r: string)
    ensures |r| == |s|
    ensures forall i :: 0 <= i < |s| ==> r[i] == LowerChar(s[i])
  {
    seq(|s|, i requires 0 <= i < |s| => LowerChar(s[i]))
  }

  /** Case-insensitive equality, as `ILIKE` without wildcards and Prisma's
      `equals` in insensitive mode compare. */
  predicate EqualsIgnoreCase(a: string, b: string) {
    Lower(a) == Lower(b)
  }

  // ---------------------------------------------------------------------------
  // Prefixes and substrings

  predicate IsPrefix(p: string, s: string) {
    |p| <= |s| && s[..|p|] == p
  }

  /** `sub` occurs in `s` starting at index `i`. */
  predicate OccursAt(s: string, sub: string, i: int) {
    0 <= i && i + |sub| <= |s| && s[i..i + |sub|] == sub
  }

  /** Substring test, computed by trying every start position in turn. */
  predicate Contains(s: string, sub: string)
    decreases |s|
  {
    IsPrefix(sub, s) || (|s| > 0 && Contains(s[1..], sub))
  }

  /** The scan agrees with the positional definition of a substring. */
  lemma {:induction false} ContainsIffOccurs(s: string, sub: string)
    ensures Contains(s, sub) <==> exists i :: OccursAt(s, sub, i)
    decreases |s|
  {
    if IsPrefix(sub, s) {
      assert OccursAt(s, sub, 0);
    }
    if |s| > 0 {
      ContainsIffOccurs(s[1..], sub);
      if Contains(s[1..], sub) {
        var i :| OccursAt(s[1..], sub, i);
        assert s[i + 1..i + 1 + |sub|] == s[1..][i..i + |sub|];
        assert OccursAt(s, sub, i + 1);
      }
    }
    forall i | OccursAt(s, sub, i) ensures Contains(s, sub) {
      if i > 0 {
        assert s[1..][i - 1..i - 1 + |sub|] == s[i..i + |sub|];
        assert OccursAt(s[1..], sub, i - 1);
      }
    }
  }

  /** Case-insensitive substring test, as `ILIKE '%q%'` and Prisma's
      `contains` in insensitive mode evaluate. */
  predicate ContainsIgnoreCase(s: string, q: string) {
    Contains(Lower(s), Lower(q))
  }

  // ---------------------------------------------------------------------------
  // Splitting and joining

  /** `s.split(sep)` for a one-character separator (Python and JavaScript agree):
      the pieces between separators, empty pieces included; never an empty list. */
  function Split(s: string, sep: char): (r: seq<string>)
    ensures |r| >= 1
    ensures forall k :: 0 <= k < |r| ==> sep !in r[k]
    decreases |s|
  {
    if |s| == 0 then [""]
    else
      var rest := Split(s[1..], sep);
      if s[0] == sep then [""] + rest
      else
        var first := [s[0]] + rest[0];
        assert sep !in first;
        [first] + rest[1..]
  }

  /** `sep.join(xs)` / `xs.join(sep)`. */
  function Join(xs: seq<string>, sep: char): string
    decreases |xs|
  {
    if |xs| == 0 then ""
    else if |xs| == 1 then xs[0]
    else xs[0] + [sep] + Join(xs[1..], sep)
  }

  /** No piece contains the separator. */
  predicate FreeOf(xs: seq<string>, sep: char) {
    forall k :: 0 <= k < |xs| ==> sep !in xs[k]
  }

  lemma {:induction false} SplitSepFree(a: string, rest: string, sep: char)
    requires sep !in a
    ensures Split(a + rest, sep) == [a + Split(rest, sep)[0]] + Split(rest, sep)[1..]
    decreases |a|
  {
    if |a| == 0 {
      var pieces := Split(rest, sep);
      assert a + rest == rest;
      assert a + pieces[0] == pieces[0];
      assert pieces == [pieces[0]] + pieces[1..];
    } else {
      var tail := a[1..] + rest;
      assert (a + rest)[1..] == tail;
      assert a[1..] + Split(rest, sep)[0] == a[1..] + Split(rest, sep)[0];
      SplitSepFree(a[1..], rest, sep);
      assert [a[0]] + (a[1..] + Split(rest, sep)[0]) == a + Split(rest, sep)[0];
    }
  }

  /** Splitting a join gives back the pieces, provided no piece holds the separator. */
  lemma {:induction false} SplitJoin(xs: seq<string>, sep: char)
    requires |xs| >= 1
    requires FreeOf(xs, sep)
    ensures Split(Join(xs, sep), sep) == xs
    decreases |xs|
  {
    if |xs| == 1 {
      SplitSepFree(xs[0], "", sep);
      assert xs[0] + "" == xs[0];
    } else {
      var rest := [sep] + Join(xs[1..], sep);
      assert Join(xs, sep) == xs[0] + rest;
      SplitSepFree(xs[0], rest, sep);
      assert rest[1..] == Join(xs[1..], sep);
      SplitJoin(xs[1..], sep);
      assert Split(rest, sep) == [""] + xs[1..];
      assert xs[0] + "" == xs[0];
      assert xs == [xs[0]] + xs[1..];
    }
  }

  /** The side condition of `SplitJoin` is also necessary: a split/join round trip
      returns the pieces exactly when none holds the separator. */
  lemma SplitJoinIff(xs: seq<string>, sep: char)
    requires |xs| >= 1
    ensures Split(Join(xs, sep), sep) == xs <==> FreeOf(xs, sep)
  {
    if FreeOf(xs, sep) {
      SplitJoin(xs, sep);
    }
  }

  /** Joining the pieces of a split restores the string. */
  lemma {:induction false} JoinSplit(s: string, sep: char)
    ensures Join(Split(s, sep), sep) == s
    decreases |s|
  {
    if |s| > 0 {
      var rest := Split(s[1..], sep);
      JoinSplit(s[1..], sep);
      if s[0] == sep {
        assert Split(s, sep) == [""] + rest;
        assert ([""] + rest)[1..] == rest;
        assert s == [sep] + s[1..];
      } else {
        var pieces := [[s[0]] + rest[0]] + rest[1..];
        assert Split(s, sep) == pieces;
        assert pieces[1..] == rest[1..];
        if |rest| == 1 {
          assert Join(rest, sep) == rest[0];
        } else {
          assert Join(rest, sep) == rest[0] + [sep] + Join(rest[1..], sep);
        }
        assert s == [s[0]] + s[1..];
      }
    }
  }

  // ---------------------------------------------------------------------------
  // Whitespace stripping

  function TrimStart(s: string, rt: Runtime): (r: string)
    ensures |r| <= |s| && r == s[|s| - |r|..]
    ensures AllSpace(s[..|s| - |r|], rt)
    ensures |r| > 0 ==> !IsSpace(r[0], rt)
    decreases |s|
  {
    if |s| > 0 && IsSpace(s[0], rt) then
      var r := TrimStart(s[1..], rt);
      assert s[1..][|s| - 1 - |r|..] == s[|s| - |r|..];
      assert s[..|s| - |r|] == [s[0]] + s[1..][..|s| - 1 - |r|];
      r
    else s
  }

  function TrimEnd(s: string, rt: Runtime): (r: string)
    ensures |r| <= |s| && r == s[..|r|]
    ensures AllSpace(s[|r|..], rt)
    ensures |r| > 0 ==> !IsSpace(r[|r| - 1], rt)
    decreases |s|
  {
    if |s| > 0 && IsSpace(s[|s| - 1], rt) then
      var r := TrimEnd(s[..|s| - 1], rt);
      assert s[..|s| - 1][..|r|] == s[..|r|];
      assert s[|r|..] == s[..|s| - 1][|r|..] + [s[|s| - 1]];
      r
    else s
  }

  /** Neither end is whitespace. */
  predicate IsStripped(s: string, rt: Runtime) {
    |s| == 0 || (!IsSpace(s[0], rt) && !IsSpace(s[|s| - 1], rt))
  }

  /** `s.strip()` / `s.trim()`: the infix of `s` left when the whitespace at
      both ends is removed. */
  function Strip(s: string, rt: Runtime): (r: string)
    ensures IsStripped(r, rt)
    ensures exists i :: OccursAt(s, r, i) && AllSpace(s[..i], rt) && AllSpace(s[i + |r|..], rt)
  {
    var t := TrimStart(s, rt);
    var r := TrimEnd(t, rt);
    var i := |s| - |t|;
    InfixOfTrims(s, t, r);
    assert OccursAt(s, r, i) && AllSpace(s[..i], rt) && AllSpace(s[i + |r|..], rt);
    r
  }

  /** The front of a suffix of `s` is an infix of `s`, followed by the rest of that suffix. */
  lemma InfixOfTrims(s: string, t: string, r: string)
    requires |t| <= |s| && t == s[|s| - |t|..]
    requires |r| <= |t| && r == t[..|r|]
    ensures OccursAt(s, r, |s| - |t|) && s[|s| - |t| + |r|..] == t[|r|..]
  {
    var i := |s| - |t|;
    assert r == s[i..][..|r|] == s[i..i + |r|];
  }

  lemma {:induction false} TrimStartSpaces(a: string, x: string, rt: Runtime)
    requires AllSpace(a, rt)
    requires x == "" || !IsSpace(x[0], rt)
    ensures TrimStart(a + x, rt) == x
    decreases |a|
  {
    if |a| > 0 {
      assert (a + x)[1..] == a[1..] + x;
      TrimStartSpaces(a[1..], x, rt);
    } else {
      assert a + x == x;
    }
  }

  lemma {:induction false} TrimEndSpaces(x: string, b: string, rt: Runtime)
    requires AllSpace(b, rt)
    requires x == "" || !IsSpace(x[|x| - 1], rt)
    ensures TrimEnd(x + b, rt) == x
    decreases |b|
  {
    if |b| > 0 {
      assert (x + b)[..|x + b| - 1] == x + b[..|b| - 1];
      TrimEndSpaces(x, b[..|b| - 1], rt);
    } else {
      assert x + b == x;
    }
  }

  /** `Strip` is characterised by its contract: whenever `s` is whitespace, then a
      stripped infix `m`, then whitespace, the strip of `s` is `m`. */
  lemma StripUnique(a: string, m: string, b: string, rt: Runtime)
    requires AllSpace(a, rt) && AllSpace(b, rt) && IsStripped(m, rt)
    ensures Strip(a + m + b, rt) == m
  {
    if m == "" {
      assert a + m + b == (a + b) + "";
      TrimStartSpaces(a + b, "", rt);
      assert TrimStart(a + m + b, rt) == "";
    } else {
      assert a + m + b == a + (m + b);
      TrimStartSpaces(a, m + b, rt);
      TrimEndSpaces(m, b, rt);
    }
  }

  lemma StripStripped(s: string, rt: Runtime)
    requires IsStripped(s, rt)
    ensures Strip(s, rt) == s
  {
    if s != "" {
      TrimStartSpaces("", s, rt);
      TrimEndSpaces(s, "", rt);
    }
  }

  lemma StripKeepsOut(s: string, c: char, rt: Runtime)
    requires c !in s
    ensures c !in Strip(s, rt)
  {
    var r := Strip(s, rt);
    var i :| OccursAt(s, r, i);
    forall k | 0 <= k < |r| ensures r[k] != c {
      assert r[k] == s[i + k];
    }
  }

  /** Drops the empty pieces of a list, keeping the order of the rest. */
  function DropEmpty(xs: seq<string>): (r: seq<string>)
    ensures forall k :: 0 <= k < |r| ==> r[k] != ""
    ensures forall e :: e in r <==> e in xs && e != ""
    ensures |r| <= |xs|
  {
    if |xs| == 0 then []
    else if xs[0] == "" then DropEmpty(xs[1..])
    else [xs[0]] + DropEmpty(xs[1..])
  }

  lemma {:induction false} DropEmptyKeepsNonEmpty(xs: seq<string>)
    requires forall k :: 0 <= k < |xs| ==> xs[k] != ""
    ensures DropEmpty(xs) == xs
  {
    if |xs| > 0 {
      DropEmptyKeepsNonEmpty(xs[1..]);
      assert xs == [xs[0]] + xs[1..];
    }
  }

  function StripAll(xs: seq<string>, rt: Runtime): (r: seq<string>)
    ensures |r| == |xs|
    ensures forall k :: 0 <= k < |r| ==> r[k] == Strip(xs[k], rt)
  {
    seq(|xs|, k requires 0 <= k < |xs| => Strip(xs[k], rt))
  }

  /** A piece as `SplitTrimmed` leaves it: non-empty, stripped, without `sep`. */
  predicate IsCleanPiece(e: string, sep: char, rt: Runtime) {
    e != "" && IsStripped(e, rt) && sep !in e
  }

  lemma SplitTrimmedPiecesClean(pieces: seq<string>, sep: char, rt: Runtime)
    requires FreeOf(pieces, sep)
    ensures forall e :: e in DropEmpty(StripAll(pieces, rt)) ==> IsCleanPiece(e, sep, rt)
  {
    var stripped := StripAll(pieces, rt);
    forall j | 0 <= j < |stripped| ensures sep !in stripped[j] {
      StripKeepsOut(pieces[j], sep, rt);
    }
    forall e | e in DropEmpty(stripped) ensures IsCleanPiece(e, sep, rt) {
      assert e in stripped;
    }
  }

  /** Split on `sep`, strip each piece and drop the empty ones: the decoding
      shared by `formatTerm` and `Settings.cors_origins`. */
  function SplitTrimmed(s: string, sep: char, rt: Runtime): (r: seq<string>)
    ensures forall k :: 0 <= k < |r| ==> IsCleanPiece(r[k], sep, rt)
  {
    var pieces := Split(s, sep);
    SplitTrimmedPiecesClean(pieces, sep, rt);
    DropEmpty(StripAll(pieces, rt))
  }

  /** Pieces that are already non-empty, stripped and free of the separator
      survive a join followed by `SplitTrimmed` unchanged. */
  lemma SplitTrimmedJoin(xs: seq<string>, sep: char, rt: Runtime)
    requires |xs| >= 1
    requires forall k :: 0 <= k < |xs| ==> IsCleanPiece(xs[k], sep, rt)
    ensures SplitTrimmed(Join(xs, sep), sep, rt) == xs
  {
    SplitJoin(xs, sep);
    forall k | 0 <= k < |xs| ensures Strip(xs[k], rt) == xs[k] {
      StripStripped(xs[k], rt);
    }
    assert StripAll(xs, rt) == xs;
    DropEmptyKeepsNonEmpty(xs);
  }

  // ---------------------------------------------------------------------------
  // Collation

  /** Lexicographic order on code points: the collation `ORDER BY term` uses. */
  predicate LexLe(a: string, b: string)
    decreases |a|
  {
    |a| == 0 || (|b| > 0 && (a[0] < b[0] || (a[0] == b[0] && LexLe(a[1..], b[1..]))))
  }

  lemma {:induction false} LexLeRefl(a: string)
    ensures LexLe(a, a)
    decreases |a|
  {
    if |a| > 0 {
      LexLeRefl(a[1..]);
    }
  }

  lemma {:induction false} LexLeAntisym(a: string, b: string)
    requires LexLe(a, b) && LexLe(b, a)
    ensures a == b
    decreases |a|
  {
    if |a| > 0 {
      LexLeAntisym(a[1..], b[1..]);
      assert a == [a[0]] + a[1..] && b == [b[0]] + b[1..];
    }
  }

  lemma {:induction false} LexLeTrans(a: string, b: string, c: string)
    requires LexLe(a, b) && LexLe(b, c)
    ensures LexLe(a, c)
    decreases |a|
  {
    if |a| > 0 && a[0] == b[0] && b[0] == c[0] {
      LexLeTrans(a[1..], b[1..], c[1..]);
    }
  }

  lemma {:induction false} LexLeTotal(a: string, b: string)
    ensures LexLe(a, b) || LexLe(b, a)
    decreases |a|
  {
    if |a| > 0 && |b| > 0 && a[0] == b[0] {
      LexLeTotal(a[1..], b[1..]);
    }
  }
}

=== FILE: ts_types.dfy ===
/** The request and response shapes of the TypeScript backend
    (backend/src/types.ts) and `formatTerm`, which turns a stored row into the
    JSON the Express routes answer with. Unlike the Python schemas, nothing
    here is validated: the shapes only say which fields a body may carry. */
module TsTypes {
  import opened Optional
  import opened Text
  import opened Domain
  import Codec

  /** `TermCreate`: flat source fields, every optional field may be absent. */
  datatype TermCreate = TermCreate(
    term: string,
    definition: string,
    synonyms: Option<seq<string>>,
    tags: Option<seq<string>>,
    sourceTitle: Option<string>,
    sourceAuthors: Option<string>,
    sourceYear: Option<int>,
    sourceLink: Option<string>)

  /** `TermUpdate = Partial<TermCreate>`: `None` is an absent key. */
  datatype TermUpdate = TermUpdate(
    term: Option<string>,
    definition: Option<string>,
    synonyms: Option<seq<string>>,
    tags: Option<seq<string>>,
    sourceTitle: Option<string>,
    sourceAuthors: Option<string>,
    sourceYear: Option<int>,
    sourceLink: Option<string>)

  datatype RelationCreate = RelationCreate(sourceId: int, targetId: int, kind: string)

  /** `RelationUpdate = Partial<RelationCreate>`. */
  datatype RelationUpdate = RelationUpdate(sourceId: Option<int>, targetId: Option<int>, kind: Option<string>)

  /** `TermResponse`: the stored row with its two lists decoded. */
  datatype TermResponse = TermResponse(
    id: int,
    term: string,
    definition: string,
    synonyms: Option<seq<string>>,
    tags: Option<seq<string>>,
    sourceTitle: Option<string>,
    sourceAuthors: Option<string>,
    sourceYear: Option<int>,
    sourceLink: Option<string>,
    createdAt: nat,
    updatedAt: nat)

  /** `formatTerm`: every column is copied, except that a non-NULL list column
      comes out split on commas, each piece trimmed, empty pieces dropped. */
  function FormatTerm(t: TermRow): (r: TermResponse)
    ensures r.id == t.id && r.term == t.term && r.definition == t.definition
    ensures r.sourceTitle == t.sourceTitle && r.sourceAuthors == t.sourceAuthors
    ensures r.sourceYear == t.sourceYear && r.sourceLink == t.sourceLink
    ensures r.createdAt == t.createdAt && r.updatedAt == t.updatedAt
    ensures r.synonyms.None? <==> t.synonyms.None?
    ensures r.tags.None? <==> t.tags.None?
    ensures r.synonyms.Some? ==> forall k :: 0 <= k < |r.synonyms.value| ==> IsCleanPiece(r.synonyms.value[k], Codec.Comma, JavaScript)
    ensures r.tags.Some? ==> forall k :: 0 <= k < |r.tags.value| ==> IsCleanPiece(r.tags.value[k], Codec.Comma, JavaScript)
  {
    TermResponse(t.id, t.term, t.definition,
      Codec.DecodeFormat(t.synonyms), Codec.DecodeFormat(t.tags),
      t.sourceTitle, t.sourceAuthors, t.sourceYear, t.sourceLink,
      t.createdAt, t.updatedAt)
  }

  /** Every row of a listing, formatted, in order. */
  function FormatTerms(rows: seq<TermRow>): (r: seq<TermResponse>)
    ensures |r| == |rows| && forall i :: 0 <= i < |rows| ==> r[i] == FormatTerm(rows[i])
  {
    seq(|rows|, i requires 0 <= i < |rows| => FormatTerm(rows[i]))
  }

  /** A formatted term shows the stored row with its id. */
  predicate Shows(st: State, out: TermResponse) {
    out.id in st.terms && FormatTerm(st.terms[out.id]) == out
  }

  /** A list stored as its comma-join (as every Python write and every
      non-empty TypeScript write stores it) comes back from `formatTerm`
      unchanged exactly when every element is non-empty, trimmed and
      comma-free; `[]`, stored as the empty string, reads back as `[]`. */
  lemma FormatReadsJoin(xs: seq<string>)
    ensures Codec.DecodeFormat(Some(Join(xs, Codec.Comma))) == Some(xs) <==>
      forall k :: 0 <= k < |xs| ==> IsCleanPiece(xs[k], Codec.Comma, JavaScript)
  {
    Codec.FormatRoundTrip(xs);
    if |xs| == 0 {
      assert Codec.DecodeFormat(Some(Join(xs, Codec.Comma))) == Some([]) by {
        Codec.EmptyStringReads();
      }
    }
  }
}
